=== FILE: README.md ===
# Career assistant core, modelled in Dafny

This project models the deterministic core of a career-guidance web
application. The backend turns a chat conversation into a profile: skills,
interests and an experience level. It scores and filters a fixed job catalog
against that profile, explains each recommended job, proposes next steps, and
gathers learning resources and mentorship platforms. It writes a paragraph
of career advice and answers filtered job searches. It keeps chat histories
in a session map and reads a CV for job-market keywords. The frontend keeps
several small stores — job feed filters, saved and applied jobs, course
enrollments, the user profile, application toggles and notifications — and
two pages hold a little list logic of their own.

Everything is written as pure functions over immutable datatypes:
- Strings are `seq<char>`, lowered with ASCII-only case folding.
- `includes` is `Text.Contains`.
- Match scores are exact `real` ratios.
- JavaScript's stable `sort` is a functional insertion sort, proved a
  permutation that orders by key and keeps equal keys in input order.

The catalogs (jobs, learning resources, mentor suggestions, platforms) are
transcribed as constants and bundled in `CareerService.Catalog`. The
services take a catalog as a parameter, and concrete facts are proved about
`CareerService.Default`.

The model follows the code's quirks rather than correcting them:
- Keyword tests are plain substring tests, so "java" is found inside
  "javascript", "go" inside "ago", "new" inside "renewed", and "hi" inside
  "this".
- Skill matching is containment in either direction.
- Resource keys are case-sensitive, so lower-cased skills never find them.
- A trailing comma in a search's skill list adds an empty skill, which
  every job passes.
- Chats without a session id all share one history, which no `DELETE`
  can reach.
- A search with a query keeps only the first ten keyword matches and
  filters those, so a job that matches the query and passes every filter
  can be missing from a short result.

Modules:
- `Wrappers`, `Text` and `Seqs` hold the shared vocabulary:
  - `Option`;
  - lower-casing, substring search, `split`, `trim` and digit parsing;
  - sub-sequences, filtering, first-occurrence de-duplication and the
    stable descending sort.
- `AiService`, `JobDatabase`, `LearningResources`, `Mentorship`,
  `CareerService`, `AiRoutes` and `CvController` model the backend.
- `JobStore`, `LearningStore`, `UserStore`, `AppStore`, `NotificationsPage`
  and `LearningPage` model the frontend.

## Model

| member | source | states |
|---|---|---|
| AiService.UserTextIgnoresAi | backend/services/aiService.js:107-111 | an assistant message adds nothing to the analysed text |
| AiService.UserTextAppendsUser | backend/services/aiService.js:107-111 | a user message extends the analysed text by a space and its lower-cased content (no space before the first) |
| AiService.ExtractSkills | backend/services/aiService.js:122-136 | the skills are exactly the skill keywords that occur in the text, in vocabulary order |
| AiService.ExtractInterests | backend/services/aiService.js:152-162 | the interests are exactly the interest keywords that occur in the text, in vocabulary order |
| AiService.JavaScriptImpliesJava | backend/services/aiService.js:122-136 | with no word boundaries, "java" is reported whenever "javascript" is |
| AiService.AgoReportsGo | backend/services/aiService.js:122-136 | "two years ago" reports the skill "go" |
| AiService.YearMatchAt | backend/services/aiService.js:142 | `(\d+)\s*year` matches at a position iff a non-empty digit run there is followed, after optional white space, by "year" |
| AiService.YearsFrom | backend/services/aiService.js:142-144 | from a start position: None iff no match starts at or after it, otherwise the value of the leftmost match's digit group |
| AiService.Years | backend/services/aiService.js:142-144 | None iff the pattern matches nowhere; otherwise the number the leftmost match captures |
| AiService.LevelForYears | backend/services/aiService.js:145-147 | entry iff at most 2 years, senior iff more than 5, mid otherwise |
| AiService.ExperienceOf | backend/services/aiService.js:139-149 | a beginner word forces entry; otherwise the leftmost year count decides the level, and none leaves it unset |
| AiService.YearsNeedYear | backend/services/aiService.js:141-142 | a year count is only ever found in text containing "year", so the guard on line 141 never changes the outcome of line 142 |
| AiService.RenewedMeansEntry | backend/services/aiService.js:139-140 | "renewed" contains "new", so ten years of experience still read as entry |
| AiService.FourYearsIsMid | backend/services/aiService.js:141-147 | "4 years of work" is mid level |
| AiService.LeadingYears | backend/services/aiService.js:142-144 | a text opening with a digit, a space and "year" reports that digit |
| AiService.AnalyzeUserProfile | backend/services/aiService.js:106-165 | skills, interests and experience are those of the users' text; education and goals are always empty |
| AiService.AnalysisIgnoresAi | backend/services/aiService.js:107-111 | appending an assistant message leaves the analysis unchanged |
| AiService.AnalysisOfSilence | backend/services/aiService.js:113-119 | with no user message the analysis is the empty profile |
| AiService.FallbackResponse | backend/services/aiService.js:73-103 | each of the six replies is given exactly when its keyword group is the first, in priority order, with a hit |
| AiService.ThisIsAGreeting | backend/services/aiService.js:96-99 | "Is this right?" is answered as a greeting, because "this" contains "hi" |
| JobDatabase.PercentBounds | backend/data/jobDatabase.js:376 | with no more matches than user skills the score lies in [0, 100], is positive iff something matched, and is exactly 100 times the matches over the larger of the two counts |
| JobDatabase.ScoreJob | backend/data/jobDatabase.js:367-379 | the matching skills are the user skills, in order, related to some listing skill; the score is 100 times their number over the larger of the user and listing skill counts, so it lies in [0, 100] and is positive iff any matched |
| JobDatabase.FindJobsBySkills | backend/data/jobDatabase.js:366-386 | exactly min(`limit`, number of positively scored jobs) scored catalog jobs, in descending score; every positive job is there when fewer than `limit` are; catalog ids stay distinct; nothing for an empty skill list |
| JobDatabase.TopScoredMembers | backend/data/jobDatabase.js:376-385 | the best `limit` of the positive scores are scored catalog jobs, and every positive job is among them when fewer than `limit` are kept |
| JobDatabase.TopScoredDistinct | backend/data/jobDatabase.js:376-385 | distinct catalog ids stay distinct through scoring, filtering, sorting and truncation |
| JobDatabase.NoSkillsNoScore | backend/data/jobDatabase.js:376-383 | with no user skills no job keeps a positive score |
| JobDatabase.FindJobsBySkillsKeepsBest | backend/data/jobDatabase.js:382-385 | a positively scored job left out scores no more than any job returned |
| JobDatabase.FindJobsBySkillsComplete | backend/data/jobDatabase.js:382-385 | without truncation every positive job is returned, and jobs of equal score keep their catalog order |
| JobDatabase.FindJobsByKeywords | backend/data/jobDatabase.js:389-400 | a catalog-ordered sub-list of jobs mentioning the keyword, at most `limit`, missing a mentioning job only when full; on a catalog without repeats, a mentioning job before a kept one is kept, so these are the first `limit` hits |
| JobDatabase.EmptyKeywordTakesFirst | backend/data/jobDatabase.js:389-400 | an empty keyword selects the first `limit` jobs |
| JobDatabase.KeywordCaseIgnored | backend/data/jobDatabase.js:390 | the keyword's case does not matter |
| JobDatabase.CatalogRepeatsTitle | backend/data/jobDatabase.js:329 | two catalog entries with different ids share one title |
| LearningResources.ResourcesForJob | backend/data/learningResources.js:377-379 | the list stored under the exact title, or empty |
| LearningResources.GatheredMembers | backend/data/learningResources.js:382-389 | a resource is gathered iff some given skill is a key whose list holds it |
| LearningResources.ResourcesForSkills | backend/data/learningResources.js:382-396 | an ordered sub-list of the resources gathered skill by skill, keeping the first resource of each title, titles in order of first appearance; every resource comes from a known skill, and every known skill's resources are represented by title |
| LearningResources.ResourcesForSkillsRepeat | backend/data/learningResources.js:390-395 | listing the skills twice gives the same resources |
| LearningResources.ResourcesForUnknownSkill | backend/data/learningResources.js:384-388 | an unknown skill contributes nothing |
| LearningResources.LowerCaseSkillUnknown | backend/data/learningResources.js:382-388 | "React" is a key and "react" is not |
| LearningResources.GeneralTitlesDistinct | backend/data/learningResources.js:399-442 | the general list has four entries with distinct titles |
| Mentorship.MentorRecommendations | backend/data/mentorshipData.js:183-211 | the first exact role match wins; failing that, the first related role, ignoring case; failing both, the two generic suggestions |
| Mentorship.MentorRecommendationsNeverEmpty | backend/data/mentorshipData.js:72-211 | every title gets at least two suggestions |
| Mentorship.EmptyTitleGetsFirstRole | backend/data/mentorshipData.js:190-195 | the empty title gets the first role's list, "Software Developer" |
| Mentorship.SuggestedPlatformsExist | backend/data/mentorshipData.js:2-209 | every suggested platform name, generic ones included, names a listed platform |
| Mentorship.AllMentorshipPlatforms | backend/data/mentorshipData.js:213-215 | six platforms with ids 1 to 6 |
| Mentorship.FindPlatform | backend/services/careerService.js:191 | the first platform with that name, and None exactly when no platform has it |
| Mentorship.PlatformsByCategory | backend/data/mentorshipData.js:218-224 | an ordered sub-list holding exactly the platforms with a category containing the argument, ignoring case, each with all its copies |
| Mentorship.EmptyCategorySelectsAll | backend/data/mentorshipData.js:218-224 | the empty category keeps every platform that has a category |
| CareerService.Unique | backend/services/careerService.js:44-45 | an ordered sub-list with no repeats and the same members, in order of first appearance |
| CareerService.InterestJobs | backend/services/careerService.js:53-56 | at most two per interest; a pick is exactly a job that some interest's two-hit keyword search finds |
| CareerService.InterestJobsConcat | backend/services/careerService.js:53-56 | interests are searched one by one, in order: the picks for a list are those of its first part followed by those of the rest, and one interest picks its keyword search's hits |
| CareerService.Merge | backend/services/careerService.js:58-64 | an ordered sub-list of ranked picks then interest picks keeping the first pick of each id, ids in order of first appearance, at most five, and no id skipped ahead of a kept one; ranked picks with distinct ids stay in front |
| CareerService.RankedBySkills | backend/services/careerService.js:47-50 | at most five catalog jobs, each with its positive score for the skills; none for no skills |
| CareerService.RankedBySkillsLaws | backend/services/careerService.js:47-50 | exactly min(5, number of positively scored jobs), all of them when fewer than five, best score first, with distinct ids when the catalog's are |
| CareerService.Candidates | backend/services/careerService.js:35-70 | at most five catalog jobs, never none for a non-empty catalog, with distinct ids when the catalog's ids are distinct |
| CareerService.CandidatesLaws | backend/services/careerService.js:35-70 | the first three catalog jobs exactly when skills and interests find nothing; otherwise only ranked or interest picks, ids in order of first appearance with none skipped ahead of a kept one, every interest pick's id present unless five are kept, and the whole skill ranking in front when catalog ids are distinct |
| CareerService.FirstJobs | backend/services/careerService.js:67-70 | the catalog's first three, one to three of them when the catalog is non-empty |
| CareerService.NothingKnownGivesFirstThree | backend/services/careerService.js:67-70 | with no skills and no interests the first three catalog jobs are offered |
| CareerService.RankedWithoutInterests | backend/services/careerService.js:47-50 | without interests a non-empty skill ranking is the answer |
| CareerService.RepeatedSkillsCountOnce | backend/services/careerService.js:39-49 | analysis skills already in the profile do not change the jobs |
| CareerService.MatchedSkills | backend/services/careerService.js:87-92 | the job's skills, in order and original casing, related to some user skill |
| CareerService.WhyRecommended | backend/services/careerService.js:81-108 | the first three matched skills when any; otherwise the entry, growth or prospects sentence, each exactly under its condition |
| CareerService.MissingSkills | backend/services/careerService.js:115-121 | the lower-cased job skills, in order, that no profile skill relates to |
| CareerService.NextSteps | backend/services/careerService.js:111-141 | one to three steps; learning first iff skills are missing; portfolio iff Technology or Design; networking always; experience step iff senior gap and room |
| CareerService.NextStepsOrder | backend/services/careerService.js:111-141 | exactly min(3, applicable steps) distinct steps in the fixed order: portfolio right after learning, networking next, experience last when kept |
| CareerService.StepsDiffer | backend/services/careerService.js:123-137 | the four step sentences are pairwise different |
| CareerService.JobRecommendations | backend/services/careerService.js:72-77 | one entry per candidate, in order, each with its reason and its steps |
| CareerService.LearningRecommendations | backend/services/careerService.js:144-169 | an ordered sub-list of title, skill and first two general resources keeping the first of each title, titles in order of first offer, at most eight, with no title skipped ahead of a kept one |
| CareerService.UnknownTitleGetsGeneral | backend/services/careerService.js:144-169 | an unknown title and no skills give the first two general resources |
| CareerService.Detailed | backend/services/careerService.js:189-196 | each suggestion is paired with the platform of its name, if any |
| CareerService.MentorshipRecommendations | backend/services/careerService.js:172-199 | no jobs: the first three platforms; otherwise at most four suggestions with distinct platforms, drawn from the titles' suggestions, each carrying the platform that bears its name, if any |
| CareerService.MentorshipOrder | backend/services/careerService.js:177-198 | with jobs, the suggestions kept are an ordered sub-list of all suggestions, each the first of its platform, platforms in order of first suggestion, with no platform skipped ahead of a kept one |
| CareerService.MentorshipComplete | backend/services/careerService.js:177-198 | with jobs, every suggested platform is listed unless four already are |
| CareerService.MentorsNonEmpty | backend/services/careerService.js:177-198 | when every role has suggestions, job titles always bring at least one mentor |
| CareerService.DefaultMentorsHaveDetails | backend/services/careerService.js:188-196 | on the shipped data every suggestion finds its platform details |
| CareerService.SuggestionFromRoles | backend/services/careerService.js:177-181 | every gathered suggestion is generic or comes from some role's list |
| CareerService.SkillCounts | backend/services/careerService.js:213-217 | one count per distinct skill, in first-appearance order, equal to its number of occurrences |
| CareerService.TopSkills | backend/services/careerService.js:219-222 | at most three skills, all occurring in the jobs |
| CareerService.TopSkillsShape | backend/services/careerService.js:213-222 | min(3, number of distinct skills) different skills, in non-increasing order of occurrence count |
| CareerService.TopSkillsMostFrequent | backend/services/careerService.js:219-222 | no skill left out occurs more often than one kept |
| CareerService.MissingTopSkills | backend/services/careerService.js:224-229 | the top skills, in order, that no user skill relates to, ignoring case |
| CareerService.ExperienceAdvice | backend/services/careerService.js:235-240 | the portfolio sentence iff entry or unset, the leadership sentence iff mid, nothing otherwise |
| CareerService.CareerAdvice | backend/services/careerService.js:202-249 | the exploration sentence iff no jobs; otherwise the top job's title, missing-skill advice, experience advice and the closing sentence |
| CareerService.GetCareerRecommendations | backend/services/careerService.js:11-32 | resources, mentors and advice are computed from the recommended jobs; a non-empty catalog yields a mentor list (not the platform list) and job-specific advice |
| CareerService.JobsBringMentors | backend/services/careerService.js:11-32 | a non-empty catalog whose roles all have suggestions yields at least one mentor suggestion |
| CareerService.DefaultSuggestsMentors | backend/services/careerService.js:11-32 | with the shipped data every request yields at least one mentor suggestion |
| CareerService.SearchJobs | backend/services/careerService.js:252-286 | at most ten jobs, an ordered sub-list of the first ten keyword hits (or, without a query, of the catalog), each passing every given filter and mentioning a given query; a passing job of that list is missing only when ten are listed, and (without catalog repeats) never skipped ahead of a kept one |
| CareerService.UnfilteredSearch | backend/services/careerService.js:252-286 | with no query and no filters, the first ten catalog jobs |
| AiRoutes.AssistantText | backend/services/aiService.js:63-70 | the model's reply, or the fallback reply to the user's message when the call failed |
| AiRoutes.Chat | backend/routes/ai.js:13-57 | no message: an error and no change; otherwise the session grows by the user and assistant messages, and recommendations come iff the history reaches four |
| AiRoutes.ChatKeepsOtherSessions | backend/routes/ai.js:22-43 | a chat touches only its own session |
| AiRoutes.SecondExchangeRecommends | backend/routes/ai.js:46-56 | on a new session the first exchange gives no recommendations and the second does |
| AiRoutes.AnonymousChatsShareHistory | backend/routes/ai.js:15-43 | chats without a session id extend one common history |
| AiRoutes.Recommendations | backend/routes/ai.js:72-83 | recommendations from the session's analysis, and from the empty analysis for an unknown session |
| AiRoutes.SearchFiltersOf | backend/routes/ai.js:96-99 | each filter is set iff its parameter is non-empty; the skills are the comma-separated parts, each trimmed, in order |
| AiRoutes.SearchRoute | backend/routes/ai.js:92-103 | at most ten jobs, an ordered sub-list of the search's starting jobs, each passing the filters built from the query string and mentioning a given query; a passing starting job is missing only when ten are listed and never skipped ahead of a kept one |
| AiRoutes.EmptySkillPassesEveryJob | backend/services/careerService.js:274-283 | an empty skill filter entry lets every job with skills through |
| AiRoutes.SplitTrailing | backend/routes/ai.js:99 | a word with a trailing separator splits into the word and an empty part |
| AiRoutes.TrailingCommaAddsEmptySkill | backend/routes/ai.js:99 | "React," yields the skills "React" and "" |
| AiRoutes.ResourcesRoute | backend/routes/ai.js:112-124 | a job title takes precedence over skills; with neither the list is empty |
| AiRoutes.MentorshipRoute | backend/routes/ai.js:133-140 | missing titles give the first three platforms |
| AiRoutes.DeleteSession | backend/routes/ai.js:149-153 | that session goes; every other session stays as it was |
| AiRoutes.GetSession | backend/routes/ai.js:161-165 | the session's history, or empty for an unknown one |
| AiRoutes.DeleteThenGet | backend/routes/ai.js:149-165 | after a delete the history reads empty; other histories are unchanged |
| AiRoutes.AnonymousHistoryOutOfReach | backend/routes/ai.js:149-153 | no delete removes the history of chats without a session id |
| CvController.FoundKeywords | backend/controllers/cvController.js:6-17 | exactly the global keywords in the lower-cased CV, in list order |
| CvController.RecommendedJobs | backend/controllers/cvController.js:21-32 | an ordered sub-list of exactly the listings that are technical and mention a found keyword, each with all its copies |
| CvController.CourseSuggestion | backend/controllers/cvController.js:33-39 | weak-CV message iff fewer than five keywords; no-match message iff enough keywords but no jobs; none otherwise |
| CvController.AnalyzeCv | backend/controllers/cvController.js:10-47 | no file: the 400 outcome; a failed fetch: the 500 outcome; otherwise keywords, jobs and suggestion as above |
| CvController.NoKeywordsNoJobs | backend/controllers/cvController.js:29-30 | a CV without keywords is recommended no job |
| CvController.RetailIsTechnical | backend/controllers/cvController.js:25-28 | "retail" contains "ai", so a retail listing counts as technical |
| JobStore.MinimumSalary | frontend/src/stores/jobStore.js:73-81 | no minimum exactly when the part before the first dash has no digit |
| JobStore.ApplyFilters | frontend/src/stores/jobStore.js:45-97 | an ordered sub-list of exactly the jobs passing the query and every active filter, each with its number of copies; nothing else changes |
| JobStore.NothingFiltersNothing | frontend/src/stores/jobStore.js:45-97 | no query and no filter keep every job |
| JobStore.SalaryWithoutDigitsExcludesNothing | frontend/src/stores/jobStore.js:73-81 | a salary filter without digits excludes nothing |
| JobStore.SetJobs | frontend/src/stores/jobStore.js:17 | both lists become the given jobs; nothing else changes |
| JobStore.SetSearchQuery | frontend/src/stores/jobStore.js:19-22 | the query is stored and the shown jobs are those it and the filters pass |
| JobStore.SetFilter | frontend/src/stores/jobStore.js:24-29 | exactly the named filter changes and the shown jobs are refiltered |
| JobStore.ClearFilters | frontend/src/stores/jobStore.js:31-43 | filters and query reset, every job shown, saved and applied lists kept |
| JobStore.ClearAgreesWithApply | frontend/src/stores/jobStore.js:31-97 | filtering after a clear changes nothing |
| JobStore.SaveJob | frontend/src/stores/jobStore.js:99-104 | the id is saved, appended at the end when new; nothing else added, no duplicate introduced |
| JobStore.UnsaveJob | frontend/src/stores/jobStore.js:106-109 | the id is gone; the others stay, in order |
| JobStore.IsJobSaved | frontend/src/stores/jobStore.js:118 | true exactly when some entry of the saved list is the id |
| JobStore.IsJobApplied | frontend/src/stores/jobStore.js:119 | true exactly when some entry of the applied list is the id |
| JobStore.ApplyToJob | frontend/src/stores/jobStore.js:111-116 | the id is applied, appended at the end when new; nothing else added, no duplicate introduced |
| JobStore.SaveAndApplyIdempotent | frontend/src/stores/jobStore.js:99-116 | saving or applying twice is the same as once |
| JobStore.SaveThenUnsave | frontend/src/stores/jobStore.js:99-118 | unsaving undoes a save, and the job then reads as not saved |
| JobStore.UnsaveKeepsDistinct | frontend/src/stores/jobStore.js:106-109 | unsaving keeps the saved list duplicate-free |
| LearningStore.EnrollCourse | frontend/src/stores/learningStore.js:7-16 | an enrolled course changes nothing; a new one is appended with no progress; ids stay distinct |
| LearningStore.EnrollIdempotent | frontend/src/stores/learningStore.js:7-16 | enrolling twice is enrolling once |
| LearningStore.UpdateCourseProgress | frontend/src/stores/learningStore.js:18-26 | matching entries take the progress and are completed iff it reaches 100; the others are untouched |
| LearningStore.CompleteCourse | frontend/src/stores/learningStore.js:28-34 | matching entries are at 100 and completed; the others are untouched |
| LearningStore.CompleteIsFullProgress | frontend/src/stores/learningStore.js:18-34 | completing is setting the progress to 100 |
| LearningStore.UnenrollCourse | frontend/src/stores/learningStore.js:36-40 | exactly the entries with that id go; the rest keep their order and their number of copies |
| LearningStore.OperationsKeepIdsDistinct | frontend/src/stores/learningStore.js:7-40 | progress, completion and unenrollment keep enrolled ids distinct |
| LearningStore.GetEnrolledCourse | frontend/src/stores/learningStore.js:42-44 | the first entry with that id, and None exactly when there is none |
| LearningStore.AvailableCourses | frontend/src/stores/learningStore.js:48-51 | the catalog, in order, minus the enrolled courses; every other course keeps all its copies |
| LearningStore.EnrollHidesCourse | frontend/src/stores/learningStore.js:7-51 | an enrolled course is no longer available, and unenrolling offers it again |
| LearningPage.RecommendedJobs | frontend/src/pages/Learning.jsx:44-52 | nothing for an unfinished course; otherwise the ordered sub-list of jobs whose title names the field or that share a skill, each with all its copies |
| LearningPage.SkillCaseMatters | frontend/src/pages/Learning.jsx:49 | skills are compared exactly, so "react" does not find "React" |
| LearningPage.NextProgress | frontend/src/pages/Learning.jsx:265 | progress plus 25 below 75, and exactly 100 from 75 up |
| LearningPage.ContinueLearning | frontend/src/pages/Learning.jsx:265 | the course's progress becomes progress plus 25, capped at 100, and it is completed iff it was at 75 or more; other courses are untouched |
| LearningPage.FourStepsComplete | frontend/src/pages/Learning.jsx:265 | four steps take a new enrollment to 100 and completion |
| UserStore.UpdateProfile | frontend/src/stores/userStore.js:20-23 | every supplied field, the id included, is overwritten and every other field kept |
| UserStore.UpdateProfileLaws | frontend/src/stores/userStore.js:20-23 | the empty update is the identity, and an update is idempotent |
| UserStore.UpdateProfileCompletion | frontend/src/stores/userStore.js:25-28 | only the completion changes |
| UserStore.CompletionIsAnUpdate | frontend/src/stores/userStore.js:20-28 | setting the completion is the update that supplies only it |
| UserStore.AddSkill | frontend/src/stores/userStore.js:30-36 | the skill is appended, even when already listed; nothing else changes |
| UserStore.RemoveSkill | frontend/src/stores/userStore.js:38-44 | every copy goes; the others stay, in order and with their number of copies |
| UserStore.AddThenRemove | frontend/src/stores/userStore.js:30-44 | removing a skill just added is the same as removing it alone |
| UserStore.SetUser | frontend/src/stores/userStore.js:46 | the record is replaced as a whole |
| AppStore.SetCurrentPage | frontend/src/stores/appStore.js:8 | only the page changes |
| AppStore.SetTheme | frontend/src/stores/appStore.js:12 | only the theme changes |
| AppStore.ToggleSidebar | frontend/src/stores/appStore.js:10 | the sidebar flag flips and nothing else changes |
| AppStore.ToggleAIChat | frontend/src/stores/appStore.js:18 | the chat flag flips and nothing else changes |
| AppStore.TogglesInvolutive | frontend/src/stores/appStore.js:10-18 | each toggle undoes itself, and the two commute |
| AppStore.AddAIMessage | frontend/src/stores/appStore.js:20-23 | the message is appended; nothing else changes |
| AppStore.ClearAIMessages | frontend/src/stores/appStore.js:25 | the message list empties; nothing else changes |
| AppStore.AddNotification | frontend/src/stores/appStore.js:30-36 | the notification is appended under the clock reading as id; nothing else changes |
| AppStore.RemoveNotification | frontend/src/stores/appStore.js:38-41 | exactly the notifications with that id go; the rest keep their order and their number of copies |
| AppStore.ClearNotifications | frontend/src/stores/appStore.js:43 | the notification list empties; nothing else changes |
| AppStore.SameInstantRemovedTogether | frontend/src/stores/appStore.js:30-41 | two notifications added at one instant share an id and are removed together |
| NotificationsPage.FilteredNotifications | frontend/src/pages/Notifications.jsx:87-91 | an ordered sub-list of exactly the visible notifications, each with all its copies; "all" shows everything |
| NotificationsPage.FilterTabs | frontend/src/pages/Notifications.jsx:16-39 | each tab's count is the length of the list its filter shows |
| NotificationsPage.UnreadCount | frontend/src/pages/Notifications.jsx:21 | at most the total, and zero exactly when all are read |
| NotificationsPage.AllTabCountsEverything | frontend/src/pages/Notifications.jsx:16-22 | the "all" tab counts every notification and the "unread" tab the unread ones |
| NotificationsPage.MarkAsRead | frontend/src/pages/Notifications.jsx:67-73 | only the read flag can change; entries with that id are read; others are untouched |
| NotificationsPage.MarkAllAsRead | frontend/src/pages/Notifications.jsx:75-79 | every entry is read and otherwise unchanged |
| NotificationsPage.MarkAllAsReadLaws | frontend/src/pages/Notifications.jsx:67-79 | afterwards nothing is unread, and marking all or one again changes nothing |
| NotificationsPage.MarkAsReadLowersUnread | frontend/src/pages/Notifications.jsx:67-73 | the unread count never rises, and falls when an unread entry had that id |
| NotificationsPage.DeleteNotification | frontend/src/pages/Notifications.jsx:81-85 | exactly the entries with that id go; the rest keep their order and their number of copies |
| NotificationsPage.DeleteThenMarkCommute | frontend/src/pages/Notifications.jsx:67-85 | deleting one id and marking another read commute |
| Text.Split | backend/routes/ai.js:99 | at least one part, and no part holds the separator |
| Text.SplitJoin | backend/routes/ai.js:99 | joining the parts with the separator gives the string back |
| Text.Trim | backend/routes/ai.js:99 | a slice with only white space cut off either end, and no white space at its ends |
| Seqs.KeepFirstBy | backend/services/careerService.js:60-62 | an ordered sub-list with distinct keys, the same keys, each element the first with its key, keys in order of first occurrence |
| Seqs.TakeKeepFirst | backend/services/careerService.js:184-198 | cutting the de-duplicated list keeps keys in first-occurrence order and skips no key that first occurs before a kept one |
| Seqs.TakeFilterClosed | backend/data/jobDatabase.js:389-400 | cutting a filtered list without repeats skips no passing element ahead of a kept one |
| Seqs.FilterCounts | frontend/src/stores/userStore.js:38-44 | filtering keeps every copy of an element that passes and none of one that fails |
| Seqs.KeepFirstRepeats | backend/data/learningResources.js:390-395 | elements repeating earlier keys do not change the de-duplicated result |
| Seqs.SortDesc | backend/data/jobDatabase.js:384 | a permutation in descending key order that keeps equal keys in input order |
| Seqs.TopOfSorted | backend/data/jobDatabase.js:384-385 | truncating the sorted list drops no element with a larger key than one kept |

## Left out

- `generateResponse` (backend/services/aiService.js:30-62) calls an external language model. Its reply is the parameter `modelReply`, and `None` stands for a failed call, whose fallback on lines 64-70 is modelled.
- HTTP plumbing is not modelled: Express routing, JSON encoding, timestamps, the 500 answers of the route handlers, and request bodies of the wrong shape. Route parameters are `Option`s of the expected type.
- The global session `Map` is a value of type `map<Option<string>, seq<Message>>`, where `None` is a missing session id. Concurrent requests are not modelled.
- Reading the CV file and fetching the job board (backend/controllers/cvController.js:15-20) are inputs. A failed fetch is the `Board.Unreachable` case.
- Lookups of keys such as "constructor" that a JavaScript object inherits from its prototype are not modelled. The tables are Dafny maps and sequences.
- `CareerService.SkillCounts` lists skills in first-appearance order. This is the order `Object.entries` gives for keys that are not integer-like; integer-like keys are not modelled.
- `parseInt` is modelled as exact decimal value. Precision loss above 2^53 is not modelled.
- Lower-casing is ASCII-only. JavaScript's Unicode case mapping is not modelled.
- Scores are exact rationals, not floating point. A 0/0 score, NaN in the source, is 0, which fails `> 0` just as NaN does.
- `Date.now()` in `addNotification` is the parameter `now`.
- Rendering, styling, icons, the rest of Learning.jsx and Notifications.jsx, and the other pages and components are presentation only.
- The learning store's `getEnrolledCourses` accessor only returns the list and is not modelled.
- The catalog's job, resource and mentorship data are transcribed as constants.
- CareerService.Candidates: distinct ids are promised only when the catalog's ids are themselves distinct, since the skill ranking is returned as is without interests. The shipped catalog repeats a title under two ids, but never an id.
- CareerService.TopSkills: the order among equally frequent skills (first appearance, by the stable sort) is not stated. TopSkillsShape and TopSkillsMostFrequent state the length, distinctness and frequency order.
- JobDatabase.FindJobsBySkills: the catalog order of equal scores is stated only without truncation, in FindJobsBySkillsComplete; with truncation the descending order, the length and (in FindJobsBySkillsKeepsBest) that no dropped job outscores a kept one are stated, but not which of several equally scored jobs survive the cut.
- AiService.AnalyzeUserProfile: the goals and education fields are always empty, as in the source, and nothing about them is modelled.

=== FILE: ai_service.dfy ===
/** The conversation analysis of the AI service: the keyword-based profile
    extraction run over the user's messages, and the canned reply used when
    the language model cannot be reached. */
module AiService {

  import opened Wrappers
  import opened Text
  import opened Seqs

  datatype Author = User | Ai

  /** One chat message; only the author and the text matter here. */
  datatype Message = Message(author: Author, content: string)

  /** Experience level as the analysis names it ('entry', 'mid', 'senior'). */
  datatype Level = Entry | Mid | Senior {
    function Name(): string {
      match this
      case Entry => "entry"
      case Mid => "mid"
      case Senior => "senior"
    }
  }

  /** The profile extracted from a conversation. Education and goals are
      part of the record but the analysis never fills them in. */
  datatype Analysis = Analysis(
    skills: seq<string>,
    interests: seq<string>,
    experience: Option<Level>,
    education: Option<string>,
    goals: seq<string>)

  const SkillKeywords: seq<string> := [
    "javascript", "python", "react", "node", "java", "css", "html", "sql", "mongodb",
    "aws", "docker", "git", "typescript", "vue", "angular", "express", "django",
    "flask", "spring", "laravel", "php", "ruby", "go", "rust", "c++", "c#", ".net",
    "swift", "kotlin", "android", "ios", "figma", "sketch", "photoshop",
    "illustrator", "ui", "ux", "design", "marketing", "seo", "analytics",
    "project management", "agile", "scrum"]

  const InterestKeywords: seq<string> := [
    "web development", "mobile development", "data science", "machine learning",
    "ai", "cybersecurity", "devops", "product management", "design", "marketing",
    "sales"]

  /** Words that mark the user as a beginner whatever else they say. */
  const BeginnerWords: seq<string> := ["beginner", "new", "starting"]

  // ---------------------------------------------------------------------
  // The text the analysis reads
  // ---------------------------------------------------------------------

  /** Contents of the user's messages, in conversation order. */
  function UserContents(messages: seq<Message>): (r: seq<string>)
    ensures |r| <= |messages|
  {
    if messages == [] then []
    else
      var init := UserContents(messages[..|messages| - 1]);
      var last := messages[|messages| - 1];
      if last.author == User then init + [last.content] else init
  }

  /** The user's messages joined with single spaces and lower-cased. */
  function UserText(messages: seq<Message>): string {
    LowerStr(Join(UserContents(messages), " "))
  }

  /** Messages written by the assistant never change what the analysis reads. */
  lemma UserTextIgnoresAi(messages: seq<Message>, content: string)
    ensures UserText(messages + [Message(Ai, content)]) == UserText(messages)
  {
    assert (messages + [Message(Ai, content)])[..|messages|] == messages;
  }

  /** A new user message extends the analysed text by a space and its own
      lower-cased content. */
  lemma UserTextAppendsUser(messages: seq<Message>, content: string)
    ensures UserText(messages + [Message(User, content)])
         == if UserContents(messages) == [] then LowerStr(content)
            else UserText(messages) + " " + LowerStr(content)
  {
    var ms := messages + [Message(User, content)];
    assert ms[..|messages|] == messages;
    assert UserContents(ms) == UserContents(messages) + [content];
    JoinSnoc(UserContents(messages), content, " ");
    if UserContents(messages) != [] {
      var j := Join(UserContents(messages), " ");
      LowerStrConcat(j + " ", content);
      LowerStrConcat(j, " ");
    }
  }

  // ---------------------------------------------------------------------
  // Keyword extraction
  // ---------------------------------------------------------------------

  /** The skill keywords that occur anywhere in `text`, in vocabulary order. */
  function ExtractSkills(text: string): (r: seq<string>)
    ensures IsSubseq(r, SkillKeywords)
    ensures forall w :: w in r <==> w in SkillKeywords && Contains(text, w)
  {
    KeywordsIn(text, SkillKeywords)
  }

  /** The interest keywords that occur anywhere in `text`, in vocabulary order. */
  function ExtractInterests(text: string): (r: seq<string>)
    ensures IsSubseq(r, InterestKeywords)
    ensures forall w :: w in r <==> w in InterestKeywords && Contains(text, w)
  {
    KeywordsIn(text, InterestKeywords)
  }

  /** Matching is by substring, so naming JavaScript also reports Java. */
  lemma JavaScriptImpliesJava(text: string)
    ensures "javascript" in ExtractSkills(text) ==> "java" in ExtractSkills(text)
  {
    if "javascript" in ExtractSkills(text) {
      JavaInJavaScript();
      JavaIsSkill();
      KeywordsInClosed(text, SkillKeywords, "javascript", "java");
    }
  }

  lemma JavaIsSkill()
    ensures "java" in SkillKeywords
  {
    assert SkillKeywords[4] == "java";
  }

  lemma JavaInJavaScript()
    ensures Contains("javascript", "java")
  {
    assert OccursAt("javascript", "java", 0);
  }

  /** Matching is by substring, so the word "ago" reports the Go language. */
  lemma AgoReportsGo()
    ensures "go" in ExtractSkills("two years ago")
  {
    assert OccursAt("two years ago", "go", 11);
  }

  // ---------------------------------------------------------------------
  // Years of experience: the pattern /(\d+)\s*year/
  // ---------------------------------------------------------------------

  /** `t[i..j]` is a run of digits, `t[j..k]` a run of white space and "year"
      starts at `k`: one match of the pattern, whose group is `t[i..j]`. */
  ghost predicate YearMatch(t: string, i: int, j: int, k: int) {
    0 <= i < j <= k && k + 4 <= |t|
    && (forall m :: i <= m < j ==> IsDigit(t[m]))
    && (forall m :: j <= m < k ==> IsSpace(t[m]))
    && OccursAt(t, "year", k)
  }

  /** Some match of the pattern starts at `i`. */
  ghost predicate MatchAt(t: string, i: int) {
    exists j, k :: YearMatch(t, i, j, k)
  }

  /** No match starts in `[lo, hi)`. */
  ghost predicate NoMatchBetween(t: string, lo: int, hi: int) {
    forall q :: lo <= q < hi ==> !MatchAt(t, q)
  }

  /** The match at `p`, with group `t[p..j]`, is the leftmost one at or after `lo`. */
  ghost predicate LeftmostYearMatch(t: string, lo: int, p: int, j: int) {
    lo <= p && (exists k :: YearMatch(t, p, j, k)) && NoMatchBetween(t, lo, p)
  }

  /** End of the run of digits starting at `i`. */
  function DigitEnd(t: string, i: nat): (j: nat)
    requires i <= |t|
    ensures i <= j <= |t|
    ensures forall m :: i <= m < j ==> IsDigit(t[m])
    ensures j == |t| || !IsDigit(t[j])
    decreases |t| - i
  {
    if i == |t| || !IsDigit(t[i]) then i else DigitEnd(t, i + 1)
  }

  /** A match starting at `i` is unique: the digit run is maximal (`\d+` is
      greedy and cannot be followed by a digit, since neither white space
      nor 'y' is one) and so is the run of white space. */
  lemma YearMatchShape(t: string, i: nat, j: int, k: int)
    requires i <= |t| && YearMatch(t, i, j, k)
    ensures j == DigitEnd(t, i) && k == SkipSpaces(t, j)
  {
    var d := DigitEnd(t, i);
    assert t[k..k + 4][0] == 'y';
    assert IsSpace(t[j]) || t[j] == 'y';
    assert !IsDigit(t[j]);
    assert j == d;
    var e := SkipSpaces(t, j);
    assert !IsSpace(t[k]);
    assert k == e;
  }

  /** A match starts at `i` exactly when the digit run there is non-empty and
      "year" follows the white space after it. */
  lemma YearMatchAt(t: string, i: nat)
    requires i <= |t|
    ensures MatchAt(t, i)
        <==> (DigitEnd(t, i) > i && OccursAt(t, "year", SkipSpaces(t, DigitEnd(t, i))))
  {
    var j := DigitEnd(t, i);
    if MatchAt(t, i) {
      var j', k' :| YearMatch(t, i, j', k');
      YearMatchShape(t, i, j', k');
    }
    if j > i && OccursAt(t, "year", SkipSpaces(t, j)) {
      assert YearMatch(t, i, j, SkipSpaces(t, j));
    }
  }

  /** The group of the leftmost match at or after `i`, read as a number. */
  function YearsFrom(t: string, i: nat): (r: Option<nat>)
    requires i <= |t|
    ensures r.None? <==> NoMatchBetween(t, i, |t|)
    ensures r.Some? ==> exists p, j :: LeftmostYearMatch(t, i, p, j)
                                     && r.value == DecimalValue(t[p..j])
    decreases |t| - i
  {
    YearMatchAt(t, i);
    if i == |t| then
      None
    else
      var j := DigitEnd(t, i);
      if j > i && OccursAt(t, "year", SkipSpaces(t, j)) then
        assert YearMatch(t, i, j, SkipSpaces(t, j));
        assert LeftmostYearMatch(t, i, i, j);
        Some(DecimalValue(t[i..j]))
      else
        var rest := YearsFrom(t, i + 1);
        NoMatchExtend(t, i, |t|);
        if rest.Some? then LeftmostStep(t, i, rest.value); rest else rest
  }

  /** The leftmost match after a position with none is the leftmost match
      from that position on. */
  lemma LeftmostStep(t: string, i: nat, v: nat)
    requires !MatchAt(t, i)
    requires exists p, j :: LeftmostYearMatch(t, i + 1, p, j) && v == DecimalValue(t[p..j])
    ensures exists p, j :: LeftmostYearMatch(t, i, p, j) && v == DecimalValue(t[p..j])
  {
    var p, j :| LeftmostYearMatch(t, i + 1, p, j) && v == DecimalValue(t[p..j]);
    NoMatchExtend(t, i, p);
    assert LeftmostYearMatch(t, i, p, j);
  }

  /** A run with no match can be extended by one position that has none. */
  lemma NoMatchExtend(t: string, i: int, hi: int)
    requires !MatchAt(t, i)
    ensures NoMatchBetween(t, i + 1, hi) <==> NoMatchBetween(t, i, hi)
  {
  }

  /** No match can start at the end of the text or later. */
  lemma NoMatchPastEnd(t: string, q: int)
    requires |t| <= q
    ensures !MatchAt(t, q)
  {
  }

  /** `text.match(/(\d+)\s*year/)`, with the captured number. */
  function Years(t: string): (r: Option<nat>)
    ensures r.None? <==> forall q :: !MatchAt(t, q)
    ensures r.Some? ==> exists p, j :: LeftmostYearMatch(t, 0, p, j)
                                     && r.value == DecimalValue(t[p..j])
  {
    var r := YearsFrom(t, 0);
    forall q | q < 0 || |t| <= q
      ensures !MatchAt(t, q)
    {
    }
    r
  }

  /** Up to 2 years is entry level, up to 5 mid level, more is senior. */
  function LevelForYears(n: nat): (l: Level)
    ensures l == Entry <==> n <= 2
    ensures l == Senior <==> 5 < n
  {
    if n <= 2 then Entry else if n <= 5 then Mid else Senior
  }

  /** The experience level the analysis reads from the lower-cased text. */
  function ExperienceOf(t: string): (r: Option<Level>)
    ensures ContainsAny(t, BeginnerWords) ==> r == Some(Entry)
    ensures !ContainsAny(t, BeginnerWords) ==>
              r == (match Years(t) case None => None case Some(n) => Some(LevelForYears(n)))
  {
    BeginnerWordsListed(t);
    if Contains(t, "beginner") || Contains(t, "new") || Contains(t, "starting") then
      Some(Entry)
    else if Contains(t, "year") || Contains(t, "experience") then
      match Years(t)
      case Some(n) => Some(LevelForYears(n))
      case None => None
    else
      YearsNeedYear(t);
      None
  }

  /** Some beginner word occurs exactly when one of the three listed ones does. */
  lemma BeginnerWordsListed(t: string)
    ensures ContainsAny(t, BeginnerWords) <==>
              Contains(t, "beginner") || Contains(t, "new") || Contains(t, "starting")
  {
    assert BeginnerWords[0] == "beginner" && BeginnerWords[1] == "new" && BeginnerWords[2] == "starting";
  }

  /** The pattern cannot match text that does not contain "year". */
  lemma YearsNeedYear(t: string)
    ensures Years(t).Some? ==> Contains(t, "year")
  {
    if Years(t).Some? {
      var q :| MatchAt(t, q);
      var j, k :| YearMatch(t, q, j, k);
      assert OccursAt(t, "year", k);
    }
  }

  /** "renewed" contains "new", so it marks the writer as a beginner even
      after ten years of work. */
  lemma RenewedMeansEntry()
    ensures ExperienceOf("i renewed my contract after 10 years") == Some(Entry)
  {
    var t := "i renewed my contract after 10 years";
    assert t[4] == 'n' && t[5] == 'e' && t[6] == 'w';
    assert OccursAt(t, "new", 4);
  }

  /** Four years of work is mid level. */
  lemma FourYearsIsMid()
    ensures ExperienceOf("4 years of work") == Some(Mid)
  {
    var t := "4 years of work";
    NotContainsAnyByChars(t, BeginnerWords, "bng");
    assert t[0] == '4' && t[1] == ' ' && t[2..6] == "year";
    LeadingYears(t, 4);
  }

  /** A text opening with one digit, a space and "year" reports that digit. */
  lemma LeadingYears(t: string, n: nat)
    requires n < 10 && |t| >= 6 && t[0] == ('0' as int + n) as char && t[1] == ' ' && t[2..6] == "year"
    ensures Years(t) == Some(n)
  {
    assert YearMatch(t, 0, 1, 2);
    assert MatchAt(t, 0);
    assert Years(t).Some?;
    var p, j :| LeftmostYearMatch(t, 0, p, j) && Years(t).value == DecimalValue(t[p..j]);
    var k :| YearMatch(t, p, j, k);
    assert p == 0;
    YearMatchShape(t, p, j, k);
    assert t[p..j] == [t[0]];
    assert [t[0]][..0] == [];
    assert DecimalValue([t[0]]) == n;
  }

  // ---------------------------------------------------------------------
  // The analysis
  // ---------------------------------------------------------------------

  /** Profile extracted from the user's side of a conversation. */
  function AnalyzeUserProfile(messages: seq<Message>): (r: Analysis)
    ensures forall w :: w in r.skills <==> w in SkillKeywords && Contains(UserText(messages), w)
    ensures forall w :: w in r.interests <==> w in InterestKeywords && Contains(UserText(messages), w)
    ensures IsSubseq(r.skills, SkillKeywords) && IsSubseq(r.interests, InterestKeywords)
    ensures r.experience == ExperienceOf(UserText(messages))
    ensures r.education == None && r.goals == []
  {
    var text := UserText(messages);
    Analysis(ExtractSkills(text), ExtractInterests(text), ExperienceOf(text), None, [])
  }

  /** An assistant reply leaves the analysis as it was. */
  lemma AnalysisIgnoresAi(messages: seq<Message>, content: string)
    ensures AnalyzeUserProfile(messages + [Message(Ai, content)]) == AnalyzeUserProfile(messages)
  {
    UserTextIgnoresAi(messages, content);
  }

  /** With nothing said, nothing is found. */
  lemma AnalysisOfSilence(messages: seq<Message>)
    requires forall m :: m in messages ==> m.author == Ai
    ensures AnalyzeUserProfile(messages) == Analysis([], [], None, None, [])
  {
    SilentUserText(messages);
    SkillWordsNonEmpty();
    InterestWordsNonEmpty();
    NothingInEmptyText(SkillKeywords);
    NothingInEmptyText(InterestKeywords);
  }

  lemma SkillWordsNonEmpty()
    ensures forall w :: w in SkillKeywords ==> |w| > 0
  {
  }

  lemma InterestWordsNonEmpty()
    ensures forall w :: w in InterestKeywords ==> |w| > 0
  {
  }

  /** The empty text holds no word of a vocabulary without the empty word. */
  lemma NothingInEmptyText(vocab: seq<string>)
    requires forall w :: w in vocab ==> |w| > 0
    ensures KeywordsIn("", vocab) == []
  {
    forall w | w in vocab ensures !Contains("", w) {
      EmptyContainsNothing("", w);
    }
    KeywordsInNone("", vocab);
  }

  lemma {:induction false} SilentUserText(messages: seq<Message>)
    requires forall m :: m in messages ==> m.author == Ai
    ensures UserContents(messages) == [] && UserText(messages) == ""
  {
    if messages != [] {
      SilentUserText(messages[..|messages| - 1]);
    }
  }

  // ---------------------------------------------------------------------
  // Fallback reply
  // ---------------------------------------------------------------------

  const CareerReply := "I'd love to help you with your career! Could you tell me about your current skills and what type of work interests you?"
  const LearningReply := "That's great that you're interested in learning! What skills do you currently have, and what areas would you like to develop?"
  const BackgroundReply := "I'd like to learn more about your background. Could you share your work experience and education with me?"
  const GoalsReply := "It's important to have clear goals! What are you hoping to achieve in your career? Are you looking to change roles, advance in your current field, or explore something new?"
  const GreetingReply := "Hello! I'm here to help you with your career journey. To get started, could you tell me a bit about your current situation and what you're looking for?"
  const DefaultReply := "I'm here to help you with your career! Could you tell me more about your background, skills, and what you're looking for in your career?"

  const CareerWords: seq<string> := ["job", "career", "work"]
  const LearningWords: seq<string> := ["skill", "learn", "study"]
  const BackgroundWords: seq<string> := ["experience", "background"]
  const GoalWords: seq<string> := ["goal", "future", "want"]
  const GreetingWords: seq<string> := ["hello", "hi", "hey"]

  /** Reply used when the language model is unavailable: the first topic
      (career, learning, background, goals, greeting) whose words occur in
      the lower-cased message decides. */
  function FallbackResponse(message: string): (r: string)
    ensures var m := LowerStr(message);
      && (r == CareerReply <==> ContainsAny(m, CareerWords))
      && (r == LearningReply <==> !ContainsAny(m, CareerWords) && ContainsAny(m, LearningWords))
      && (r == BackgroundReply <==> !ContainsAny(m, CareerWords) && !ContainsAny(m, LearningWords)
                                    && ContainsAny(m, BackgroundWords))
      && (r == GoalsReply <==> !ContainsAny(m, CareerWords) && !ContainsAny(m, LearningWords)
                               && !ContainsAny(m, BackgroundWords) && ContainsAny(m, GoalWords))
      && (r == GreetingReply <==> !ContainsAny(m, CareerWords) && !ContainsAny(m, LearningWords)
                                  && !ContainsAny(m, BackgroundWords) && !ContainsAny(m, GoalWords)
                                  && ContainsAny(m, GreetingWords))
      && (r == DefaultReply <==> !ContainsAny(m, CareerWords) && !ContainsAny(m, LearningWords)
                                 && !ContainsAny(m, BackgroundWords) && !ContainsAny(m, GoalWords)
                                 && !ContainsAny(m, GreetingWords))
  {
    var m := LowerStr(message);
    if Contains(m, "job") || Contains(m, "career") || Contains(m, "work") then CareerReply
    else if Contains(m, "skill") || Contains(m, "learn") || Contains(m, "study") then LearningReply
    else if Contains(m, "experience") || Contains(m, "background") then BackgroundReply
    else if Contains(m, "goal") || Contains(m, "future") || Contains(m, "want") then GoalsReply
    else if Contains(m, "hello") || Contains(m, "hi") || Contains(m, "hey") then GreetingReply
    else DefaultReply
  }

  /** "hi" is matched anywhere, so "Is this right?" is taken for a greeting. */
  lemma ThisIsAGreeting()
    ensures FallbackResponse("Is this right?") == GreetingReply
  {
    assert LowerStr("Is this right?") == "is this right?";
    NoTopicInQuestion();
    HiInQuestion();
  }

  lemma NoTopicInQuestion()
    ensures var m := "is this right?";
      !ContainsAny(m, CareerWords) && !ContainsAny(m, LearningWords)
      && !ContainsAny(m, BackgroundWords) && !ContainsAny(m, GoalWords)
  {
    var m := "is this right?";
    NotContainsAnyByChars(m, CareerWords, "oco");
    NotContainsAnyByChars(m, LearningWords, "kld");
    NotContainsAnyByChars(m, BackgroundWords, "xb");
    NotContainsAnyByChars(m, GoalWords, "ofw");
  }

  lemma HiInQuestion()
    ensures Contains("is this right?", "hi")
  {
    assert OccursAt("is this right?", "hi", 4);
  }
}

=== FILE: airoutes.dfy ===
/** The AI routes of the HTTP API over an in-memory session store: chat,
    recommendations, job search, learning resources, mentorship, and
    clearing and reading a session's history. Requests and responses are
    records; the language model's reply arrives as a parameter. */
module AiRoutes {

  import opened Wrappers
  import opened Text
  import opened Seqs
  import opened AiService
  import opened JobDatabase
  import opened LearningResources
  import opened CareerService

  /** Conversation histories by session id. A request without a session id
      uses the key None, shared by every such request. */
  type Sessions = map<Option<string>, seq<Message>>

  /** `conversationSessions.get(sessionId) || []`. */
  function History(store: Sessions, sessionId: Option<string>): seq<Message> {
    if sessionId in store then store[sessionId] else []
  }

  /** The answer to a chat request. */
  datatype ChatReply =
    | MessageRequired
    | Replied(aiMessage: Message, recommendations: Option<CareerRecommendations>, conversationLength: nat)

  /** The assistant's text: the model's reply, or when the model call fails
      (None) the canned reply chosen from the user's message. */
  function AssistantText(userMessage: string, modelReply: Option<string>): (r: string)
    ensures modelReply.Some? ==> r == modelReply.value
    ensures modelReply.None? ==> r == FallbackResponse(userMessage)
  {
    match modelReply
    case Some(text) => text
    case None => FallbackResponse(userMessage)
  }

  /** The profile a request carries, `{}` when it carries none. */
  function ProfileOrEmpty(profile: Option<UserProfile>): UserProfile {
    profile.GetOr(EmptyProfile)
  }

  /** Number of messages after which a chat reply carries recommendations. */
  const RecommendAfter := 4

  /** `POST /chat`: without a message, an error and no change; otherwise the
      user message and the assistant message are appended to the session,
      and recommendations come along once the session holds four messages. */
  function Chat(cat: Catalog, store: Sessions, message: Option<string>, sessionId: Option<string>,
                profile: Option<UserProfile>, modelReply: Option<string>): (r: (ChatReply, Sessions))
    ensures !Truthy(message) <==> r.0.MessageRequired?
    ensures !Truthy(message) ==> r.1 == store
    ensures Truthy(message) ==>
      var history := History(store, sessionId) + [Message(User, message.value), Message(Ai, AssistantText(message.value, modelReply))];
      && r.1 == store[sessionId := history]
      && r.0.aiMessage == Message(Ai, AssistantText(message.value, modelReply))
      && r.0.conversationLength == |History(store, sessionId)| + 2
      && (r.0.recommendations.Some? <==> |History(store, sessionId)| + 2 >= RecommendAfter)
      && (r.0.recommendations.Some? ==>
            r.0.recommendations.value == GetCareerRecommendations(cat, ProfileOrEmpty(profile), AnalyzeUserProfile(history)))
  {
    if !Truthy(message) then (MessageRequired, store)
    else
      var aiMessage := Message(Ai, AssistantText(message.value, modelReply));
      var history := History(store, sessionId) + [Message(User, message.value), aiMessage];
      var recommendations :=
        if |history| >= RecommendAfter then Some(GetCareerRecommendations(cat, ProfileOrEmpty(profile), AnalyzeUserProfile(history)))
        else None;
      (Replied(aiMessage, recommendations, |history|), store[sessionId := history])
  }

  /** A chat touches no session but its own. */
  lemma ChatKeepsOtherSessions(cat: Catalog, store: Sessions, message: Option<string>, sessionId: Option<string>,
                               profile: Option<UserProfile>, modelReply: Option<string>, other: Option<string>)
    requires other != sessionId
    ensures History(Chat(cat, store, message, sessionId, profile, modelReply).1, other) == History(store, other)
  {
  }

  /** The first exchange of a session brings no recommendations; the second does. */
  lemma SecondExchangeRecommends(cat: Catalog, store: Sessions, sessionId: Option<string>,
                                 m1: string, m2: string, reply1: Option<string>, reply2: Option<string>)
    requires sessionId !in store
    requires m1 != "" && m2 != ""
    ensures var first := Chat(cat, store, Some(m1), sessionId, None, reply1);
            var second := Chat(cat, first.1, Some(m2), sessionId, None, reply2);
            && first.0.Replied? && first.0.recommendations.None? && first.0.conversationLength == 2
            && second.0.Replied? && second.0.recommendations.Some? && second.0.conversationLength == 4
            && History(second.1, sessionId) == [Message(User, m1), Message(Ai, AssistantText(m1, reply1))]
                                               + [Message(User, m2), Message(Ai, AssistantText(m2, reply2))]
  {
    var first := Chat(cat, store, Some(m1), sessionId, None, reply1);
    var h1 := [Message(User, m1), Message(Ai, AssistantText(m1, reply1))];
    assert History(store, sessionId) == [];
    assert first.1 == store[sessionId := [] + h1];
    assert History(first.1, sessionId) == h1;
    var second := Chat(cat, first.1, Some(m2), sessionId, None, reply2);
    assert second.1 == first.1[sessionId := h1 + [Message(User, m2), Message(Ai, AssistantText(m2, reply2))]];
  }

  /** Requests without a session id all extend the same history. */
  lemma AnonymousChatsShareHistory(cat: Catalog, store: Sessions, m: string,
                                   profile: Option<UserProfile>, modelReply: Option<string>)
    requires m != ""
    ensures var s := Chat(cat, store, Some(m), None, profile, modelReply).1;
      History(s, None)[..|History(store, None)|] == History(store, None)
  {
  }

  /** `POST /recommendations`: recommendations from the request's profile and
      the analysis of the session's history (empty when unknown). */
  function Recommendations(cat: Catalog, store: Sessions, profile: Option<UserProfile>, sessionId: Option<string>): (r: CareerRecommendations)
    ensures r == GetCareerRecommendations(cat, ProfileOrEmpty(profile), AnalyzeUserProfile(History(store, sessionId)))
    ensures sessionId !in store ==> r == GetCareerRecommendations(cat, ProfileOrEmpty(profile), Analysis([], [], None, None, []))
  {
    var messages := History(store, sessionId);
    assert sessionId !in store ==> AnalyzeUserProfile(messages) == Analysis([], [], None, None, []) by {
      if sessionId !in store {
        AnalysisOfSilence(messages);
      }
    }
    GetCareerRecommendations(cat, ProfileOrEmpty(profile), AnalyzeUserProfile(messages))
  }

  /** Each part of a comma-separated list with surrounding blanks removed. */
  function TrimAll(parts: seq<string>): (r: seq<string>)
    ensures |r| == |parts|
    ensures forall i :: 0 <= i < |parts| ==> r[i] == Trim(parts[i])
  {
    seq(|parts|, i requires 0 <= i < |parts| => Trim(parts[i]))
  }

  /** The filters built from the query string: only the non-empty parameters
      become filters; `skills` is split at commas and each part trimmed. */
  function SearchFiltersOf(category: Option<string>, level: Option<string>, skills: Option<string>): (r: SearchFilters)
    ensures r.category.Some? <==> Truthy(category)
    ensures r.level.Some? <==> Truthy(level)
    ensures r.skills.Some? <==> Truthy(skills)
    ensures r.category.Some? ==> r.category == category
    ensures r.level.Some? ==> r.level == level
    ensures r.skills.Some? ==> |r.skills.value| == |Split(skills.value, ',')|
    ensures r.skills.Some? ==>
              forall i :: 0 <= i < |r.skills.value| ==> r.skills.value[i] == Trim(Split(skills.value, ',')[i])
  {
    SearchFilters(
      if Truthy(category) then category else None,
      if Truthy(level) then level else None,
      if Truthy(skills) then Some(TrimAll(Split(skills.value, ','))) else None)
  }

  /** `GET /jobs/search`. */
  function SearchRoute(cat: Catalog, query: Option<string>, category: Option<string>, level: Option<string>,
                       skills: Option<string>): (r: seq<Job>)
    ensures |r| <= 10
    ensures IsSubseq(r, cat.jobs)
    ensures forall job :: job in r ==> Passes(SearchFiltersOf(category, level, skills), job)
    ensures Truthy(query) ==> forall job :: job in r ==> Mentions(LowerStr(query.value), job)
    ensures forall job :: (job in SearchBase(cat, query) && job !in r
                           && Passes(SearchFiltersOf(category, level, skills), job)) ==> |r| == 10
    ensures IsSubseq(r, SearchBase(cat, query))
    ensures Distinct(cat.jobs) ==> forall i, j ::
              (0 <= i < j < |SearchBase(cat, query)| && SearchBase(cat, query)[j] in r
               && Passes(SearchFiltersOf(category, level, skills), SearchBase(cat, query)[i]))
              ==> SearchBase(cat, query)[i] in r
  {
    SearchJobs(cat, query, SearchFiltersOf(category, level, skills))
  }

  /** An empty part in the skills list (a trailing comma, say) is contained
      in every skill, so it lets through every job that lists any skill. */
  lemma EmptySkillPassesEveryJob(f: SearchFilters, job: Job)
    requires f.skills.Some? && "" in f.skills.value && job.skills != []
    ensures PassesSkills(f, job)
  {
    ContainsEmpty(LowerStr(job.skills[0]));
    assert job.skills[0] in job.skills;
    assert RelatedIgnoringCase(job.skills[0], "");
  }

  /** A list ending in the separator splits into the list and an empty part. */
  lemma {:induction false} SplitTrailing(w: string, sep: char)
    requires sep !in w
    ensures Split(w + [sep], sep) == [w, ""]
  {
    if w == [] {
      assert [sep][1..] == [];
    } else {
      assert (w + [sep])[1..] == w[1..] + [sep];
      assert w[0] in w;
      SplitTrailing(w[1..], sep);
      assert [w[0]] + w[1..] == w;
    }
  }

  /** `React,` is read as the skills React and the empty string. */
  lemma TrailingCommaAddsEmptySkill()
    ensures TrimAll(Split("React,", ',')) == ["React", ""]
  {
    SplitTrailing("React", ',');
    assert "React" + [','] == "React,";
    var parts := Split("React,", ',');
    TrimWord();
    assert Trim(parts[0]) == "React";
    assert Trim(parts[1]) == "";
  }

  lemma TrimWord()
    ensures Trim("React") == "React"
  {
    assert !IsSpace("React"[0]) && !IsSpace("React"[4]);
    assert SkipSpaces("React", 0) == 0;
    assert BackSpaces("React", 0, 5) == 5;
  }

  /** `POST /resources`: a job title takes precedence over a skills list;
      with neither the answer is empty. */
  function ResourcesRoute(cat: Catalog, jobTitle: Option<string>, skills: Option<seq<string>>): (r: seq<Resource>)
    ensures Truthy(jobTitle) ==> r == LearningRecommendations(cat, None, [jobTitle.value])
    ensures !Truthy(jobTitle) && skills.Some? && skills.value != [] ==> r == LearningRecommendations(cat, skills, [])
    ensures !Truthy(jobTitle) && (skills.None? || skills.value == []) ==> r == []
    ensures |r| <= 8
  {
    if Truthy(jobTitle) then LearningRecommendations(cat, None, [jobTitle.value])
    else if skills.Some? && |skills.value| > 0 then LearningRecommendations(cat, skills, [])
    else []
  }

  /** `POST /mentorship`: without job titles, the first three platforms. */
  function MentorshipRoute(cat: Catalog, jobTitles: Option<seq<string>>): (r: MentorSuggestions)
    ensures r == MentorshipRecommendations(cat, jobTitles.GetOr([]))
    ensures jobTitles.None? ==> r == PlatformList(Take(cat.platforms, 3))
  {
    MentorshipRecommendations(cat, jobTitles.GetOr([]))
  }

  /** `DELETE /session/:sessionId`: forgets that session only. */
  function DeleteSession(store: Sessions, sessionId: string): (r: Sessions)
    ensures Some(sessionId) !in r
    ensures forall k :: k != Some(sessionId) ==> (k in r <==> k in store)
    ensures forall k :: k in r ==> r[k] == store[k]
  {
    map k | k in store && k != Some(sessionId) :: store[k]
  }

  /** `GET /session/:sessionId`: the history, empty when unknown. */
  function GetSession(store: Sessions, sessionId: string): (r: seq<Message>)
    ensures Some(sessionId) in store ==> r == store[Some(sessionId)]
    ensures Some(sessionId) !in store ==> r == []
  {
    History(store, Some(sessionId))
  }

  /** A cleared session reads back empty, and the others read back as before. */
  lemma DeleteThenGet(store: Sessions, sessionId: string, other: string)
    ensures GetSession(DeleteSession(store, sessionId), sessionId) == []
    ensures other != sessionId ==> GetSession(DeleteSession(store, sessionId), other) == GetSession(store, other)
  {
  }

  /** The history of a request without a session id cannot be read or cleared
      through the session routes, which always carry an id. */
  lemma AnonymousHistoryOutOfReach(store: Sessions, sessionId: string)
    ensures None in store ==> None in DeleteSession(store, sessionId)
  {
  }
}

=== FILE: appstore.dfy ===
/** The client-side application store: navigation, the sidebar and chat
    toggles, the assistant's message list and the notification list. */
module AppStore {

  import opened Seqs

  /** A message shown in the assistant panel. */
  datatype ChatMessage = ChatMessage(kind: string, content: string)

  /** A notification; the store gives it its id when it is added. */
  datatype Notice = Notice(id: int, title: string, message: string)

  datatype AppState = AppState(
    currentPage: string,
    sidebarOpen: bool,
    theme: string,
    aiChatOpen: bool,
    aiMessages: seq<ChatMessage>,
    notifications: seq<Notice>)

  const Initial := AppState("job-feed", true, "dark", false, [], [])

  function SetCurrentPage(st: AppState, page: string): (r: AppState)
    ensures r.currentPage == page && r.(currentPage := st.currentPage) == st
  {
    st.(currentPage := page)
  }

  function SetTheme(st: AppState, theme: string): (r: AppState)
    ensures r.theme == theme && r.(theme := st.theme) == st
  {
    st.(theme := theme)
  }

  /** `toggleSidebar`: the sidebar flag flips; nothing else changes. */
  function ToggleSidebar(st: AppState): (r: AppState)
    ensures r.sidebarOpen != st.sidebarOpen
    ensures r.(sidebarOpen := st.sidebarOpen) == st
  {
    st.(sidebarOpen := !st.sidebarOpen)
  }

  /** `toggleAIChat`: the chat flag flips; nothing else changes. */
  function ToggleAIChat(st: AppState): (r: AppState)
    ensures r.aiChatOpen != st.aiChatOpen
    ensures r.(aiChatOpen := st.aiChatOpen) == st
  {
    st.(aiChatOpen := !st.aiChatOpen)
  }

  /** Toggling twice restores the state; the two toggles commute. */
  lemma TogglesInvolutive(st: AppState)
    ensures ToggleSidebar(ToggleSidebar(st)) == st
    ensures ToggleAIChat(ToggleAIChat(st)) == st
    ensures ToggleSidebar(ToggleAIChat(st)) == ToggleAIChat(ToggleSidebar(st))
  {
  }

  /** `addAIMessage`: appended at the end; nothing else changes. */
  function AddAIMessage(st: AppState, m: ChatMessage): (r: AppState)
    ensures |r.aiMessages| == |st.aiMessages| + 1
    ensures r.aiMessages[..|st.aiMessages|] == st.aiMessages && r.aiMessages[|st.aiMessages|] == m
    ensures r.(aiMessages := st.aiMessages) == st
  {
    st.(aiMessages := st.aiMessages + [m])
  }

  function ClearAIMessages(st: AppState): (r: AppState)
    ensures r.aiMessages == [] && r.(aiMessages := st.aiMessages) == st
  {
    st.(aiMessages := [])
  }

  /** `addNotification`: appended with the clock reading `now` as its id. */
  function AddNotification(st: AppState, n: Notice, now: int): (r: AppState)
    ensures |r.notifications| == |st.notifications| + 1
    ensures r.notifications[..|st.notifications|] == st.notifications
    ensures r.notifications[|st.notifications|] == n.(id := now)
    ensures r.(notifications := st.notifications) == st
  {
    st.(notifications := st.notifications + [n.(id := now)])
  }

  function IdIsNot(id: int): Notice -> bool {
    (n: Notice) => n.id != id
  }

  /** `removeNotification`: every notification with that id goes; the others stay, in order. */
  function RemoveNotification(st: AppState, id: int): (r: AppState)
    ensures IsSubseq(r.notifications, st.notifications)
    ensures forall n :: n in r.notifications <==> n in st.notifications && n.id != id
    ensures forall n: Notice :: n.id != id ==> multiset(r.notifications)[n] == multiset(st.notifications)[n]
    ensures r.(notifications := st.notifications) == st
  {
    FilterCounts(st.notifications, IdIsNot(id));
    st.(notifications := Filter(st.notifications, IdIsNot(id)))
  }

  function ClearNotifications(st: AppState): (r: AppState)
    ensures r.notifications == [] && r.(notifications := st.notifications) == st
  {
    st.(notifications := [])
  }

  /** Two notifications added at the same clock reading share an id, so
      removing one removes both. */
  lemma SameInstantRemovedTogether(st: AppState, a: Notice, b: Notice, now: int)
    ensures var s := AddNotification(AddNotification(st, a, now), b, now);
      RemoveNotification(s, now) == RemoveNotification(st, now)
  {
    var s1 := AddNotification(st, a, now);
    FilterConcat(st.notifications, [a.(id := now)], IdIsNot(now));
    FilterConcat(s1.notifications, [b.(id := now)], IdIsNot(now));
    assert Filter([a.(id := now)], IdIsNot(now)) == [];
    assert Filter([b.(id := now)], IdIsNot(now)) == [];
  }
}

=== FILE: careerservice.dfy ===
/** The recommendation engine: from a user profile and a conversation analysis
    it picks catalog jobs, explains each pick, proposes next steps, gathers
    learning resources and mentorship platforms, writes a paragraph of advice,
    and answers filtered job searches. */
module CareerService {

  import opened Wrappers
  import opened Text
  import opened Seqs
  import opened AiService
  import opened JobDatabase
  import opened LearningResources
  import opened Mentorship

  /** The data the engine draws on. The deployed engine uses `Default`. */
  datatype Catalog = Catalog(
    jobs: seq<Job>,
    resources: map<string, seq<Resource>>,
    general: seq<Resource>,
    roles: seq<RoleMentors>,
    platforms: seq<Platform>)

  const Default := Catalog(Jobs, Table, General, Recommendations, Platforms)

  /** The fields of the request's user profile the engine reads; a missing
      field is None. */
  datatype UserProfile = UserProfile(skills: Option<seq<string>>, experience: Option<string>)

  /** `{}`: the profile used when the request carries none. */
  const EmptyProfile := UserProfile(None, None)

  /** JavaScript truthiness of an optional string: present and non-empty. */
  predicate Truthy(s: Option<string>) {
    s.Some? && s.value != ""
  }

  function ProfileSkills(profile: UserProfile): seq<string> {
    profile.skills.GetOr([])
  }

  function Self(s: string): string {
    s
  }

  /** `[...new Set(s)]`: first occurrences, in order. */
  function Unique(s: seq<string>): (r: seq<string>)
    ensures IsSubseq(r, s)
    ensures forall i, j :: 0 <= i < j < |r| ==> r[i] != r[j]
    ensures forall x :: x in r <==> x in s
    ensures forall n, i, j :: 0 <= n <= |s| && 0 <= i < j < |r| && r[j] in s[..n] ==> r[i] in s[..n]
  {
    var r := KeepFirstBy(s, Self);
    SubseqMembers(r, s);
    SubseqLength(r, s);
    TakeKeepFirst(s, Self, |s|);
    assert Take(r, |s|) == r;
    forall n, i, j | 0 <= n <= |s| && 0 <= i < j < |r| && r[j] in s[..n] ensures r[i] in s[..n] {
      var k :| 0 <= k < n && s[..n][k] == r[j];
      assert HasKey(s[..n], Self, Self(r[j]));
      var q :| 0 <= q < n && Self(s[..n][q]) == Self(r[i]);
    }
    forall x | x in s ensures x in r {
      var i :| 0 <= i < |s| && s[i] == x;
      assert HasKey(s, Self, x);
      var j :| 0 <= j < |r| && Self(r[j]) == x;
    }
    r
  }

  // ---------------------------------------------------------------------
  // Job recommendations
  // ---------------------------------------------------------------------

  /** A picked job: ranked by skills (with its score) or found by an interest. */
  datatype Candidate = Ranked(scored: ScoredJob) | Found(found: Job) {
    function Job(): Job {
      match this
      case Ranked(sj) => sj.job
      case Found(j) => j
    }
  }

  function CandidateId(c: Candidate): string {
    c.Job().id
  }

  /** A recommended job with the reason it was picked and up to three next steps. */
  datatype JobRecommendation = JobRecommendation(candidate: Candidate, whyRecommended: string, nextSteps: seq<string>)

  function RankedAll(sjs: seq<ScoredJob>): (r: seq<Candidate>)
    ensures |r| == |sjs|
    ensures forall i :: 0 <= i < |sjs| ==> r[i] == Ranked(sjs[i])
  {
    seq(|sjs|, i requires 0 <= i < |sjs| => Ranked(sjs[i]))
  }

  function FoundAll(jobs: seq<Job>): (r: seq<Candidate>)
    ensures |r| == |jobs|
    ensures forall i :: 0 <= i < |jobs| ==> r[i] == Found(jobs[i])
  {
    seq(|jobs|, i requires 0 <= i < |jobs| => Found(jobs[i]))
  }

  /** Up to two catalog jobs per interest, interests in order. */
  function InterestJobs(cat: Catalog, interests: seq<string>): (r: seq<Candidate>)
    ensures |r| <= 2 * |interests|
    ensures forall c :: c in r ==> c.Found? && c.found in cat.jobs
    ensures forall c :: c in r <==>
              c.Found? && exists i :: 0 <= i < |interests| && c.found in FindJobsByKeywords(cat.jobs, interests[i], 2)
  {
    if interests == [] then []
    else
      var first := FindJobsByKeywords(cat.jobs, interests[0], 2);
      var rest := InterestJobs(cat, interests[1..]);
      SubseqMembers(first, cat.jobs);
      InterestStep(cat, interests, first, rest);
      FoundAll(first) + rest
  }

  /** The membership step of `InterestJobs`: the first interest's finds, then the rest. */
  lemma InterestStep(cat: Catalog, interests: seq<string>, first: seq<Job>, rest: seq<Candidate>)
    requires interests != [] && first == FindJobsByKeywords(cat.jobs, interests[0], 2)
    requires forall c :: c in rest <==>
               c.Found? && exists i :: 0 <= i < |interests[1..]| && c.found in FindJobsByKeywords(cat.jobs, interests[1..][i], 2)
    ensures forall c :: c in FoundAll(first) + rest <==>
              c.Found? && exists i :: 0 <= i < |interests| && c.found in FindJobsByKeywords(cat.jobs, interests[i], 2)
  {
    var r := FoundAll(first) + rest;
    forall c ensures c in r <==>
      c.Found? && exists i :: 0 <= i < |interests| && c.found in FindJobsByKeywords(cat.jobs, interests[i], 2)
    {
      if c in FoundAll(first) {
        var k :| 0 <= k < |first| && FoundAll(first)[k] == c;
        assert c.found in FindJobsByKeywords(cat.jobs, interests[0], 2);
      }
      if c in rest {
        var i :| 0 <= i < |interests[1..]| && c.found in FindJobsByKeywords(cat.jobs, interests[1..][i], 2);
        assert interests[1..][i] == interests[i + 1];
      }
      if c.Found? && exists i :: 0 <= i < |interests| && c.found in FindJobsByKeywords(cat.jobs, interests[i], 2) {
        var i :| 0 <= i < |interests| && c.found in FindJobsByKeywords(cat.jobs, interests[i], 2);
        if i == 0 {
          var k :| 0 <= k < |first| && first[k] == c.found;
          assert FoundAll(first)[k] == c;
        } else {
          assert interests[1..][i - 1] == interests[i];
        }
      }
    }
  }

  /** The interests are searched one by one: the picks for a list of
      interests are the picks for its first part followed by those for
      the rest, and a single interest picks its two first finds. */
  lemma {:induction false} InterestJobsConcat(cat: Catalog, a: seq<string>, b: seq<string>)
    ensures InterestJobs(cat, a + b) == InterestJobs(cat, a) + InterestJobs(cat, b)
    ensures |a| == 1 ==> InterestJobs(cat, a) == FoundAll(FindJobsByKeywords(cat.jobs, a[0], 2))
  {
    if a == [] {
      assert a + b == b;
    } else {
      assert (a + b)[0] == a[0];
      assert (a + b)[1..] == a[1..] + b;
      InterestJobsConcat(cat, a[1..], b);
      var first := FoundAll(FindJobsByKeywords(cat.jobs, a[0], 2));
      assert InterestJobs(cat, a + b) == first + (InterestJobs(cat, a[1..]) + InterestJobs(cat, b));
      assert InterestJobs(cat, a) == first + InterestJobs(cat, a[1..]);
      if |a| == 1 {
        assert a[1..] == [];
        assert first + [] == first;
      }
    }
  }

  /** The profile's skills followed by the analysed skills, without repeats. */
  function CombinedSkills(profile: UserProfile, analysis: Analysis): seq<string> {
    Unique(ProfileSkills(profile) + analysis.skills)
  }

  /** The ranked picks merged with the interest picks: the first pick of
      each id, in order, cut to five. Ranked picks with distinct ids all
      survive, in front. */
  function Merge(ranked: seq<Candidate>, extra: seq<Candidate>): (r: seq<Candidate>)
    ensures |r| <= 5
    ensures DistinctBy(r, CandidateId)
    ensures IsSubseq(r, ranked + extra)
    ensures forall c :: c in r ==> FirstWithKey(ranked + extra, CandidateId, c)
    ensures forall c :: c in r ==> c in ranked || c in extra
    ensures forall c :: c in ranked + extra ==> HasKey(r, CandidateId, CandidateId(c)) || |r| == 5
    ensures InFirstOrder(r, ranked + extra, CandidateId) && EarlierKeysKept(r, ranked + extra, CandidateId)
    ensures DistinctBy(ranked, CandidateId) && |ranked| <= 5 ==> |ranked| <= |r| && r[..|ranked|] == ranked
  {
    var r := Take(KeepFirstBy(ranked + extra, CandidateId), 5);
    MergeLaws(ranked, extra, r);
    MergeOrderLaws(ranked, extra, r);
    r
  }

  /** The shape of the merge's result `r`: few enough, no repeated id,
      first picks only, and no pick dropped while there is room. */
  lemma MergeLaws(ranked: seq<Candidate>, extra: seq<Candidate>, r: seq<Candidate>)
    requires r == Take(KeepFirstBy(ranked + extra, CandidateId), 5)
    ensures |r| <= 5
    ensures DistinctBy(r, CandidateId)
    ensures IsSubseq(r, ranked + extra)
    ensures forall c :: c in r ==> FirstWithKey(ranked + extra, CandidateId, c)
    ensures forall c :: c in r ==> c in ranked || c in extra
    ensures forall c :: c in ranked + extra ==> HasKey(r, CandidateId, CandidateId(c)) || |r| == 5
  {
    var all := ranked + extra;
    var kept := KeepFirstBy(all, CandidateId);
    SubseqMembers(kept, all);
    TakeDistinct(kept, CandidateId, 5);
    TakeSubseq(kept, 5);
    SubseqTrans(r, kept, all);
    SubseqMembers(r, kept);
    TakeKeepFirstComplete(all, CandidateId, 5);
  }

  /** The order of the merge's result `r`: first-occurrence order with no
      id skipped, and distinct ranked picks kept whole in front. */
  lemma MergeOrderLaws(ranked: seq<Candidate>, extra: seq<Candidate>, r: seq<Candidate>)
    requires r == Take(KeepFirstBy(ranked + extra, CandidateId), 5)
    ensures InFirstOrder(r, ranked + extra, CandidateId) && EarlierKeysKept(r, ranked + extra, CandidateId)
    ensures DistinctBy(ranked, CandidateId) && |ranked| <= 5 ==> |ranked| <= |r| && r[..|ranked|] == ranked
  {
    TakeKeepFirst(ranked + extra, CandidateId, 5);
    if DistinctBy(ranked, CandidateId) && |ranked| <= 5 {
      KeepFirstPrefix(ranked, extra, CandidateId);
      KeepFirstDistinct(ranked, CandidateId);
      TakeKeepsPrefix(KeepFirstBy(ranked + extra, CandidateId), ranked, 5);
    }
  }

  /** The five catalog jobs that best match the skills, best first, as picks. */
  function RankedBySkills(cat: Catalog, skills: seq<string>): (r: seq<Candidate>)
    ensures |r| <= 5
    ensures forall c :: c in r ==>
              c.Ranked? && c.scored == ScoreJob(c.Job(), LowerAll(skills)) && c.Job() in cat.jobs && c.scored.matchScore > 0.0
    ensures skills == [] ==> r == []
  {
    if |skills| > 0 then RankedAll(FindJobsBySkills(cat.jobs, skills, 5)) else []
  }

  /** The skill ranking keeps every positively scored job while there is
      room for five, best score first, with the catalog's ids. */
  lemma RankedBySkillsLaws(cat: Catalog, skills: seq<string>)
    ensures var r := RankedBySkills(cat, skills);
      && |r| == Min(5, |Filter(ScoreAll(cat.jobs, LowerAll(skills)), PositiveScore)|)
      && (forall job :: job in cat.jobs && PositiveScore(ScoreJob(job, LowerAll(skills))) && |r| < 5
            ==> Ranked(ScoreJob(job, LowerAll(skills))) in r)
      && (forall i, j :: 0 <= i < j < |r| ==> r[i].scored.matchScore >= r[j].scored.matchScore)
      && (DistinctBy(cat.jobs, JobId) ==> DistinctBy(r, CandidateId))
  {
    var found := FindJobsBySkills(cat.jobs, skills, 5);
    var r := RankedBySkills(cat, skills);
    assert r == RankedAll(found) by {
      if |skills| == 0 {
        assert found == [];
      }
    }
    RankedAllKeeps(found);
  }

  /** Wrapping scored jobs as picks keeps each of them, their order by
      score and their distinct ids. */
  lemma RankedAllKeeps(sjs: seq<ScoredJob>)
    ensures forall x :: x in sjs ==> Ranked(x) in RankedAll(sjs)
    ensures SortedDesc(sjs, ScoreOf) ==>
              forall i, j :: 0 <= i < j < |sjs| ==> RankedAll(sjs)[i].scored.matchScore >= RankedAll(sjs)[j].scored.matchScore
    ensures DistinctBy(sjs, ScoredId) ==> DistinctBy(RankedAll(sjs), CandidateId)
  {
    var r := RankedAll(sjs);
    assert forall i :: 0 <= i < |r| ==> CandidateId(r[i]) == ScoredId(sjs[i]);
    forall x | x in sjs ensures Ranked(x) in r {
      var i :| 0 <= i < |sjs| && sjs[i] == x;
      assert r[i] == Ranked(x);
    }
    if SortedDesc(sjs, ScoreOf) {
      forall i, j | 0 <= i < j < |sjs| ensures r[i].scored.matchScore >= r[j].scored.matchScore {
        assert ScoreOf(sjs[i]) >= ScoreOf(sjs[j]);
      }
    }
  }

  /** The jobs picked before they are explained: the five best ranked by
      skills; merged, when interests were found, with the jobs each
      interest finds, without repeated ids and cut to five; and when all
      that is empty, the first three catalog jobs. */
  function Candidates(cat: Catalog, profile: UserProfile, analysis: Analysis): (r: seq<Candidate>)
    ensures |r| <= 5
    ensures forall c :: c in r ==> c.Job() in cat.jobs
    ensures cat.jobs != [] ==> r != []
    ensures DistinctBy(cat.jobs, JobId) ==> DistinctBy(r, CandidateId)
  {
    var ranked := RankedBySkills(cat, CombinedSkills(profile, analysis));
    var merged := if |analysis.interests| > 0 then Merge(ranked, InterestJobs(cat, analysis.interests)) else ranked;
    assert DistinctBy(cat.jobs, JobId) ==> DistinctBy(ranked, CandidateId) by {
      RankedBySkillsLaws(cat, CombinedSkills(profile, analysis));
    }
    if merged == [] then FirstJobs(cat.jobs) else merged
  }

  /** Where the picks come from: the fallback only when skills and
      interests find nothing; otherwise only ranked or interest picks, every
      interest pick's job present unless five are already listed, and (with
      distinct catalog ids) the whole skill ranking in front. */
  lemma CandidatesLaws(cat: Catalog, profile: UserProfile, analysis: Analysis)
    ensures var r := Candidates(cat, profile, analysis);
            var ranked := RankedBySkills(cat, CombinedSkills(profile, analysis));
            var interest := InterestJobs(cat, analysis.interests);
      && (ranked == [] && interest == [] ==> r == FirstJobs(cat.jobs))
      && (ranked != [] || interest != [] ==> forall c :: c in r ==> c in ranked || c in interest)
      && (forall c :: c in interest ==> HasKey(r, CandidateId, CandidateId(c)) || |r| == 5)
      && (DistinctBy(cat.jobs, JobId) ==> |ranked| <= |r| && r[..|ranked|] == ranked)
      && ((ranked != [] || interest != []) && (|analysis.interests| > 0 || DistinctBy(cat.jobs, JobId)) ==>
            InFirstOrder(r, ranked + interest, CandidateId) && EarlierKeysKept(r, ranked + interest, CandidateId))
  {
    var ranked := RankedBySkills(cat, CombinedSkills(profile, analysis));
    var interest := InterestJobs(cat, analysis.interests);
    if DistinctBy(cat.jobs, JobId) {
      RankedBySkillsLaws(cat, CombinedSkills(profile, analysis));
    }
    if |analysis.interests| > 0 {
      MergeOrFallback(cat, ranked, interest);
    } else {
      assert interest == [];
      if DistinctBy(cat.jobs, JobId) && ranked != [] {
        DistinctInFirstOrder(ranked);
        assert ranked + interest == ranked;
      }
    }
  }

  /** At most five picks with distinct ids are in their own first-occurrence order. */
  lemma DistinctInFirstOrder(ranked: seq<Candidate>)
    requires |ranked| <= 5 && DistinctBy(ranked, CandidateId)
    ensures InFirstOrder(ranked, ranked, CandidateId) && EarlierKeysKept(ranked, ranked, CandidateId)
  {
    KeepFirstDistinct(ranked, CandidateId);
    TakeKeepFirst(ranked, CandidateId, 5);
    assert Take(ranked, 5) == ranked;
  }

  /** `CandidatesLaws` once interests were found: the merge, or the fallback
      when it is empty. */
  lemma MergeOrFallback(cat: Catalog, ranked: seq<Candidate>, interest: seq<Candidate>)
    requires |ranked| <= 5
    ensures var merged := Merge(ranked, interest);
            var r := if merged == [] then FirstJobs(cat.jobs) else merged;
      && (ranked == [] && interest == [] ==> r == FirstJobs(cat.jobs))
      && (ranked != [] || interest != [] ==> forall c :: c in r ==> c in ranked || c in interest)
      && (forall c :: c in interest ==> HasKey(r, CandidateId, CandidateId(c)) || |r| == 5)
      && (DistinctBy(ranked, CandidateId) ==> |ranked| <= |r| && r[..|ranked|] == ranked)
      && (ranked != [] || interest != [] ==>
            InFirstOrder(r, ranked + interest, CandidateId) && EarlierKeysKept(r, ranked + interest, CandidateId))
  {
    var merged := Merge(ranked, interest);
    if ranked + interest != [] {
      var c := (ranked + interest)[0];
      assert c in ranked + interest;
      assert HasKey(merged, CandidateId, CandidateId(c)) || |merged| == 5;
      assert merged != [];
    } else {
      assert ranked == [] && interest == [];
      assert forall c :: c !in ranked + interest;
    }
  }

  /** The fallback picks: the first three catalog jobs. */
  function FirstJobs(jobs: seq<Job>): (r: seq<Candidate>)
    ensures r == FoundAll(Take(jobs, 3))
    ensures 1 <= |r| <= 3 || jobs == []
    ensures forall c :: c in r ==> c.Job() in jobs
    ensures DistinctBy(jobs, JobId) ==> DistinctBy(r, CandidateId)
  {
    var r := FoundAll(Take(jobs, 3));
    assert forall i :: 0 <= i < |r| ==> CandidateId(r[i]) == JobId(jobs[i]);
    forall c | c in r ensures c.Job() in jobs {
      var i :| 0 <= i < |r| && r[i] == c;
      assert Take(jobs, 3)[i] == jobs[i];
    }
    r
  }

  /** A prefix of a list without repeated keys has none either. */
  lemma TakeDistinct(s: seq<Candidate>, key: Candidate -> string, n: nat)
    requires DistinctBy(s, key)
    ensures DistinctBy(Take(s, n), key)
  {
  }

  /** With no skills and no interests the engine falls back to the first
      three catalog jobs. */
  lemma NothingKnownGivesFirstThree(cat: Catalog)
    ensures Candidates(cat, EmptyProfile, Analysis([], [], None, None, [])) == FoundAll(Take(cat.jobs, 3))
  {
    assert ProfileSkills(EmptyProfile) + [] == [];
  }

  /** Without interests the picks are the skill ranking itself: best first. */
  lemma RankedWithoutInterests(cat: Catalog, profile: UserProfile, analysis: Analysis)
    requires analysis.interests == []
    requires FindJobsBySkills(cat.jobs, CombinedSkills(profile, analysis), 5) != []
    ensures Candidates(cat, profile, analysis) == RankedAll(FindJobsBySkills(cat.jobs, CombinedSkills(profile, analysis), 5))
  {
  }

  /** A skill named in both the profile and the conversation counts once:
      repeating profile skills in the analysis changes no pick. */
  lemma RepeatedSkillsCountOnce(cat: Catalog, profile: UserProfile, analysis: Analysis)
    requires forall s :: s in analysis.skills ==> s in ProfileSkills(profile)
    ensures Candidates(cat, profile, analysis) == Candidates(cat, profile, analysis.(skills := []))
  {
    var a := ProfileSkills(profile);
    var b := analysis.skills;
    forall k | HasKey(b, Self, k) ensures HasKey(a, Self, k) {
      var i :| 0 <= i < |b| && Self(b[i]) == k;
      assert b[i] in b;
      var j :| 0 <= j < |a| && a[j] == b[i];
    }
    KeepFirstRepeats(a, b, Self);
    assert a + [] == a;
  }

  /** `userProfile.experience || analysisData.experience`. */
  function EffectiveExperience(profile: UserProfile, analysis: Analysis): Option<string> {
    if Truthy(profile.experience) then profile.experience
    else match analysis.experience
      case Some(l) => Some(l.Name())
      case None => None
  }

  const MatchPrefix := "This role matches your skills in "
  const EntryReason := "This is a great entry-level position to start your career."
  const GrowthReason := "This role aligns with your experience level and offers growth opportunities."
  const ProspectsReason := "This role offers good career prospects in a growing field."

  /** A job skill is matched when some lower-cased user skill and the
      lower-cased job skill contain one another. */
  predicate SkillMatched(userLower: seq<string>, jobSkill: string) {
    exists u | u in userLower :: Related(u, LowerStr(jobSkill))
  }

  function MatchedBy(userLower: seq<string>): string -> bool {
    s => SkillMatched(userLower, s)
  }

  /** The job's own skills, in the job's order and casing, that the user has. */
  function MatchedSkills(job: Job, userLower: seq<string>): (r: seq<string>)
    ensures IsSubseq(r, job.skills)
    ensures forall s :: s in r <==> s in job.skills && SkillMatched(userLower, s)
  {
    Filter(job.skills, MatchedBy(userLower))
  }

  /** The reason shown for a pick: the first three matched skills if any;
      otherwise a level-based sentence when the experience fits the job's
      level; otherwise a generic sentence. */
  function WhyRecommended(job: Job, profile: UserProfile, analysis: Analysis): (r: string)
    ensures var userLower := LowerAll(ProfileSkills(profile) + analysis.skills);
            var matched := MatchedSkills(job, userLower);
            var exp := EffectiveExperience(profile, analysis);
      && (matched != [] ==> r == MatchPrefix + Join(Take(matched, 3), ", ") + ".")
      && (matched == [] ==>
            && (r == EntryReason <==> exp == Some("entry") && job.level == "Entry")
            && (r == GrowthReason <==> exp == Some("mid") && (job.level == "Mid" || job.level == "Senior"))
            && (r == ProspectsReason <==> !(exp == Some("entry") && job.level == "Entry")
                                          && !(exp == Some("mid") && (job.level == "Mid" || job.level == "Senior"))))
  {
    var userLower := LowerAll(ProfileSkills(profile) + analysis.skills);
    var matched := MatchedSkills(job, userLower);
    var exp := EffectiveExperience(profile, analysis);
    if matched != [] then MatchPrefix + Join(Take(matched, 3), ", ") + "."
    else if exp == Some("entry") && job.level == "Entry" then EntryReason
    else if exp == Some("mid") && (job.level == "Mid" || job.level == "Senior") then GrowthReason
    else ProspectsReason
  }

  const PortfolioStep := "Build projects showcasing relevant skills for your portfolio"
  const NetworkStep := "Connect with professionals in this field on LinkedIn"
  const ExperienceStep := "Consider gaining more experience in relevant technologies"

  /** A lower-cased job skill is missing when no lower-cased profile skill
      and it contain one another. */
  predicate SkillMissing(userLower: seq<string>, skillLower: string) {
    !exists u | u in userLower :: Related(u, skillLower)
  }

  function MissingFor(userLower: seq<string>): string -> bool {
    s => SkillMissing(userLower, s)
  }

  /** The job's lower-cased skills that the profile (not the conversation) lacks. */
  function MissingSkills(job: Job, profile: UserProfile): (r: seq<string>)
    ensures IsSubseq(r, LowerAll(job.skills))
    ensures forall s :: s in r <==> s in LowerAll(job.skills) && SkillMissing(LowerAll(ProfileSkills(profile)), s)
  {
    Filter(LowerAll(job.skills), MissingFor(LowerAll(ProfileSkills(profile))))
  }

  function LearnStep(missing: seq<string>): string {
    "Learn " + Join(Take(missing, 2), " and ") + " to strengthen your application"
  }

  predicate BuildsPortfolio(job: Job) {
    job.category == "Technology" || job.category == "Design"
  }

  predicate NeedsExperience(job: Job, profile: UserProfile) {
    job.level == "Senior" && profile.experience != Some("senior")
  }

  /** Up to three steps in a fixed order: learn the missing skills, build a
      portfolio (technology and design jobs), network, gain experience
      (senior jobs for non-senior users). The networking step always fits
      in the three; the experience step only when one of the first two is
      absent. */
  function NextSteps(job: Job, profile: UserProfile): (r: seq<string>)
    ensures var missing := MissingSkills(job, profile);
      && 1 <= |r| <= 3
      && (missing != [] <==> r[0] == LearnStep(missing))
      && (PortfolioStep in r <==> BuildsPortfolio(job))
      && NetworkStep in r
      && (ExperienceStep in r <==> NeedsExperience(job, profile) && !(missing != [] && BuildsPortfolio(job)))
  {
    var missing := MissingSkills(job, profile);
    var learn := if missing != [] then [LearnStep(missing)] else [];
    var portfolio := if BuildsPortfolio(job) then [PortfolioStep] else [];
    var experience := if NeedsExperience(job, profile) then [ExperienceStep] else [];
    var steps := learn + portfolio + [NetworkStep] + experience;
    StepsDiffer(missing);
    Take(steps, 3)
  }

  /** The steps that apply, each once, in their fixed order: the portfolio
      step right after the learning step, then the networking step, and the
      experience step last when it fits; three at most. */
  lemma NextStepsOrder(job: Job, profile: UserProfile)
    ensures var r := NextSteps(job, profile);
            var learn := if MissingSkills(job, profile) != [] then 1 else 0;
            var portfolio := if BuildsPortfolio(job) then 1 else 0;
            var experience := if NeedsExperience(job, profile) then 1 else 0;
      && |r| == Min(3, learn + portfolio + 1 + experience)
      && Distinct(r)
      && (BuildsPortfolio(job) ==> r[learn] == PortfolioStep)
      && r[learn + portfolio] == NetworkStep
      && (ExperienceStep in r ==> r[|r| - 1] == ExperienceStep)
  {
    var missing := MissingSkills(job, profile);
    StepsDiffer(missing);
  }

  /** The four kinds of step are different sentences. */
  lemma StepsDiffer(missing: seq<string>)
    ensures LearnStep(missing) != PortfolioStep && LearnStep(missing) != NetworkStep
    ensures LearnStep(missing) != ExperienceStep
    ensures PortfolioStep != NetworkStep && PortfolioStep != ExperienceStep && NetworkStep != ExperienceStep
  {
    var l := LearnStep(missing);
    assert l[|l| - 1] == 'n' && l[|l| - 2] == 'o';
    assert PortfolioStep[|PortfolioStep| - 1] == 'o';
    assert NetworkStep[|NetworkStep| - 2] == 'I';
    assert ExperienceStep[|ExperienceStep| - 1] == 's';
  }

  /** The picks, each with its reason and next steps. */
  function JobRecommendations(cat: Catalog, profile: UserProfile, analysis: Analysis): (r: seq<JobRecommendation>)
    ensures |r| == |Candidates(cat, profile, analysis)| <= 5
    ensures cat.jobs != [] ==> |r| >= 1
    ensures forall i :: 0 <= i < |r| ==>
              && r[i].candidate == Candidates(cat, profile, analysis)[i]
              && r[i].candidate.Job() in cat.jobs
              && r[i].whyRecommended == WhyRecommended(r[i].candidate.Job(), profile, analysis)
              && r[i].nextSteps == NextSteps(r[i].candidate.Job(), profile)
  {
    var cs := Candidates(cat, profile, analysis);
    seq(|cs|, i requires 0 <= i < |cs| =>
      JobRecommendation(cs[i], WhyRecommended(cs[i].Job(), profile, analysis), NextSteps(cs[i].Job(), profile)))
  }

  function TitlesOf(recs: seq<JobRecommendation>): (r: seq<string>)
    ensures |r| == |recs|
    ensures forall i :: 0 <= i < |recs| ==> r[i] == recs[i].candidate.Job().title
  {
    seq(|recs|, i requires 0 <= i < |recs| => recs[i].candidate.Job().title)
  }

  function JobsOf(recs: seq<JobRecommendation>): (r: seq<Job>)
    ensures |r| == |recs|
    ensures forall i :: 0 <= i < |recs| ==> r[i] == recs[i].candidate.Job()
  {
    seq(|recs|, i requires 0 <= i < |recs| => recs[i].candidate.Job())
  }

  // ---------------------------------------------------------------------
  // Learning resources
  // ---------------------------------------------------------------------

  /** Everything offered before de-duplication: the resources of each job
      title, then those of the profile's skills (when the profile has a
      skills list), then the first two general resources. */
  function OfferedResources(cat: Catalog, skills: Option<seq<string>>, jobTitles: seq<string>): seq<Resource> {
    Gathered(cat.resources, jobTitles)
    + (if skills.Some? then ResourcesForSkills(cat.resources, skills.value) else [])
    + Take(cat.general, 2)
  }

  /** At most eight resources with different titles: the first offer of each
      title, in the order offered, and every offered title present unless
      the list is full. */
  function LearningRecommendations(cat: Catalog, skills: Option<seq<string>>, jobTitles: seq<string>): (r: seq<Resource>)
    ensures |r| <= 8
    ensures DistinctBy(r, TitleOf)
    ensures IsSubseq(r, OfferedResources(cat, skills, jobTitles))
    ensures forall x :: x in r ==> x in OfferedResources(cat, skills, jobTitles)
    ensures forall x :: x in r ==> FirstWithKey(OfferedResources(cat, skills, jobTitles), TitleOf, x)
    ensures forall x :: x in OfferedResources(cat, skills, jobTitles) ==> HasKey(r, TitleOf, x.title) || |r| == 8
    ensures InFirstOrder(r, OfferedResources(cat, skills, jobTitles), TitleOf)
    ensures EarlierKeysKept(r, OfferedResources(cat, skills, jobTitles), TitleOf)
  {
    var offered := OfferedResources(cat, skills, jobTitles);
    var kept := KeepFirstBy(offered, TitleOf);
    TakeKeepFirst(offered, TitleOf, 8);
    var r := Take(kept, 8);
    TakeSubseq(kept, 8);
    SubseqTrans(r, kept, offered);
    SubseqMembers(r, kept);
    forall x | x in offered ensures HasKey(r, TitleOf, x.title) || |r| == 8 {
      var i :| 0 <= i < |offered| && offered[i] == x;
      assert HasKey(offered, TitleOf, x.title);
      var j :| 0 <= j < |kept| && TitleOf(kept[j]) == x.title;
      if |kept| <= 8 {
        assert r == kept;
      }
    }
    TakeDistinctResources(kept, 8);
    r
  }

  lemma TakeDistinctResources(s: seq<Resource>, n: nat)
    requires DistinctBy(s, TitleOf)
    ensures DistinctBy(Take(s, n), TitleOf)
  {
  }

  /** A job title with no resources of its own gets the first two general
      resources. */
  lemma UnknownTitleGetsGeneral(cat: Catalog, title: string)
    requires title !in cat.resources
    requires DistinctBy(Take(cat.general, 2), TitleOf)
    ensures LearningRecommendations(cat, None, [title]) == Take(cat.general, 2)
  {
    assert Gathered(cat.resources, [title]) == [];
    assert OfferedResources(cat, None, [title]) == Take(cat.general, 2);
    KeepFirstDistinct(Take(cat.general, 2), TitleOf);
  }

  // ---------------------------------------------------------------------
  // Mentorship
  // ---------------------------------------------------------------------

  /** A suggested platform with the platform record of that name, if any. */
  datatype DetailedMentor = DetailedMentor(mentor: MentorRec, platformDetails: Option<Platform>)

  /** Without jobs the first platforms themselves are listed; with jobs, the
      suggestions for them. */
  datatype MentorSuggestions = PlatformList(platforms: seq<Platform>) | MentorList(mentors: seq<DetailedMentor>)

  function PlatformOf(m: MentorRec): string {
    m.platform
  }

  function MentorPlatformName(d: DetailedMentor): string {
    d.mentor.platform
  }

  /** Every suggestion for every title, titles in order. */
  function SuggestionsFor(roles: seq<RoleMentors>, titles: seq<string>): seq<MentorRec> {
    if titles == [] then [] else MentorRecommendations(roles, titles[0]) + SuggestionsFor(roles, titles[1..])
  }

  function Detailed(platforms: seq<Platform>, ms: seq<MentorRec>): (r: seq<DetailedMentor>)
    ensures |r| == |ms|
    ensures forall i :: 0 <= i < |ms| ==> r[i] == DetailedMentor(ms[i], FindPlatform(platforms, ms[i].platform))
  {
    seq(|ms|, i requires 0 <= i < |ms| => DetailedMentor(ms[i], FindPlatform(platforms, ms[i].platform)))
  }

  function MentorsOf(ds: seq<DetailedMentor>): (r: seq<MentorRec>)
    ensures |r| == |ds|
    ensures forall i :: 0 <= i < |ds| ==> r[i] == ds[i].mentor
  {
    seq(|ds|, i requires 0 <= i < |ds| => ds[i].mentor)
  }

  /** The first three platforms when there are no jobs; otherwise at most
      four suggestions for the jobs' titles, one per platform, each with the
      platform record that bears its name. */
  function MentorshipRecommendations(cat: Catalog, jobTitles: seq<string>): (r: MentorSuggestions)
    ensures r.PlatformList? <==> jobTitles == []
    ensures r.PlatformList? ==> r.platforms == Take(cat.platforms, 3)
    ensures r.MentorList? ==>
      && |r.mentors| <= 4
      && DistinctBy(r.mentors, MentorPlatformName)
      && (forall d :: d in r.mentors ==> d.mentor in SuggestionsFor(cat.roles, jobTitles))
      && (forall d :: d in r.mentors ==>
            (d.platformDetails.Some? ==> d.platformDetails.value in cat.platforms
                                         && d.platformDetails.value.name == d.mentor.platform)
            && (d.platformDetails.None? ==> forall p :: p in cat.platforms ==> p.name != d.mentor.platform))
  {
    if jobTitles == [] then PlatformList(Take(cat.platforms, 3))
    else
      var all := SuggestionsFor(cat.roles, jobTitles);
      var unique := KeepFirstBy(all, PlatformOf);
      SubseqMembers(unique, all);
      var detailed := Detailed(cat.platforms, unique);
      var r := Take(detailed, 4);
      assert DistinctBy(detailed, MentorPlatformName) by {
        forall i, j | 0 <= i < j < |detailed|
          ensures MentorPlatformName(detailed[i]) != MentorPlatformName(detailed[j])
        {
          assert PlatformOf(unique[i]) != PlatformOf(unique[j]);
        }
      }
      forall d | d in r ensures d.mentor in all {
        var i :| 0 <= i < |r| && r[i] == d;
        assert d == detailed[i];
        assert unique[i] in unique;
      }
      MentorList(r)
  }

  /** With jobs, the suggestions kept are the first suggestion of each
      platform, in the order suggested. */
  lemma MentorshipOrder(cat: Catalog, jobTitles: seq<string>)
    requires jobTitles != []
    ensures var r := MentorshipRecommendations(cat, jobTitles);
            var all := SuggestionsFor(cat.roles, jobTitles);
      && IsSubseq(MentorsOf(r.mentors), all)
      && (forall d :: d in r.mentors ==> FirstWithKey(all, PlatformOf, d.mentor))
      && InFirstOrder(MentorsOf(r.mentors), all, PlatformOf)
      && EarlierKeysKept(MentorsOf(r.mentors), all, PlatformOf)
  {
    var r := MentorshipRecommendations(cat, jobTitles);
    var all := SuggestionsFor(cat.roles, jobTitles);
    var unique := KeepFirstBy(all, PlatformOf);
    assert r.mentors == Take(Detailed(cat.platforms, unique), 4);
    var ms := MentorsOf(r.mentors);
    assert ms == Take(unique, 4);
    TakeSubseq(unique, 4);
    SubseqTrans(ms, unique, all);
    TakeKeepFirst(all, PlatformOf, 4);
    forall d | d in r.mentors ensures FirstWithKey(all, PlatformOf, d.mentor) {
      var i :| 0 <= i < |r.mentors| && r.mentors[i] == d;
      assert d.mentor == unique[i];
    }
  }

  /** With jobs, every suggested platform is listed unless four already are. */
  lemma MentorshipComplete(cat: Catalog, jobTitles: seq<string>)
    requires jobTitles != []
    ensures var r := MentorshipRecommendations(cat, jobTitles);
      forall m :: m in SuggestionsFor(cat.roles, jobTitles) ==>
        HasKey(r.mentors, MentorPlatformName, m.platform) || |r.mentors| == 4
  {
    var r := MentorshipRecommendations(cat, jobTitles);
    var all := SuggestionsFor(cat.roles, jobTitles);
    var unique := KeepFirstBy(all, PlatformOf);
    assert r.mentors == Take(Detailed(cat.platforms, unique), 4);
    forall m | m in all ensures HasKey(r.mentors, MentorPlatformName, m.platform) || |r.mentors| == 4 {
      var i :| 0 <= i < |all| && all[i] == m;
      assert HasKey(all, PlatformOf, m.platform);
      var j :| 0 <= j < |unique| && PlatformOf(unique[j]) == m.platform;
      if |unique| < 4 {
        assert MentorPlatformName(r.mentors[j]) == m.platform;
      }
    }
  }

  /** When every role has suggestions, a job always brings some. */
  lemma MentorsNonEmpty(cat: Catalog, jobTitles: seq<string>)
    requires jobTitles != []
    requires forall i :: 0 <= i < |cat.roles| ==> cat.roles[i].mentors != []
    ensures MentorshipRecommendations(cat, jobTitles).mentors != []
  {
    var all := SuggestionsFor(cat.roles, jobTitles);
    var first := MentorRecommendations(cat.roles, jobTitles[0]);
    SuggestionsNonEmpty(cat.roles, jobTitles[0]);
    assert all[0] == first[0];
    MentorshipComplete(cat, jobTitles);
    assert all[0] in all;
  }

  /** With the deployed data every suggested platform has its record. */
  lemma DefaultMentorsHaveDetails(jobTitles: seq<string>)
    requires jobTitles != []
    ensures var r := MentorshipRecommendations(Default, jobTitles);
      forall d :: d in r.mentors ==> d.platformDetails.Some?
  {
    var r := MentorshipRecommendations(Default, jobTitles);
    SuggestedPlatformsExist();
    forall d | d in r.mentors ensures d.platformDetails.Some? {
      SuggestionFromRoles(Recommendations, jobTitles, d.mentor);
      if d.mentor in GeneralMentors {
      } else {
        var i :| 0 <= i < |Recommendations| && d.mentor in Recommendations[i].mentors;
      }
    }
  }

  /** Every suggestion comes from a role's list or the general list. */
  lemma {:induction false} SuggestionFromRoles(roles: seq<RoleMentors>, titles: seq<string>, m: MentorRec)
    requires m in SuggestionsFor(roles, titles)
    ensures m in GeneralMentors || exists i :: 0 <= i < |roles| && m in roles[i].mentors
  {
    var first := MentorRecommendations(roles, titles[0]);
    if m in first {
      if first != GeneralMentors {
        var i :| 0 <= i < |roles| && first == roles[i].mentors;
      }
    } else {
      SuggestionFromRoles(roles, titles[1..], m);
    }
  }

  // ---------------------------------------------------------------------
  // Career advice
  // ---------------------------------------------------------------------

  /** A distinct skill and how many times it occurs. */
  datatype SkillCount = SkillCount(skill: string, count: nat)

  function CountOf(sc: SkillCount): real {
    sc.count as real
  }

  /** The `skillCounts` object as its entries list: each distinct skill in
      order of first appearance, with its number of occurrences. */
  function SkillCounts(all: seq<string>): (r: seq<SkillCount>)
    ensures |r| == |Unique(all)|
    ensures forall i :: 0 <= i < |r| ==> r[i] == SkillCount(Unique(all)[i], multiset(all)[Unique(all)[i]])
  {
    var d := Unique(all);
    seq(|d|, i requires 0 <= i < |d| => SkillCount(d[i], multiset(all)[d[i]]))
  }

  function SkillsOf(counts: seq<SkillCount>): (r: seq<string>)
    ensures |r| == |counts|
    ensures forall i :: 0 <= i < |counts| ==> r[i] == counts[i].skill
  {
    seq(|counts|, i requires 0 <= i < |counts| => counts[i].skill)
  }

  function SkillOf(sc: SkillCount): string {
    sc.skill
  }

  /** The three most frequent skills, most frequent first, ties in order of
      first appearance. */
  function TopSkills(all: seq<string>): (r: seq<string>)
    ensures |r| <= 3
    ensures forall s :: s in r ==> s in all
  {
    var counts := SkillCounts(all);
    var top := Take(SortDesc(counts, CountOf), 3);
    forall s | s in SkillsOf(top) ensures s in all {
      var i :| 0 <= i < |top| && SkillsOf(top)[i] == s;
      assert top[i] in multiset(counts);
      var j :| 0 <= j < |counts| && counts[j] == top[i];
      assert Unique(all)[j] in Unique(all);
    }
    SkillsOf(top)
  }

  /** The top skills are three different skills (fewer only when fewer
      occur), ordered by how often they occur. */
  lemma TopSkillsShape(all: seq<string>)
    ensures var r := TopSkills(all);
      && |r| == Min(3, |Unique(all)|)
      && Distinct(r)
      && forall i, j :: 0 <= i < j < |r| ==> multiset(all)[r[i]] >= multiset(all)[r[j]]
  {
    var counts := SkillCounts(all);
    var sorted := SortDesc(counts, CountOf);
    var top := Take(sorted, 3);
    var r := TopSkills(all);
    assert r == SkillsOf(top);
    assert DistinctBy(counts, SkillOf) by {
      forall i, j | 0 <= i < j < |counts| ensures SkillOf(counts[i]) != SkillOf(counts[j]) {
        assert Unique(all)[i] != Unique(all)[j];
      }
    }
    PermutationDistinctBy(sorted, counts, SkillOf);
    forall i, j | 0 <= i < j < |r| ensures r[i] != r[j] && multiset(all)[r[i]] >= multiset(all)[r[j]] {
      assert top[i] == sorted[i] && top[j] == sorted[j];
      assert SkillOf(sorted[i]) != SkillOf(sorted[j]);
      assert CountOf(sorted[i]) >= CountOf(sorted[j]);
      CountIsFrequency(all, sorted[i]);
      CountIsFrequency(all, sorted[j]);
    }
  }

  /** Every entry of the sorted counts carries its skill's number of occurrences. */
  lemma CountIsFrequency(all: seq<string>, x: SkillCount)
    requires x in multiset(SortDesc(SkillCounts(all), CountOf))
    ensures x.count == multiset(all)[x.skill]
  {
    var counts := SkillCounts(all);
    assert x in multiset(counts);
    var k :| 0 <= k < |counts| && counts[k] == x;
  }

  /** No skill left out of the top three occurs more often than one kept. */
  lemma TopSkillsMostFrequent(all: seq<string>)
    ensures var r := TopSkills(all);
      forall s, t :: s in all && s !in r && t in r ==> multiset(all)[t] >= multiset(all)[s]
  {
    forall s, t | s in all && s !in TopSkills(all) && t in TopSkills(all)
      ensures multiset(all)[t] >= multiset(all)[s]
    {
      TopSkillBeats(all, s, t);
    }
  }

  lemma TopSkillBeats(all: seq<string>, s: string, t: string)
    requires s in all && s !in TopSkills(all) && t in TopSkills(all)
    ensures multiset(all)[t] >= multiset(all)[s]
  {
    var counts := SkillCounts(all);
    var sorted := SortDesc(counts, CountOf);
    var top := Take(sorted, 3);
    var r := TopSkills(all);
    assert r == SkillsOf(top);
    var x := SkillCountOf(all, s);
    var k :| 0 <= k < |top| && r[k] == t;
    assert top[k] in multiset(sorted);
    CountIsFrequency(all, top[k]);
    SkillsOfMembers(top);
    assert x !in top;
    TopOfSorted(counts, CountOf, 3);
    assert CountOf(top[k]) >= CountOf(x);
  }

  /** The skill of every listed count is among the listed skills. */
  lemma SkillsOfMembers(counts: seq<SkillCount>)
    ensures forall x :: x in counts ==> x.skill in SkillsOf(counts)
  {
    forall x | x in counts ensures x.skill in SkillsOf(counts) {
      var i :| 0 <= i < |counts| && counts[i] == x;
      assert SkillsOf(counts)[i] == x.skill;
    }
  }

  /** Every skill that occurs has its entry among the counts. */
  lemma SkillCountOf(all: seq<string>, s: string) returns (x: SkillCount)
    requires s in all
    ensures x in SkillCounts(all) && x.skill == s && x.count == multiset(all)[s]
  {
    var i :| 0 <= i < |Unique(all)| && Unique(all)[i] == s;
    x := SkillCounts(all)[i];
  }

  /** Top skills that no profile skill covers (both sides lower-cased). */
  function MissingTopSkills(top: seq<string>, userSkills: seq<string>): (r: seq<string>)
    ensures IsSubseq(r, top)
    ensures forall s :: s in r <==> s in top && !exists u | u in userSkills :: RelatedIgnoringCase(u, s)
  {
    Filter(top, (s: string) => !exists u | u in userSkills :: RelatedIgnoringCase(u, s))
  }

  const ExploreAdvice := "I'd recommend exploring different career paths based on your interests. Consider taking some online courses to discover what you enjoy most, and don't hesitate to reach out to professionals in fields that interest you."
  const PortfolioAdvice := "Focus on building a strong portfolio with personal projects and consider internships or entry-level positions to gain experience. "
  const LeadershipAdvice := "You're in a great position to take on more challenging projects and consider leadership opportunities. "
  const ClosingAdvice := "Keep networking, stay updated with industry trends, and consider finding a mentor in your field of interest."

  /** The experience sentence: portfolio advice for entry level or unknown
      experience, leadership advice for mid level, nothing otherwise. */
  function ExperienceAdvice(experience: Option<string>): (r: string)
    ensures r == PortfolioAdvice <==> experience == Some("entry") || !Truthy(experience)
    ensures r == LeadershipAdvice <==> experience == Some("mid")
    ensures r == "" <==> Truthy(experience) && experience.value != "entry" && experience.value != "mid"
  {
    if experience == Some("entry") || !Truthy(experience) then PortfolioAdvice
    else if experience == Some("mid") then LeadershipAdvice
    else ""
  }

  function SkillsAdvice(missing: seq<string>): string {
    if missing == [] then ""
    else "Consider learning " + Join(Take(missing, 2), " and ") + " as these skills appear frequently in recommended roles. "
  }

  function AllSkills(jobs: seq<Job>): seq<string> {
    if jobs == [] then [] else jobs[0].skills + AllSkills(jobs[1..])
  }

  /** A paragraph of advice about the recommended jobs. */
  function CareerAdvice(profile: UserProfile, jobs: seq<Job>): (r: string)
    ensures jobs == [] <==> r == ExploreAdvice
    ensures jobs != [] ==>
      var intro := "Based on your profile, I recommend focusing on " + jobs[0].title + " roles. ";
      var missing := MissingTopSkills(TopSkills(AllSkills(jobs)), ProfileSkills(profile));
      r == intro + SkillsAdvice(missing) + ExperienceAdvice(profile.experience) + ClosingAdvice
  {
    if jobs == [] then ExploreAdvice
    else
      var intro := "Based on your profile, I recommend focusing on " + jobs[0].title + " roles. ";
      var missing := MissingTopSkills(TopSkills(AllSkills(jobs)), ProfileSkills(profile));
      var r := intro + SkillsAdvice(missing) + ExperienceAdvice(profile.experience) + ClosingAdvice;
      assert r[|r| - 2] == 't' && ExploreAdvice[|ExploreAdvice| - 2] == 'u';
      r
  }

  // ---------------------------------------------------------------------
  // Everything together
  // ---------------------------------------------------------------------

  datatype CareerRecommendations = CareerRecommendations(
    jobs: seq<JobRecommendation>,
    resources: seq<Resource>,
    mentors: MentorSuggestions,
    careerAdvice: string)

  /** Jobs first; resources, mentors and advice all follow from the same jobs. */
  function GetCareerRecommendations(cat: Catalog, profile: UserProfile, analysis: Analysis): (r: CareerRecommendations)
    ensures r.jobs == JobRecommendations(cat, profile, analysis)
    ensures r.resources == LearningRecommendations(cat, profile.skills, TitlesOf(r.jobs))
    ensures r.mentors == MentorshipRecommendations(cat, TitlesOf(r.jobs))
    ensures r.careerAdvice == CareerAdvice(profile, JobsOf(r.jobs))
    ensures cat.jobs != [] ==> r.mentors.MentorList? && r.careerAdvice != ExploreAdvice
  {
    var jobs := JobRecommendations(cat, profile, analysis);
    CareerRecommendations(
      jobs,
      LearningRecommendations(cat, profile.skills, TitlesOf(jobs)),
      MentorshipRecommendations(cat, TitlesOf(jobs)),
      CareerAdvice(profile, JobsOf(jobs)))
  }

  /** A non-empty catalog whose roles all have suggestions always yields
      some mentor suggestion. */
  lemma JobsBringMentors(cat: Catalog, profile: UserProfile, analysis: Analysis)
    requires cat.jobs != []
    requires forall i :: 0 <= i < |cat.roles| ==> cat.roles[i].mentors != []
    ensures var r := GetCareerRecommendations(cat, profile, analysis);
            r.mentors.MentorList? && r.mentors.mentors != []
  {
    var r := GetCareerRecommendations(cat, profile, analysis);
    MentorsNonEmpty(cat, TitlesOf(r.jobs));
  }

  /** With the deployed data there is always at least one mentor suggestion. */
  lemma DefaultSuggestsMentors(profile: UserProfile, analysis: Analysis)
    ensures var r := GetCareerRecommendations(Default, profile, analysis);
            r.mentors.MentorList? && r.mentors.mentors != []
  {
    assert Default.jobs != [] by {
      assert Jobs[0] == SoftwareDeveloper;
    }
    forall i | 0 <= i < |Default.roles| ensures Default.roles[i].mentors != [] {
      RoleSuggestionCount(i);
    }
    JobsBringMentors(Default, profile, analysis);
  }

  // ---------------------------------------------------------------------
  // Search
  // ---------------------------------------------------------------------

  /** The optional filters of a search. */
  datatype SearchFilters = SearchFilters(category: Option<string>, level: Option<string>, skills: Option<seq<string>>)

  predicate PassesCategory(f: SearchFilters, job: Job) {
    Truthy(f.category) ==> Contains(LowerStr(job.category), LowerStr(f.category.value))
  }

  predicate PassesLevel(f: SearchFilters, job: Job) {
    Truthy(f.level) ==> LowerStr(job.level) == LowerStr(f.level.value)
  }

  predicate PassesSkills(f: SearchFilters, job: Job) {
    (f.skills.Some? && f.skills.value != []) ==>
      exists s, js | s in f.skills.value && js in job.skills :: RelatedIgnoringCase(js, s)
  }

  predicate Passes(f: SearchFilters, job: Job) {
    PassesCategory(f, job) && PassesLevel(f, job) && PassesSkills(f, job)
  }

  function PassesAll(f: SearchFilters): Job -> bool {
    job => Passes(f, job)
  }

  /** The jobs a search starts from: up to ten keyword matches for a
      non-empty query, otherwise the whole catalog. */
  function SearchBase(cat: Catalog, query: Option<string>): seq<Job> {
    if Truthy(query) then FindJobsByKeywords(cat.jobs, query.value, 10) else cat.jobs
  }

  /** At most ten jobs passing every given filter, in catalog order. */
  function SearchJobs(cat: Catalog, query: Option<string>, filters: SearchFilters): (r: seq<Job>)
    ensures |r| <= 10
    ensures IsSubseq(r, cat.jobs)
    ensures forall job :: job in r ==> Passes(filters, job)
    ensures Truthy(query) ==> forall job :: job in r ==> Mentions(LowerStr(query.value), job)
    ensures forall job :: job in SearchBase(cat, query) && Passes(filters, job) && job !in r ==> |r| == 10
    ensures IsSubseq(r, SearchBase(cat, query))
    ensures Distinct(cat.jobs) ==> forall i, j ::
              (0 <= i < j < |SearchBase(cat, query)| && SearchBase(cat, query)[j] in r
               && Passes(filters, SearchBase(cat, query)[i]))
              ==> SearchBase(cat, query)[i] in r
  {
    var r := Take(Filter(SearchBase(cat, query), PassesAll(filters)), 10);
    SearchLaws(cat, query, filters, r);
    SearchOrderLaws(cat, query, filters, r);
    r
  }

  /** What a search's result `r` holds: passing jobs from the keyword
      matches (or the catalog), in order, none left out while there is room. */
  lemma SearchLaws(cat: Catalog, query: Option<string>, filters: SearchFilters, r: seq<Job>)
    requires r == Take(Filter(SearchBase(cat, query), PassesAll(filters)), 10)
    ensures |r| <= 10
    ensures IsSubseq(r, cat.jobs)
    ensures forall job :: job in r ==> Passes(filters, job)
    ensures Truthy(query) ==> forall job :: job in r ==> Mentions(LowerStr(query.value), job)
    ensures forall job :: job in SearchBase(cat, query) && Passes(filters, job) && job !in r ==> |r| == 10
    ensures IsSubseq(r, SearchBase(cat, query))
  {
    var base := SearchBase(cat, query);
    var passing := Filter(base, PassesAll(filters));
    TakeSubseq(passing, 10);
    SubseqTrans(r, passing, base);
    SubseqMembers(r, passing);
    assert IsSubseq(base, cat.jobs) by {
      if !Truthy(query) {
        SubseqRefl(cat.jobs);
      }
    }
    SubseqTrans(r, base, cat.jobs);
    SubseqMembers(r, base);
    forall job | job in r ensures Passes(filters, job) {
      assert job in passing;
    }
  }

  /** With distinct catalog jobs, a search's result `r` skips no passing
      match ahead of one it keeps. */
  lemma SearchOrderLaws(cat: Catalog, query: Option<string>, filters: SearchFilters, r: seq<Job>)
    requires r == Take(Filter(SearchBase(cat, query), PassesAll(filters)), 10)
    ensures Distinct(cat.jobs) ==> forall i, j ::
              (0 <= i < j < |SearchBase(cat, query)| && SearchBase(cat, query)[j] in r
               && Passes(filters, SearchBase(cat, query)[i]))
              ==> SearchBase(cat, query)[i] in r
  {
    var base := SearchBase(cat, query);
    if Distinct(cat.jobs) {
      assert IsSubseq(base, cat.jobs) by {
        if !Truthy(query) {
          SubseqRefl(cat.jobs);
        }
      }
      SubseqDistinct(base, cat.jobs);
      TakeFilterClosed(base, PassesAll(filters), 10);
      assert forall i, j ::
               (0 <= i < j < |base| && base[j] in r && PassesAll(filters)(base[i])) ==> base[i] in r;
    }
  }

  /** With no query and no filters, a search lists the first ten catalog jobs. */
  lemma UnfilteredSearch(cat: Catalog)
    ensures SearchJobs(cat, None, SearchFilters(None, None, None)) == Take(cat.jobs, 10)
  {
    FilterAll(cat.jobs, PassesAll(SearchFilters(None, None, None)));
  }
}

=== FILE: cvcontroller.dfy ===
/** CV analysis: the market keywords found in an uploaded CV, the job-board
    listings that are technical and share a keyword with it, and a course
    suggestion for weak or unmatched CVs. Reading the uploaded file and
    fetching the job board are inputs. */
module CvController {

  import opened Wrappers
  import opened Text
  import opened Seqs

  /** Keywords a CV is searched for, in reporting order. */
  const GlobalKeywords: seq<string> := [
    "react", "node", "python", "javascript", "typescript", "cloud", "devops", "data", "ai",
    "machine learning", "sql", "docker", "kubernetes", "agile", "scrum", "design", "testing",
    "security", "api", "frontend", "backend", "fullstack", "mobile", "aws", "azure", "gcp",
    "linux", "git", "project management", "communication", "leadership"]

  /** Words that make a listing technical. */
  const TechWords: seq<string> := [
    "developer", "engineer", "software", "frontend", "backend", "fullstack", "devops", "cloud",
    "data", "ai", "machine learning", "python", "javascript", "typescript", "react", "node",
    "sql", "docker", "kubernetes", "mobile", "aws", "azure", "gcp", "linux", "git"]

  /** Fewer keywords than this make a CV weak. */
  const WeakBelow := 5

  const WeakCvSuggestion := "Your CV does not match enough global tech skills. Please visit the Learning Hub and take recommended courses in programming, cloud, or data to improve your profile."
  const NoMatchSuggestion := "No matching jobs found for your CV. Consider improving your CV or taking new courses in the Learning Hub."

  /** A job-board listing: its title and its tags, which may be absent. */
  datatype BoardJob = BoardJob(title: string, tags: Option<seq<string>>)

  /** What the job board answered: nothing (the fetch or its JSON failed),
      or a body whose `data` list may be missing. */
  datatype Board = Unreachable | Answered(data: Option<seq<BoardJob>>)

  datatype CvOutcome =
    | NoCvUploaded
    | AnalysisFailed
    | Analysed(keywords: seq<string>, recommendedJobs: seq<BoardJob>, courseSuggestion: Option<string>)

  /** The listing's title and tags, space-separated and lower-cased. */
  function JobText(job: BoardJob): string {
    LowerStr(job.title + " " + (match job.tags case Some(tags) => Join(tags, " ") case None => ""))
  }

  predicate IsTechJob(job: BoardJob) {
    ContainsAny(JobText(job), TechWords)
  }

  predicate MatchesCv(found: seq<string>, job: BoardJob) {
    ContainsAny(JobText(job), found)
  }

  function Recommendable(found: seq<string>): BoardJob -> bool {
    job => IsTechJob(job) && MatchesCv(found, job)
  }

  /** The market keywords occurring in the lower-cased CV, in list order. */
  function FoundKeywords(cvText: string): (r: seq<string>)
    ensures IsSubseq(r, GlobalKeywords)
    ensures forall w :: w in r <==> w in GlobalKeywords && Contains(LowerStr(cvText), w)
  {
    KeywordsIn(LowerStr(cvText), GlobalKeywords)
  }

  /** The listings, in board order, that are technical and mention a found keyword. */
  function RecommendedJobs(found: seq<string>, listings: seq<BoardJob>): (r: seq<BoardJob>)
    ensures IsSubseq(r, listings)
    ensures forall job :: job in r <==> job in listings && IsTechJob(job) && MatchesCv(found, job)
    ensures forall job :: multiset(r)[job] ==
              if IsTechJob(job) && MatchesCv(found, job) then multiset(listings)[job] else 0
  {
    FilterCounts(listings, Recommendable(found));
    Filter(listings, Recommendable(found))
  }

  /** The weak-CV suggestion below five keywords; otherwise the no-match
      suggestion when nothing was recommended; otherwise none. */
  function CourseSuggestion(found: seq<string>, recommended: seq<BoardJob>): (r: Option<string>)
    ensures r == Some(WeakCvSuggestion) <==> |found| < WeakBelow
    ensures r == Some(NoMatchSuggestion) <==> |found| >= WeakBelow && recommended == []
    ensures r.None? <==> |found| >= WeakBelow && recommended != []
  {
    if |found| < WeakBelow then Some(WeakCvSuggestion)
    else if |recommended| == 0 then Some(NoMatchSuggestion)
    else None
  }

  /** `analyzeCV`: no file is a client error; an unreachable board is a
      server error; otherwise the keywords, the recommended listings (none
      when the body has no data list) and the suggestion. */
  function AnalyzeCv(cv: Option<string>, board: Board): (r: CvOutcome)
    ensures r.NoCvUploaded? <==> cv.None?
    ensures r.AnalysisFailed? <==> cv.Some? && board.Unreachable?
    ensures r.Analysed? ==>
      && r.keywords == FoundKeywords(cv.value)
      && (board.data.None? ==> r.recommendedJobs == [])
      && (board.data.Some? ==> r.recommendedJobs == RecommendedJobs(r.keywords, board.data.value))
      && r.courseSuggestion == CourseSuggestion(r.keywords, r.recommendedJobs)
  {
    match cv
    case None => NoCvUploaded
    case Some(text) =>
      match board
      case Unreachable => AnalysisFailed
      case Answered(data) =>
        var found := FoundKeywords(text);
        var recommended := match data case Some(listings) => RecommendedJobs(found, listings) case None => [];
        Analysed(found, recommended, CourseSuggestion(found, recommended))
  }

  /** A CV with no market keyword gets no listing, whatever the board offers. */
  lemma NoKeywordsNoJobs(listings: seq<BoardJob>)
    ensures RecommendedJobs([], listings) == []
  {
    FilterNone(listings, Recommendable([]));
  }

  /** "ai" is matched inside words: a retail listing counts as technical. */
  lemma RetailIsTechnical()
    ensures IsTechJob(BoardJob("Retail", None))
  {
    var t := JobText(BoardJob("Retail", None));
    assert t == "retail ";
    assert OccursAt(t, "ai", 3);
    assert "ai" in TechWords;
  }
}

=== FILE: jobdatabase.dfy ===
/** The job catalog (twenty occupations with O*NET-style identifiers) and the
    two catalog searches: by skills, ranked by match score, and by keyword. */
module JobDatabase {

  import opened Text
  import opened Seqs

  /** One occupation of the catalog. `level` is "Entry", "Mid" or "Senior". */
  datatype Job = Job(
    id: string,
    title: string,
    category: string,
    level: string,
    skills: seq<string>,
    description: string,
    responsibilities: seq<string>,
    salaryRange: string,
    growthOutlook: string,
    education: string,
    workEnvironment: string)

  function JobId(job: Job): string {
    job.id
  }

  const SoftwareDeveloper := Job("15-1132", "Software Developer", "Technology", "Mid",
    ["JavaScript", "Python", "React", "Node.js", "SQL", "Git"],
    "Design, develop, and test software applications and systems",
    ["Write clean, maintainable code", "Collaborate with cross-functional teams", "Debug and troubleshoot applications", "Participate in code reviews"],
    "$70k - $120k", "Much faster than average",
    "Bachelor's degree in Computer Science or related field",
    "Office setting, often remote-friendly")

  const WebDeveloper := Job("15-1134", "Web Developer", "Technology", "Entry",
    ["HTML", "CSS", "JavaScript", "React", "Vue.js", "WordPress"],
    "Create and maintain websites and web applications",
    ["Design responsive web interfaces", "Implement frontend functionality", "Optimize website performance", "Ensure cross-browser compatibility"],
    "$50k - $85k", "Faster than average",
    "Associate degree or bootcamp certification",
    "Creative agencies, tech companies, freelance")

  const NetworkAdministrator := Job("15-1142", "Network and Computer Systems Administrator", "Technology", "Mid",
    ["Linux", "Windows Server", "Networking", "Security", "Cloud Computing"],
    "Install, configure, and maintain computer networks and systems",
    ["Monitor network performance", "Implement security measures", "Troubleshoot system issues", "Manage user accounts and permissions"],
    "$60k - $95k", "Average",
    "Bachelor's degree or relevant certifications",
    "Corporate IT departments, data centers")

  const NetworkArchitect := Job("15-1143", "Computer Network Architect", "Technology", "Senior",
    ["Network Design", "Security", "Cloud Architecture", "Cisco", "TCP/IP"],
    "Design and build data communication networks",
    ["Plan network infrastructure", "Evaluate network requirements", "Design security protocols", "Oversee network implementation"],
    "$90k - $150k", "Faster than average",
    "Bachelor's degree in computer science or engineering",
    "Large corporations, consulting firms")

  const UserSupportSpecialist := Job("15-1151", "Computer User Support Specialist", "Technology", "Entry",
    ["Technical Support", "Windows", "macOS", "Help Desk", "Customer Service"],
    "Provide technical assistance to computer users",
    ["Diagnose technical problems", "Provide user training", "Install and configure software", "Maintain help desk records"],
    "$35k - $55k", "Average",
    "High school diploma plus technical training",
    "Corporate help desks, remote support")

  const NetworkSupportSpecialist := Job("15-1152", "Computer Network Support Specialist", "Technology", "Mid",
    ["Network Troubleshooting", "TCP/IP", "Routers", "Switches", "Firewalls"],
    "Analyze, test, troubleshoot, and evaluate existing network systems",
    ["Monitor network performance", "Troubleshoot connectivity issues", "Update network documentation", "Implement network security measures"],
    "$45k - $75k", "Faster than average",
    "Associate degree or technical certification",
    "IT departments, managed service providers")

  const SecurityAnalyst := Job("15-1199", "Information Security Analyst", "Technology", "Mid",
    ["Cybersecurity", "Risk Assessment", "Penetration Testing", "SIEM", "Compliance"],
    "Plan, implement, upgrade, or monitor security measures for the protection of computer networks and information",
    ["Monitor security breaches", "Conduct risk assessments", "Develop security policies", "Implement security software"],
    "$80k - $130k", "Much faster than average",
    "Bachelor's degree in cybersecurity or related field",
    "Corporate security teams, consulting firms")

  const ResearchScientist := Job("15-1221", "Computer and Information Research Scientist", "Technology", "Senior",
    ["Research", "Machine Learning", "AI", "Data Analysis", "Academic Writing"],
    "Conduct research into fundamental computer and information science problems",
    ["Design experiments", "Analyze research data", "Publish research findings", "Collaborate with academic institutions"],
    "$100k - $180k", "Much faster than average",
    "Doctoral degree in computer science or related field",
    "Universities, research institutions, tech companies")

  const SystemsAnalyst := Job("15-1231", "Computer Systems Analyst", "Technology", "Mid",
    ["Systems Analysis", "Business Analysis", "SQL", "Project Management"],
    "Analyze science, engineering, business, and other data processing problems",
    ["Study current systems", "Design system solutions", "Recommend system improvements", "Coordinate system implementations"],
    "$70k - $110k", "Faster than average",
    "Bachelor's degree in computer science or related field",
    "Consulting firms, corporate IT departments")

  const SystemsAdministrator := Job("15-1232", "Computer Systems Administrator", "Technology", "Mid",
    ["System Administration", "Linux", "Windows", "Virtualization", "Scripting"],
    "Install, configure, and maintain computer systems and servers",
    ["Monitor system performance", "Manage user accounts", "Backup and recovery operations", "System security maintenance"],
    "$65k - $100k", "Average",
    "Bachelor's degree or equivalent experience",
    "Corporate data centers, cloud providers")

  const MultimediaArtist := Job("27-1014", "Multimedia Artist and Animator", "Design", "Mid",
    ["Animation", "3D Modeling", "After Effects", "Maya", "Creative Design"],
    "Create animation and visual effects for media and entertainment",
    ["Design characters and environments", "Create animations and visual effects", "Collaborate with creative teams", "Meet project deadlines"],
    "$55k - $85k", "Faster than average",
    "Bachelor's degree in art, animation, or related field",
    "Animation studios, game companies, advertising agencies")

  const IndustrialDesigner := Job("27-1021", "Commercial and Industrial Designer", "Design", "Mid",
    ["Product Design", "CAD Software", "Prototyping", "User Research"],
    "Develop the overall layout and production design for applications and products",
    ["Research product requirements", "Create design concepts", "Develop prototypes", "Collaborate with engineers"],
    "$60k - $95k", "Average",
    "Bachelor's degree in industrial design or related field",
    "Design consultancies, manufacturing companies")

  const GraphicDesigner := Job("27-1024", "Graphic Designer", "Design", "Entry",
    ["Adobe Creative Suite", "Typography", "Branding", "Layout Design"],
    "Create visual concepts to communicate ideas that inspire, inform, and captivate consumers",
    ["Design marketing materials", "Create brand identities", "Collaborate with clients", "Prepare final artwork"],
    "$35k - $65k", "Average",
    "Bachelor's degree in graphic design or related field",
    "Design agencies, corporate marketing departments")

  const InterfaceDesigner := Job("15-1254", "Web and Digital Interface Designer", "Design", "Mid",
    ["UI/UX Design", "Figma", "Sketch", "User Research", "Prototyping"],
    "Design digital user interfaces for websites and applications",
    ["Create user-centered designs", "Conduct user research", "Design wireframes and prototypes", "Collaborate with developers"],
    "$65k - $105k", "Much faster than average",
    "Bachelor's degree in design or related field",
    "Tech companies, design agencies, startups")

  const MarketingManager := Job("11-2021", "Marketing Manager", "Business", "Mid",
    ["Digital Marketing", "Analytics", "Content Strategy", "Social Media"],
    "Plan, direct, or coordinate marketing policies and programs",
    ["Develop marketing strategies", "Manage marketing campaigns", "Analyze market trends", "Oversee marketing team"],
    "$75k - $125k", "Faster than average",
    "Bachelor's degree in marketing or business",
    "Corporate marketing departments, agencies")

  const MarketResearchAnalyst := Job("13-1161", "Market Research Analyst", "Business", "Entry",
    ["Data Analysis", "Statistical Software", "Research Methods", "Excel"],
    "Research market conditions to examine potential sales of a product or service",
    ["Collect and analyze data", "Forecast market trends", "Create research reports", "Present findings to stakeholders"],
    "$45k - $75k", "Much faster than average",
    "Bachelor's degree in market research or related field",
    "Research firms, corporate strategy teams")

  const DataScientist := Job("15-2051", "Data Scientist", "Technology", "Mid",
    ["Python", "R", "Machine Learning", "Statistics", "SQL", "Big Data"],
    "Use analytical, statistical, and programming skills to collect, analyze, and interpret large data sets",
    ["Clean and process data", "Build predictive models", "Communicate insights to stakeholders", "Develop data visualizations"],
    "$85k - $140k", "Much faster than average",
    "Master's degree in data science, statistics, or related field",
    "Tech companies, consulting firms, research institutions")

  const SystemsManager := Job("11-3021", "Computer and Information Systems Manager", "Technology", "Senior",
    ["IT Management", "Strategic Planning", "Team Leadership", "Budget Management"],
    "Plan, coordinate, and direct computer-related activities in an organization",
    ["Manage IT teams", "Develop IT strategies", "Oversee system implementations", "Manage IT budgets"],
    "$120k - $180k", "Faster than average",
    "Bachelor's degree plus management experience",
    "Corporate IT departments, consulting firms")

  const NetworkSystemsAdministrator := Job("15-1244", "Network and Computer Systems Administrator", "Technology", "Mid",
    ["Network Administration", "System Security", "Cloud Services", "Troubleshooting"],
    "Install, configure, and maintain computer networks and related computing environments",
    ["Monitor network performance", "Implement security protocols", "Manage system updates", "Provide technical support"],
    "$60k - $95k", "Average",
    "Bachelor's degree or equivalent experience",
    "Corporate IT departments, managed service providers")

  const OtherComputerOccupations := Job("15-1299", "Computer Occupations, All Other", "Technology", "Mid",
    ["Programming", "Problem Solving", "Technical Communication", "Continuous Learning"],
    "All computer occupations not listed separately",
    ["Develop technical solutions", "Collaborate with teams", "Stay updated with technology trends", "Document technical processes"],
    "$55k - $95k", "Faster than average",
    "Varies by specialization",
    "Various technology-focused environments")

  /** The catalog, in its fixed order. */
  const Jobs: seq<Job> := [
    SoftwareDeveloper, WebDeveloper, NetworkAdministrator, NetworkArchitect,
    UserSupportSpecialist, NetworkSupportSpecialist, SecurityAnalyst, ResearchScientist,
    SystemsAnalyst, SystemsAdministrator, MultimediaArtist, IndustrialDesigner,
    GraphicDesigner, InterfaceDesigner, MarketingManager, MarketResearchAnalyst,
    DataScientist, SystemsManager, NetworkSystemsAdministrator, OtherComputerOccupations]

  // ---------------------------------------------------------------------
  // Search by skills
  // ---------------------------------------------------------------------

  /** A catalog job with its match score (a percentage) and the lower-cased
      user skills that matched it. */
  datatype ScoredJob = ScoredJob(job: Job, matchScore: real, matchingSkills: seq<string>)

  function ScoreOf(sj: ScoredJob): real {
    sj.matchScore
  }

  predicate PositiveScore(sj: ScoredJob) {
    sj.matchScore > 0.0
  }

  /** A lower-cased user skill matches when it and some lower-cased job
      skill contain one another. */
  function MatchesSomeOf(jobSkillsLower: seq<string>): string -> bool {
    s => exists js | js in jobSkillsLower :: Related(js, s)
  }

  /** `(matching / Math.max(users, skills)) * 100`. JavaScript gives NaN when
      both counts are 0; that case is represented by 0, which fails the
      `> 0` test exactly as NaN does. */
  function Percent(matching: nat, users: nat, skills: nat): real {
    var d := Max(users, skills);
    if d == 0 then 0.0 else (matching as real / d as real) * 100.0
  }

  /** `score` is `part` out of `whole` as a percentage, and 0 when `whole` is 0. */
  ghost predicate IsShare(score: real, part: nat, whole: nat) {
    if whole == 0 then score == 0.0 else score * whole as real == 100.0 * part as real
  }

  /** A share of the user's skills is a percentage, positive exactly when
      something matched; it is `matching` out of the larger count. */
  lemma PercentBounds(matching: nat, users: nat, skills: nat)
    requires matching <= users
    ensures 0.0 <= Percent(matching, users, skills) <= 100.0
    ensures Percent(matching, users, skills) > 0.0 <==> matching > 0
    ensures IsShare(Percent(matching, users, skills), matching, Max(users, skills))
  {
    var d := Max(users, skills);
    if d > 0 {
      Share(matching as real, d as real);
    }
  }

  /** The ratio of a part to a positive whole, and back. */
  lemma Share(m: real, d: real)
    requires 0.0 <= m <= d && d > 0.0
    ensures 0.0 <= (m / d) * 100.0 <= 100.0
    ensures (m / d) * 100.0 > 0.0 <==> m > 0.0
    ensures (m / d) * 100.0 * d == 100.0 * m
  {
    var q := m / d;
    assert q * d == m;
    assert q <= 1.0;
    assert m > 0.0 ==> q > 0.0;
    assert q * 100.0 * d == 100.0 * (q * d);
  }

  /** Scores one job against the lower-cased user skills: the score is the
      share of matched user skills in the larger of the two skill counts. */
  function ScoreJob(job: Job, userLower: seq<string>): (r: ScoredJob)
    ensures r.job == job
    ensures IsSubseq(r.matchingSkills, userLower)
    ensures forall s :: s in r.matchingSkills <==>
              s in userLower && exists js | js in LowerAll(job.skills) :: Related(js, s)
    ensures 0.0 <= r.matchScore <= 100.0
    ensures r.matchScore > 0.0 <==> r.matchingSkills != []
    ensures IsShare(r.matchScore, |r.matchingSkills|, Max(|userLower|, |job.skills|))
  {
    var matching := Filter(userLower, MatchesSomeOf(LowerAll(job.skills)));
    SubseqLength(matching, userLower);
    PercentBounds(|matching|, |userLower|, |job.skills|);
    ScoredJob(job, Percent(|matching|, |userLower|, |job.skills|), matching)
  }

  /** Every job of the catalog, scored, in catalog order. */
  function ScoreAll(jobs: seq<Job>, userLower: seq<string>): (r: seq<ScoredJob>)
    ensures |r| == |jobs|
    ensures forall i :: 0 <= i < |jobs| ==> r[i] == ScoreJob(jobs[i], userLower)
  {
    seq(|jobs|, i requires 0 <= i < |jobs| => ScoreJob(jobs[i], userLower))
  }

  function ScoredId(sj: ScoredJob): string {
    sj.job.id
  }

  /** The positively scored jobs, best first, ties in catalog order, at most
      `limit` of them: all of them when fewer than `limit` score. */
  function FindJobsBySkills(jobs: seq<Job>, userSkills: seq<string>, limit: nat): (r: seq<ScoredJob>)
    ensures |r| == Min(limit, |Filter(ScoreAll(jobs, LowerAll(userSkills)), PositiveScore)|)
    ensures forall x :: x in r ==>
              x.job in jobs && x == ScoreJob(x.job, LowerAll(userSkills)) && 0.0 < x.matchScore <= 100.0
    ensures forall job :: job in jobs && PositiveScore(ScoreJob(job, LowerAll(userSkills))) && |r| < limit
              ==> ScoreJob(job, LowerAll(userSkills)) in r
    ensures SortedDesc(r, ScoreOf)
    ensures DistinctBy(jobs, JobId) ==> DistinctBy(r, ScoredId)
    ensures userSkills == [] ==> r == []
  {
    var userLower := LowerAll(userSkills);
    var positive := Filter(ScoreAll(jobs, userLower), PositiveScore);
    var sorted := SortDesc(positive, ScoreOf);
    var r := Take(sorted, limit);
    TopScoredMembers(jobs, userLower, limit);
    SortedPrefix(sorted, ScoreOf, |r|);
    assert DistinctBy(jobs, JobId) ==> DistinctBy(r, ScoredId) by {
      if DistinctBy(jobs, JobId) {
        TopScoredDistinct(jobs, userLower, limit);
      }
    }
    assert userSkills == [] ==> positive == [] by {
      if userSkills == [] {
        NoSkillsNoScore(jobs, userLower);
      }
    }
    r
  }

  /** The best `limit` of the positively scored jobs are scored catalog jobs,
      and when fewer than `limit` are kept, every positively scored job is. */
  lemma TopScoredMembers(jobs: seq<Job>, userLower: seq<string>, limit: nat)
    ensures var r := Take(SortDesc(Filter(ScoreAll(jobs, userLower), PositiveScore), ScoreOf), limit);
            && (forall x :: x in r ==> x.job in jobs && x == ScoreJob(x.job, userLower) && 0.0 < x.matchScore)
            && (forall job :: job in jobs && PositiveScore(ScoreJob(job, userLower)) && |r| < limit
                  ==> ScoreJob(job, userLower) in r)
  {
    var scored := ScoreAll(jobs, userLower);
    var positive := Filter(scored, PositiveScore);
    var sorted := SortDesc(positive, ScoreOf);
    var r := Take(sorted, limit);
    forall x | x in r
      ensures x.job in jobs && x == ScoreJob(x.job, userLower) && 0.0 < x.matchScore
    {
      assert x in sorted;
      assert multiset(sorted)[x] == multiset(positive)[x] > 0;
      assert x in positive;
      var i :| 0 <= i < |scored| && scored[i] == x;
    }
    forall job | job in jobs && PositiveScore(ScoreJob(job, userLower)) && |r| < limit
      ensures ScoreJob(job, userLower) in r
    {
      var i :| 0 <= i < |jobs| && jobs[i] == job;
      assert scored[i] in positive;
      assert multiset(positive)[scored[i]] > 0;
    }
  }

  /** Distinct catalog ids stay distinct through scoring, filtering, sorting
      and truncation. */
  lemma TopScoredDistinct(jobs: seq<Job>, userLower: seq<string>, limit: nat)
    requires DistinctBy(jobs, JobId)
    ensures DistinctBy(Take(SortDesc(Filter(ScoreAll(jobs, userLower), PositiveScore), ScoreOf), limit), ScoredId)
  {
    var scored := ScoreAll(jobs, userLower);
    var positive := Filter(scored, PositiveScore);
    var sorted := SortDesc(positive, ScoreOf);
    ScoredDistinct(jobs, userLower);
    SubseqDistinctBy(positive, scored, ScoredId);
    PermutationDistinctBy(sorted, positive, ScoredId);
    TakeSubseq(sorted, limit);
    SubseqDistinctBy(Take(sorted, limit), sorted, ScoredId);
  }

  /** Scoring keeps the catalog's ids. */
  lemma ScoredDistinct(jobs: seq<Job>, userLower: seq<string>)
    requires DistinctBy(jobs, JobId)
    ensures DistinctBy(ScoreAll(jobs, userLower), ScoredId)
  {
    var scored := ScoreAll(jobs, userLower);
    forall i, j | 0 <= i < j < |scored| ensures ScoredId(scored[i]) != ScoredId(scored[j]) {
      assert ScoredId(scored[i]) == JobId(jobs[i]) && ScoredId(scored[j]) == JobId(jobs[j]);
    }
  }

  /** With no user skills nothing matches, so no job scores above 0. */
  lemma NoSkillsNoScore(jobs: seq<Job>, userLower: seq<string>)
    requires userLower == []
    ensures Filter(ScoreAll(jobs, userLower), PositiveScore) == []
  {
    var scored := ScoreAll(jobs, userLower);
    forall x | x in scored ensures !PositiveScore(x) {
      SubseqLength(x.matchingSkills, userLower);
    }
    FilterNone(scored, PositiveScore);
  }

  /** A prefix of a descending list is descending. */
  lemma SortedPrefix(s: seq<ScoredJob>, key: ScoredJob -> real, n: nat)
    requires SortedDesc(s, key) && n <= |s|
    ensures SortedDesc(s[..n], key)
  {
    forall i, j | 0 <= i < j < n ensures key(s[..n][i]) >= key(s[..n][j]) {
      assert s[..n][i] == s[i] && s[..n][j] == s[j];
    }
  }

  /** Only the best scores are kept: a positively scored job that did not
      make the cut scores no higher than any job that did. */
  lemma FindJobsBySkillsKeepsBest(jobs: seq<Job>, userSkills: seq<string>, limit: nat)
    ensures var r := FindJobsBySkills(jobs, userSkills, limit);
      forall job, y :: job in jobs && y in r && PositiveScore(ScoreJob(job, LowerAll(userSkills)))
                       && ScoreJob(job, LowerAll(userSkills)) !in r
                       ==> y.matchScore >= ScoreJob(job, LowerAll(userSkills)).matchScore
  {
    var userLower := LowerAll(userSkills);
    var scored := ScoreAll(jobs, userLower);
    var positive := Filter(scored, PositiveScore);
    var r := FindJobsBySkills(jobs, userSkills, limit);
    assert r == Take(SortDesc(positive, ScoreOf), limit);
    TopOfSorted(positive, ScoreOf, limit);
    forall job, y | job in jobs && y in r && PositiveScore(ScoreJob(job, userLower))
                    && ScoreJob(job, userLower) !in r
      ensures y.matchScore >= ScoreJob(job, userLower).matchScore
    {
      var i :| 0 <= i < |jobs| && jobs[i] == job;
      assert scored[i] == ScoreJob(job, userLower);
      assert scored[i] in positive;
      assert ScoreOf(y) >= ScoreOf(scored[i]);
    }
  }

  /** With room for the whole catalog, every job that matches anything is
      returned, and jobs with equal scores keep their catalog order. */
  lemma FindJobsBySkillsComplete(jobs: seq<Job>, userSkills: seq<string>, v: real)
    requires v > 0.0
    ensures var r := FindJobsBySkills(jobs, userSkills, |jobs|);
      && (forall job :: job in jobs && PositiveScore(ScoreJob(job, LowerAll(userSkills)))
                       ==> ScoreJob(job, LowerAll(userSkills)) in r)
      && WithKey(r, ScoreOf, v) == WithKey(ScoreAll(jobs, LowerAll(userSkills)), ScoreOf, v)
  {
    var userLower := LowerAll(userSkills);
    var scored := ScoreAll(jobs, userLower);
    var positive := Filter(scored, PositiveScore);
    var sorted := SortDesc(positive, ScoreOf);
    assert |positive| <= |jobs|;
    assert FindJobsBySkills(jobs, userSkills, |jobs|) == sorted;
    forall job | job in jobs && PositiveScore(ScoreJob(job, userLower))
      ensures ScoreJob(job, userLower) in sorted
    {
      var i :| 0 <= i < |jobs| && jobs[i] == job;
      assert scored[i] == ScoreJob(job, userLower);
      assert scored[i] in positive;
      assert multiset(positive)[scored[i]] > 0;
    }
    WithKeyFilter(scored, PositiveScore, ScoreOf, v);
  }

  /** Filtering out elements whose key is not `v` does not change the
      elements with key `v`. */
  lemma {:induction false} WithKeyFilter(s: seq<ScoredJob>, p: ScoredJob -> bool, key: ScoredJob -> real, v: real)
    requires forall x :: key(x) == v ==> p(x)
    ensures WithKey(Filter(s, p), key, v) == WithKey(s, key, v)
  {
    if s != [] {
      WithKeyFilter(s[1..], p, key, v);
      if p(s[0]) {
        assert ([s[0]] + Filter(s[1..], p))[1..] == Filter(s[1..], p);
      }
    }
  }

  // ---------------------------------------------------------------------
  // Search by keyword
  // ---------------------------------------------------------------------

  /** The lower-cased keyword occurs in the job's title, description,
      category or one of its skills, all lower-cased. */
  predicate Mentions(keywordLower: string, job: Job) {
    Contains(LowerStr(job.title), keywordLower)
    || Contains(LowerStr(job.description), keywordLower)
    || Contains(LowerStr(job.category), keywordLower)
    || exists s | s in job.skills :: Contains(LowerStr(s), keywordLower)
  }

  function MentionsKeyword(keywordLower: string): Job -> bool {
    job => Mentions(keywordLower, job)
  }

  /** The first `limit` catalog jobs that mention the keyword, case-insensitively. */
  function FindJobsByKeywords(jobs: seq<Job>, keywords: string, limit: nat): (r: seq<Job>)
    ensures IsSubseq(r, jobs)
    ensures |r| <= limit
    ensures forall job :: job in r ==> Mentions(LowerStr(keywords), job)
    ensures forall job :: job in jobs && Mentions(LowerStr(keywords), job) && job !in r ==> |r| == limit
    ensures Distinct(jobs) ==>
              forall i, j :: 0 <= i < j < |jobs| && jobs[j] in r && Mentions(LowerStr(keywords), jobs[i]) ==> jobs[i] in r
  {
    var hits := Filter(jobs, MentionsKeyword(LowerStr(keywords)));
    assert Distinct(jobs) ==> forall i, j ::
             (0 <= i < j < |jobs| && jobs[j] in Take(hits, limit) && MentionsKeyword(LowerStr(keywords))(jobs[i]))
             ==> jobs[i] in Take(hits, limit) by {
      if Distinct(jobs) {
        TakeFilterClosed(jobs, MentionsKeyword(LowerStr(keywords)), limit);
      }
    }
    forall job | job in Take(hits, limit) ensures Mentions(LowerStr(keywords), job) {
      assert job in hits;
    }
    TakeSubseq(hits, limit);
    SubseqTrans(Take(hits, limit), hits, jobs);
    Take(hits, limit)
  }

  /** The empty keyword is contained in everything: the search degenerates
      to the first `limit` jobs of the catalog. */
  lemma EmptyKeywordTakesFirst(jobs: seq<Job>, limit: nat)
    ensures FindJobsByKeywords(jobs, "", limit) == Take(jobs, limit)
  {
    forall job | job in jobs ensures MentionsKeyword("")(job) {
      ContainsEmpty(LowerStr(job.title));
    }
    FilterAll(jobs, MentionsKeyword(""));
  }

  /** Searching is case-insensitive in the keyword. */
  lemma KeywordCaseIgnored(jobs: seq<Job>, keywords: string, limit: nat)
    ensures FindJobsByKeywords(jobs, keywords, limit) == FindJobsByKeywords(jobs, LowerStr(keywords), limit)
  {
    LowerStrIdempotent(keywords);
  }

  // ---------------------------------------------------------------------
  // Facts about the catalog
  // ---------------------------------------------------------------------

  /** Two entries of the catalog carry the same title under different
      identifiers, so lookups keyed by title cannot tell them apart. */
  lemma CatalogRepeatsTitle()
    ensures NetworkAdministrator in Jobs && NetworkSystemsAdministrator in Jobs
    ensures NetworkAdministrator.title == NetworkSystemsAdministrator.title
    ensures NetworkAdministrator.id != NetworkSystemsAdministrator.id
  {
    assert NetworkAdministrator.id[4] != NetworkSystemsAdministrator.id[4];
  }
}

=== FILE: jobstore.dfy ===
/** The client-side job store: the job list, the list shown after the search
    query and filters, and the saved and applied job ids. */
module JobStore {

  import opened Wrappers
  import opened Text
  import opened Seqs

  /** A job as the client lists it. */
  datatype FeedJob = FeedJob(
    id: int,
    title: string,
    company: string,
    location: string,
    industry: string,
    salary: string,
    level: string,
    remote: bool,
    skills: seq<string>)

  /** The filter panel; an empty string or `false` means "no filter". */
  datatype Filters = Filters(location: string, industry: string, salary: string, level: string, remote: bool)

  const NoFilters := Filters("", "", "", "", false)

  datatype JobState = JobState(
    jobs: seq<FeedJob>,
    filteredJobs: seq<FeedJob>,
    searchQuery: string,
    filters: Filters,
    savedJobs: seq<int>,
    appliedJobs: seq<int>)

  const Initial := JobState([], [], "", NoFilters, [], [])

  /** The query occurs, ignoring case, in the title, the company or a skill. */
  predicate MatchesQuery(query: string, job: FeedJob) {
    query == "" ||
    var q := LowerStr(query);
    Contains(LowerStr(job.title), q) || Contains(LowerStr(job.company), q)
    || exists s | s in job.skills :: Contains(LowerStr(s), q)
  }

  predicate MatchesLocation(f: Filters, job: FeedJob) {
    f.location == "" || Contains(LowerStr(job.location), LowerStr(f.location))
  }

  predicate MatchesIndustry(f: Filters, job: FeedJob) {
    f.industry == "" || job.industry == f.industry
  }

  /** The first number of a salary text such as "$80,000 - $120,000": the
      digits before the first dash, read as `parseInt`; None is NaN. */
  function MinimumSalary(salary: string): (r: Option<nat>)
    ensures r.None? <==> DigitsOf(Split(salary, '-')[0]) == ""
  {
    ParseDigits(DigitsOf(Split(salary, '-')[0]))
  }

  /** The job's minimum is not below the filter's; a comparison with NaN
      is false, so an unreadable minimum on either side excludes nothing. */
  predicate MatchesSalary(f: Filters, job: FeedJob) {
    f.salary == "" ||
    !(MinimumSalary(job.salary).Some? && MinimumSalary(f.salary).Some?
      && MinimumSalary(job.salary).value < MinimumSalary(f.salary).value)
  }

  predicate MatchesLevel(f: Filters, job: FeedJob) {
    f.level == "" || job.level == f.level
  }

  predicate MatchesRemote(f: Filters, job: FeedJob) {
    !f.remote || job.remote
  }

  /** A job is shown when it passes the query and every active filter. */
  predicate Shown(query: string, f: Filters, job: FeedJob) {
    MatchesQuery(query, job) && MatchesLocation(f, job) && MatchesIndustry(f, job)
    && MatchesSalary(f, job) && MatchesLevel(f, job) && MatchesRemote(f, job)
  }

  function ShownBy(query: string, f: Filters): FeedJob -> bool {
    job => Shown(query, f, job)
  }

  /** `applyFilters`: the jobs shown, in list order; nothing else changes. */
  function ApplyFilters(st: JobState): (r: JobState)
    ensures IsSubseq(r.filteredJobs, st.jobs)
    ensures forall job :: job in r.filteredJobs <==> job in st.jobs && Shown(st.searchQuery, st.filters, job)
    ensures forall job :: multiset(r.filteredJobs)[job] ==
              if Shown(st.searchQuery, st.filters, job) then multiset(st.jobs)[job] else 0
    ensures r.(filteredJobs := st.filteredJobs) == st
  {
    FilterCounts(st.jobs, ShownBy(st.searchQuery, st.filters));
    st.(filteredJobs := Filter(st.jobs, ShownBy(st.searchQuery, st.filters)))
  }

  /** Without a query and filters every job is shown. */
  lemma NothingFiltersNothing(jobs: seq<FeedJob>)
    ensures Filter(jobs, ShownBy("", NoFilters)) == jobs
  {
    FilterAll(jobs, ShownBy("", NoFilters));
  }

  /** A salary filter without digits lets every job through. */
  lemma SalaryWithoutDigitsExcludesNothing(f: Filters, job: FeedJob)
    requires forall i :: 0 <= i < |f.salary| ==> !IsDigit(f.salary[i])
    ensures MatchesSalary(f, job)
  {
    var first := Split(f.salary, '-')[0];
    SplitPartChars(f.salary, '-', 0);
    forall i | 0 <= i < |first| ensures !IsDigit(first[i]) {
      assert first[i] in first;
      var j :| 0 <= j < |f.salary| && f.salary[j] == first[i];
    }
    DigitsOfNoDigit(first);
  }

  /** Every character of a part of a split is a character of the whole. */
  lemma {:induction false} SplitPartChars(s: string, sep: char, k: nat)
    requires k < |Split(s, sep)|
    ensures forall c :: c in Split(s, sep)[k] ==> c in s
  {
    if s != [] {
      var rest := Split(s[1..], sep);
      if s[0] == sep {
        if k > 0 {
          SplitPartChars(s[1..], sep, k - 1);
        }
      } else if k == 0 {
        SplitPartChars(s[1..], sep, 0);
      } else {
        SplitPartChars(s[1..], sep, k);
      }
    }
  }

  /** `setJobs`: both lists become the given jobs. */
  function SetJobs(st: JobState, jobs: seq<FeedJob>): (r: JobState)
    ensures r.jobs == jobs && r.filteredJobs == jobs
    ensures r.(jobs := st.jobs, filteredJobs := st.filteredJobs) == st
  {
    st.(jobs := jobs, filteredJobs := jobs)
  }

  /** `setSearchQuery`: the query is stored and the filters re-applied. */
  function SetSearchQuery(st: JobState, query: string): (r: JobState)
    ensures r.searchQuery == query
    ensures forall job :: job in r.filteredJobs <==> job in st.jobs && Shown(query, st.filters, job)
    ensures r.(searchQuery := st.searchQuery, filteredJobs := st.filteredJobs) == st
  {
    ApplyFilters(st.(searchQuery := query))
  }

  /** One field of the filter panel set to a value. */
  datatype FilterChange =
    | SetLocation(location: string)
    | SetIndustry(industry: string)
    | SetSalary(salary: string)
    | SetLevel(level: string)
    | SetRemote(remote: bool)

  function Change(f: Filters, c: FilterChange): Filters {
    match c
    case SetLocation(v) => f.(location := v)
    case SetIndustry(v) => f.(industry := v)
    case SetSalary(v) => f.(salary := v)
    case SetLevel(v) => f.(level := v)
    case SetRemote(v) => f.(remote := v)
  }

  /** `setFilter`: one filter changed, the others kept, the list re-filtered. */
  function SetFilter(st: JobState, c: FilterChange): (r: JobState)
    ensures c.SetLocation? ==> r.filters == st.filters.(location := c.location)
    ensures c.SetIndustry? ==> r.filters == st.filters.(industry := c.industry)
    ensures c.SetSalary? ==> r.filters == st.filters.(salary := c.salary)
    ensures c.SetLevel? ==> r.filters == st.filters.(level := c.level)
    ensures c.SetRemote? ==> r.filters == st.filters.(remote := c.remote)
    ensures forall job :: job in r.filteredJobs <==> job in st.jobs && Shown(st.searchQuery, r.filters, job)
    ensures r.(filters := st.filters, filteredJobs := st.filteredJobs) == st
  {
    ApplyFilters(st.(filters := Change(st.filters, c)))
  }

  /** `clearFilters`: no query, no filters, every job shown. */
  function ClearFilters(st: JobState): (r: JobState)
    ensures r.filters == NoFilters && r.searchQuery == "" && r.filteredJobs == st.jobs
    ensures r.jobs == st.jobs && r.savedJobs == st.savedJobs && r.appliedJobs == st.appliedJobs
  {
    st.(filters := NoFilters, searchQuery := "", filteredJobs := st.jobs)
  }

  /** Clearing shows exactly what filtering with nothing set shows. */
  lemma ClearAgreesWithApply(st: JobState)
    ensures ApplyFilters(ClearFilters(st)) == ClearFilters(st)
  {
    NothingFiltersNothing(st.jobs);
  }

  /** `saveJob`: the id is saved once, at the end if it was new. */
  function SaveJob(st: JobState, id: int): (r: JobState)
    ensures id in r.savedJobs
    ensures forall x :: x in r.savedJobs <==> x in st.savedJobs || x == id
    ensures |st.savedJobs| <= |r.savedJobs| <= |st.savedJobs| + 1 && r.savedJobs[..|st.savedJobs|] == st.savedJobs
    ensures Distinct(st.savedJobs) ==> Distinct(r.savedJobs)
    ensures r.(savedJobs := st.savedJobs) == st
  {
    st.(savedJobs := AppendAbsent(st.savedJobs, id))
  }

  /** `unsaveJob`: the id is no longer saved; the others stay, in order. */
  function UnsaveJob(st: JobState, id: int): (r: JobState)
    ensures id !in r.savedJobs
    ensures IsSubseq(r.savedJobs, st.savedJobs)
    ensures forall x :: x != id ==> (x in r.savedJobs <==> x in st.savedJobs)
    ensures r.(savedJobs := st.savedJobs) == st
  {
    st.(savedJobs := Without(st.savedJobs, id))
  }

  /** `applyToJob`: the id is recorded once, at the end if it was new. */
  function ApplyToJob(st: JobState, id: int): (r: JobState)
    ensures id in r.appliedJobs
    ensures forall x :: x in r.appliedJobs <==> x in st.appliedJobs || x == id
    ensures |st.appliedJobs| <= |r.appliedJobs| <= |st.appliedJobs| + 1 && r.appliedJobs[..|st.appliedJobs|] == st.appliedJobs
    ensures Distinct(st.appliedJobs) ==> Distinct(r.appliedJobs)
    ensures r.(appliedJobs := st.appliedJobs) == st
  {
    st.(appliedJobs := AppendAbsent(st.appliedJobs, id))
  }

  /** `isJobSaved`: some entry of the saved list is the id. */
  function IsJobSaved(st: JobState, id: int): (r: bool)
    ensures r <==> exists i :: 0 <= i < |st.savedJobs| && st.savedJobs[i] == id
  {
    id in st.savedJobs
  }

  /** `isJobApplied`: some entry of the applied list is the id. */
  function IsJobApplied(st: JobState, id: int): (r: bool)
    ensures r <==> exists i :: 0 <= i < |st.appliedJobs| && st.appliedJobs[i] == id
  {
    id in st.appliedJobs
  }

  /** Saving twice is saving once; so is applying. */
  lemma SaveAndApplyIdempotent(st: JobState, id: int)
    ensures SaveJob(SaveJob(st, id), id) == SaveJob(st, id)
    ensures ApplyToJob(ApplyToJob(st, id), id) == ApplyToJob(st, id)
  {
    AppendAbsentIdempotent(st.savedJobs, id);
    AppendAbsentIdempotent(st.appliedJobs, id);
  }

  /** Saving and then unsaving leaves the saved list as unsaving alone would,
      and the job is reported unsaved. */
  lemma SaveThenUnsave(st: JobState, id: int)
    ensures UnsaveJob(SaveJob(st, id), id) == UnsaveJob(st, id)
    ensures !IsJobSaved(UnsaveJob(SaveJob(st, id), id), id)
  {
    WithoutAppendAbsent(st.savedJobs, id);
  }

  /** The saved list never holds an id twice, whatever the sequence of saves
      and unsaves from the empty store. */
  lemma UnsaveKeepsDistinct(st: JobState, id: int)
    requires Distinct(st.savedJobs)
    ensures Distinct(UnsaveJob(st, id).savedJobs)
  {
    WithoutDistinct(st.savedJobs, id);
  }
}

=== FILE: learningpage.dfy ===
/** The two pieces of logic on the learning page: the jobs suggested for a
    completed course, and the "Continue Learning" step, which advances a
    course by a quarter. */
module LearningPage {

  import opened Wrappers
  import opened Text
  import opened Seqs
  import opened LearningStore

  /** A job of the client catalog; only the fields the match reads. */
  datatype CatalogJob = CatalogJob(title: string, skills: Option<seq<string>>)

  /** The course's field occurs, ignoring case, in the job title. */
  predicate FieldMatch(course: Course, job: CatalogJob) {
    course.field.Some? && course.field.value != ""
    && Contains(LowerStr(job.title), LowerStr(course.field.value))
  }

  /** Some course skill is, exactly, one of the job's skills. */
  predicate SkillMatch(course: Course, job: CatalogJob) {
    course.skills.Some? && job.skills.Some?
    && exists s | s in course.skills.value :: s in job.skills.value
  }

  function SuitsCourse(course: Course): CatalogJob -> bool {
    job => FieldMatch(course, job) || SkillMatch(course, job)
  }

  /** `getRecommendedJobs`: nothing for a course not completed; otherwise the
      catalog jobs, in order, whose title names the course's field or that
      share a skill with it. */
  function RecommendedJobs(e: Enrollment, jobs: seq<CatalogJob>): (r: seq<CatalogJob>)
    ensures !e.completed ==> r == []
    ensures IsSubseq(r, jobs)
    ensures e.completed ==>
      forall job :: job in r <==> job in jobs && (FieldMatch(e.course, job) || SkillMatch(e.course, job))
    ensures e.completed ==>
      forall job :: multiset(r)[job] ==
        if FieldMatch(e.course, job) || SkillMatch(e.course, job) then multiset(jobs)[job] else 0
  {
    if !e.completed then
      SubseqEmpty(jobs);
      []
    else
      FilterCounts(jobs, SuitsCourse(e.course));
      Filter(jobs, SuitsCourse(e.course))
  }

  /** Skills are compared exactly: a lower-cased course skill does not find
      the capitalised job skill. */
  lemma SkillCaseMatters()
    ensures !SkillMatch(Course(1, "", None, Some(["react"])), CatalogJob("Developer", Some(["React"])))
  {
    assert "react" != "React";
  }

  /** The progress after one "Continue Learning": a quarter more, at most 100. */
  function NextProgress(progress: int): (r: int)
    ensures r <= 100
    ensures progress <= 100 ==> progress <= r
    ensures r == 100 <==> progress >= 75
    ensures progress < 75 ==> r == progress + 25
    ensures progress >= 75 ==> r == 100
  {
    Min(progress + 25, 100)
  }

  /** "Continue Learning" on an enrolled course. */
  function ContinueLearning(enrolled: seq<Enrollment>, e: Enrollment): (r: seq<Enrollment>)
    ensures |r| == |enrolled|
    ensures forall i :: 0 <= i < |r| ==> r[i].course == enrolled[i].course
    ensures forall i :: 0 <= i < |r| && enrolled[i].course.id == e.course.id ==>
              r[i].progress <= 100 && (r[i].completed <==> e.progress >= 75)
    ensures forall i :: 0 <= i < |r| && enrolled[i].course.id == e.course.id ==>
              r[i].progress == (if e.progress < 75 then e.progress + 25 else 100)
    ensures forall i :: 0 <= i < |r| && enrolled[i].course.id != e.course.id ==> r[i] == enrolled[i]
  {
    UpdateCourseProgress(enrolled, e.course.id, NextProgress(e.progress))
  }

  /** Four steps take a fresh enrollment to a completed course. */
  lemma FourStepsComplete(c: Course)
    ensures var s0 := EnrollCourse([], c);
            var s1 := ContinueLearning(s0, s0[0]);
            var s2 := ContinueLearning(s1, s1[0]);
            var s3 := ContinueLearning(s2, s2[0]);
            var s4 := ContinueLearning(s3, s3[0]);
            s1[0].progress == 25 && !s1[0].completed
            && s3[0].progress == 75 && !s3[0].completed
            && s4 == [Enrollment(c, 100, true)]
  {
    var s0 := EnrollCourse([], c);
    assert s0 == [Enrollment(c, 0, false)];
    var s1 := ContinueLearning(s0, s0[0]);
    assert s1 == [Enrollment(c, 25, false)];
    var s2 := ContinueLearning(s1, s1[0]);
    assert s2 == [Enrollment(c, 50, false)];
    var s3 := ContinueLearning(s2, s2[0]);
    assert s3 == [Enrollment(c, 75, false)];
  }
}

=== FILE: learningresources.dfy ===
/** The learning-resource directory: courses, books and documentation keyed
    by job title or by skill name, plus four general career resources. */
module LearningResources {

  import opened Seqs

  /** One learning resource; `kind` is the resource's "type" field. */
  datatype Resource = Resource(
    title: string,
    provider: string,
    kind: string,
    url: string,
    duration: string,
    price: string,
    rating: real,
    description: string)

  function TitleOf(r: Resource): string {
    r.title
  }

  /** Resources keyed by job title ("Software Developer", ...) or by skill
      name ("React", "Python", "Machine Learning"). Keys are case-sensitive. */
  const Table: map<string, seq<Resource>> := map[
    "Software Developer" := [
      Resource("The Complete JavaScript Course 2024", "Udemy", "course",
        "https://www.udemy.com/course/the-complete-javascript-course/",
        "69 hours", "Paid", 4.7,
        "Master JavaScript with the most complete course! Projects, challenges, final exam, ES2024"),
      Resource("freeCodeCamp - JavaScript Algorithms and Data Structures", "freeCodeCamp", "course",
        "https://www.freecodecamp.org/learn/javascript-algorithms-and-data-structures/",
        "300 hours", "Free", 4.8,
        "Learn JavaScript fundamentals including variables, arrays, objects, loops, and functions"),
      Resource("Clean Code: A Handbook of Agile Software Craftsmanship", "Amazon", "book",
        "https://www.amazon.com/Clean-Code-Handbook-Software-Craftsmanship/dp/0132350882",
        "Reading", "$45", 4.6,
        "Essential book for writing maintainable and readable code"),
      Resource("JavaScript.info - The Modern JavaScript Tutorial", "JavaScript.info", "tutorial",
        "https://javascript.info/",
        "Self-paced", "Free", 4.9,
        "Comprehensive tutorial covering modern JavaScript from basics to advanced topics")
    ],
    "Web Developer" := [
      Resource("The Complete Web Developer Course 2024", "Udemy", "course",
        "https://www.udemy.com/course/the-complete-web-developer-course-2/",
        "30 hours", "Paid", 4.5,
        "Learn Web Development by building 25 websites and mobile apps using HTML, CSS, Javascript, PHP, Python, MySQL & more!"),
      Resource("freeCodeCamp - Responsive Web Design", "freeCodeCamp", "course",
        "https://www.freecodecamp.org/learn/2022/responsive-web-design/",
        "300 hours", "Free", 4.8,
        "Learn HTML and CSS to build responsive websites"),
      Resource("MDN Web Docs", "Mozilla", "documentation",
        "https://developer.mozilla.org/",
        "Reference", "Free", 4.9,
        "Comprehensive documentation for web technologies"),
      Resource("CSS-Tricks", "CSS-Tricks", "blog",
        "https://css-tricks.com/",
        "Ongoing", "Free", 4.7,
        "Daily articles about CSS, HTML, JavaScript, and web design")
    ],
    "Data Scientist" := [
      Resource("Python for Data Science and Machine Learning Bootcamp", "Udemy", "course",
        "https://www.udemy.com/course/python-for-data-science-and-machine-learning-bootcamp/",
        "25 hours", "Paid", 4.6,
        "Learn Python for data analysis, visualization, and machine learning"),
      Resource("Kaggle Learn", "Kaggle", "course",
        "https://www.kaggle.com/learn",
        "Variable", "Free", 4.7,
        "Free micro-courses on data science topics"),
      Resource("Coursera - Machine Learning Specialization", "Coursera", "specialization",
        "https://www.coursera.org/specializations/machine-learning-introduction",
        "3 months", "Subscription", 4.8,
        "Stanford's machine learning course taught by Andrew Ng"),
      Resource("Elements of Statistical Learning", "Stanford", "book",
        "https://web.stanford.edu/~hastie/ElemStatLearn/",
        "Reading", "Free PDF", 4.8,
        "Comprehensive textbook on statistical learning and machine learning")
    ],
    "UX/UI Designer" := [
      Resource("Google UX Design Certificate", "Coursera", "certificate",
        "https://www.coursera.org/professional-certificates/google-ux-design",
        "6 months", "Subscription", 4.6,
        "Professional certificate program covering UX design fundamentals"),
      Resource("Figma Masterclass", "Figma Academy", "course",
        "https://www.figma.com/academy/",
        "Self-paced", "Free", 4.7,
        "Official Figma tutorials and best practices"),
      Resource("Don't Make Me Think", "Amazon", "book",
        "https://www.amazon.com/Dont-Make-Think-Revisited-Usability/dp/0321965515",
        "Reading", "$30", 4.6,
        "Essential book on web usability and common sense approach to UX"),
      Resource("Laws of UX", "lawsofux.com", "resource",
        "https://lawsofux.com/",
        "Reference", "Free", 4.8,
        "Collection of design principles and guidelines for user experience")
    ],
    "Cybersecurity Analyst" := [
      Resource("CompTIA Security+ Certification", "CompTIA", "certification",
        "https://www.comptia.org/certifications/security",
        "3-6 months", "$370", 4.5,
        "Entry-level cybersecurity certification"),
      Resource("Cybrary - Cyber Security Training", "Cybrary", "platform",
        "https://www.cybrary.it/",
        "Variable", "Freemium", 4.4,
        "Free and paid cybersecurity training courses"),
      Resource("SANS Cyber Aces", "SANS", "tutorial",
        "https://cyberaces.org/",
        "Self-paced", "Free", 4.6,
        "Free cybersecurity tutorials covering various topics"),
      Resource("OWASP Top 10", "OWASP", "guide",
        "https://owasp.org/www-project-top-ten/",
        "Reference", "Free", 4.8,
        "Standard awareness document for web application security")
    ],
    "Product Manager" := [
      Resource("Google Project Management Certificate", "Coursera", "certificate",
        "https://www.coursera.org/professional-certificates/google-project-management",
        "6 months", "Subscription", 4.5,
        "Learn project management fundamentals and tools"),
      Resource("Inspired: How to Create Tech Products Customers Love", "Amazon", "book",
        "https://www.amazon.com/INSPIRED-Create-Tech-Products-Customers/dp/1119387507",
        "Reading", "$25", 4.6,
        "Essential book on product management and product development"),
      Resource("Product School", "Product School", "course",
        "https://productschool.com/",
        "8 weeks", "Paid", 4.4,
        "Product management courses taught by industry professionals"),
      Resource("Mind the Product", "Mind the Product", "blog",
        "https://www.mindtheproduct.com/",
        "Ongoing", "Free", 4.5,
        "Community and content for product managers")
    ],
    "Digital Marketing Manager" := [
      Resource("Google Digital Marketing & E-commerce Certificate", "Coursera", "certificate",
        "https://www.coursera.org/professional-certificates/google-digital-marketing-ecommerce",
        "6 months", "Subscription", 4.6,
        "Professional certificate covering digital marketing fundamentals"),
      Resource("HubSpot Academy", "HubSpot", "course",
        "https://academy.hubspot.com/",
        "Variable", "Free", 4.5,
        "Free marketing, sales, and customer service courses"),
      Resource("Facebook Blueprint", "Meta", "course",
        "https://www.facebook.com/business/learn",
        "Self-paced", "Free", 4.3,
        "Free courses on Facebook and Instagram advertising"),
      Resource("Moz SEO Learning Center", "Moz", "resource",
        "https://moz.com/learn/seo",
        "Self-paced", "Free", 4.7,
        "Comprehensive guide to search engine optimization")
    ],
    "React" := [
      Resource("React - The Complete Guide", "Udemy", "course",
        "https://www.udemy.com/course/react-the-complete-guide-incl-redux/",
        "48 hours", "Paid", 4.6,
        "Complete React course including hooks, Redux, and Next.js"),
      Resource("React Official Documentation", "React", "documentation",
        "https://react.dev/",
        "Reference", "Free", 4.8,
        "Official React documentation with tutorials and API reference")
    ],
    "Python" := [
      Resource("Automate the Boring Stuff with Python", "Author", "book",
        "https://automatetheboringstuff.com/",
        "Reading", "Free online", 4.7,
        "Practical Python programming for total beginners"),
      Resource("Python.org Tutorial", "Python.org", "tutorial",
        "https://docs.python.org/3/tutorial/",
        "Self-paced", "Free", 4.5,
        "Official Python tutorial covering language fundamentals")
    ],
    "Machine Learning" := [
      Resource("Fast.ai - Practical Deep Learning for Coders", "fast.ai", "course",
        "https://course.fast.ai/",
        "7 weeks", "Free", 4.8,
        "Practical approach to deep learning without heavy math prerequisites"),
      Resource("scikit-learn Documentation", "scikit-learn", "documentation",
        "https://scikit-learn.org/stable/",
        "Reference", "Free", 4.7,
        "Machine learning library documentation with tutorials")
    ]
  ]

  /** The four general career-development resources, in order. */
  const General: seq<Resource> := [
    Resource("LinkedIn Learning - Career Development", "LinkedIn", "course",
      "https://www.linkedin.com/learning/topics/career-development",
      "Variable", "Subscription", 4.4,
      "Wide range of career development and professional skills courses"),
    Resource("Harvard Business Review - Career Management", "HBR", "articles",
      "https://hbr.org/topic/career-management",
      "Ongoing", "Subscription", 4.6,
      "Expert advice on career management and professional development"),
    Resource("Coursera - Career Success Specialization", "Coursera", "specialization",
      "https://www.coursera.org/specializations/career-success",
      "4 months", "Subscription", 4.5,
      "Skills for career development and job search strategies"),
    Resource("TED Talks - Career", "TED", "videos",
      "https://www.ted.com/topics/career",
      "Variable", "Free", 4.7,
      "Inspiring talks about career development and professional growth")]

  /** The resources listed under a job title; none for an unknown title. */
  function ResourcesForJob(table: map<string, seq<Resource>>, jobTitle: string): (r: seq<Resource>)
    ensures jobTitle in table ==> r == table[jobTitle]
    ensures jobTitle !in table ==> r == []
  {
    if jobTitle in table then table[jobTitle] else []
  }

  /** The entries of every listed skill, concatenated in skill order. */
  function Gathered(table: map<string, seq<Resource>>, skills: seq<string>): seq<Resource>
  {
    if skills == [] then []
    else ResourcesForJob(table, skills[0]) + Gathered(table, skills[1..])
  }

  lemma {:induction false} GatheredConcat(table: map<string, seq<Resource>>, a: seq<string>, b: seq<string>)
    ensures Gathered(table, a + b) == Gathered(table, a) + Gathered(table, b)
  {
    if a == [] {
      assert a + b == b;
    } else {
      assert (a + b)[0] == a[0];
      assert (a + b)[1..] == a[1..] + b;
      GatheredConcat(table, a[1..], b);
    }
  }

  /** A resource is gathered exactly when it is listed under one of the skills. */
  lemma {:induction false} GatheredMembers(table: map<string, seq<Resource>>, skills: seq<string>, x: Resource)
    ensures x in Gathered(table, skills) <==> exists s :: s in skills && s in table && x in table[s]
  {
    if skills != [] {
      GatheredMembers(table, skills[1..], x);
      if x in Gathered(table, skills[1..]) {
        var s :| s in skills[1..] && s in table && x in table[s];
        assert s in skills;
      }
      if exists s :: s in skills && s in table && x in table[s] {
        var s :| s in skills && s in table && x in table[s];
        if s != skills[0] {
          assert s in skills[1..];
        }
      }
    }
  }

  /** The resources of every listed skill that has an entry, in order, with
      later resources whose title was already seen dropped. */
  function ResourcesForSkills(table: map<string, seq<Resource>>, skills: seq<string>): (r: seq<Resource>)
    ensures DistinctBy(r, TitleOf)
    ensures IsSubseq(r, Gathered(table, skills))
    ensures forall x :: x in r ==> FirstWithKey(Gathered(table, skills), TitleOf, x)
    ensures forall x :: x in r ==> exists s :: s in skills && s in table && x in table[s]
    ensures forall s, x :: s in skills && s in table && x in table[s] ==> HasKey(r, TitleOf, x.title)
    ensures InFirstOrder(r, Gathered(table, skills), TitleOf)
  {
    var gathered := Gathered(table, skills);
    var r := KeepFirstBy(gathered, TitleOf);
    SubseqLength(r, gathered);
    TakeKeepFirst(gathered, TitleOf, |gathered|);
    assert Take(r, |gathered|) == r;
    SubseqMembers(r, gathered);
    forall x | x in r ensures exists s :: s in skills && s in table && x in table[s] {
      GatheredMembers(table, skills, x);
    }
    forall s, x | s in skills && s in table && x in table[s] ensures HasKey(r, TitleOf, x.title) {
      GatheredMembers(table, skills, x);
      var i :| 0 <= i < |gathered| && gathered[i] == x;
      assert HasKey(gathered, TitleOf, x.title);
    }
    r
  }

  /** Naming the same skills again adds nothing. */
  lemma ResourcesForSkillsRepeat(table: map<string, seq<Resource>>, skills: seq<string>)
    ensures ResourcesForSkills(table, skills + skills) == ResourcesForSkills(table, skills)
  {
    var g := Gathered(table, skills);
    GatheredConcat(table, skills, skills);
    KeepFirstRepeats(g, g, TitleOf);
  }

  /** A skill without an entry of its own contributes nothing. */
  lemma ResourcesForUnknownSkill(table: map<string, seq<Resource>>, skills: seq<string>, skill: string)
    requires skill !in table
    ensures ResourcesForSkills(table, skills + [skill]) == ResourcesForSkills(table, skills)
  {
    GatheredConcat(table, skills, [skill]);
    assert Gathered(table, [skill]) == [];
    assert Gathered(table, skills) + [] == Gathered(table, skills);
  }

  /** Keys are matched exactly: "react" finds nothing although "React" is listed. */
  lemma LowerCaseSkillUnknown()
    ensures "React" in Table && "react" !in Table
  {
  }

  /** The general list holds four resources with different titles. */
  lemma GeneralTitlesDistinct()
    ensures |General| == 4 && DistinctBy(General, TitleOf)
  {
  }
}

=== FILE: learningstore.dfy ===
/** The client-side learning store: the courses the user is enrolled in,
    each with its progress and completion flag. */
module LearningStore {

  import opened Wrappers
  import opened Seqs

  /** A catalog course; only the fields the client logic reads. */
  datatype Course = Course(id: int, title: string, field: Option<string>, skills: Option<seq<string>>)

  /** An enrolled course: the course with its progress (a percentage) and
      whether it is completed. */
  datatype Enrollment = Enrollment(course: Course, progress: int, completed: bool)

  function IdOf(e: Enrollment): int {
    e.course.id
  }

  function Ids(enrolled: seq<Enrollment>): (r: seq<int>)
    ensures |r| == |enrolled|
    ensures forall i :: 0 <= i < |enrolled| ==> r[i] == enrolled[i].course.id
  {
    seq(|enrolled|, i requires 0 <= i < |enrolled| => enrolled[i].course.id)
  }

  predicate IsEnrolled(enrolled: seq<Enrollment>, id: int) {
    exists i | 0 <= i < |enrolled| :: enrolled[i].course.id == id
  }

  /** `enrollCourse`: a course not yet enrolled is appended with no progress;
      an enrolled one changes nothing. */
  function EnrollCourse(enrolled: seq<Enrollment>, course: Course): (r: seq<Enrollment>)
    ensures IsEnrolled(enrolled, course.id) ==> r == enrolled
    ensures !IsEnrolled(enrolled, course.id) ==>
      |r| == |enrolled| + 1 && r[..|enrolled|] == enrolled && r[|enrolled|] == Enrollment(course, 0, false)
    ensures DistinctBy(enrolled, IdOf) ==> DistinctBy(r, IdOf)
  {
    if IsEnrolled(enrolled, course.id) then enrolled
    else enrolled + [Enrollment(course, 0, false)]
  }

  /** Enrolling twice is enrolling once. */
  lemma EnrollIdempotent(enrolled: seq<Enrollment>, course: Course)
    ensures EnrollCourse(EnrollCourse(enrolled, course), course) == EnrollCourse(enrolled, course)
  {
    var r := EnrollCourse(enrolled, course);
    if !IsEnrolled(enrolled, course.id) {
      assert r[|enrolled|].course.id == course.id;
    }
  }

  /** The entry with the given id, rewritten; the others as they are. */
  function SetProgress(e: Enrollment, id: int, progress: int): Enrollment {
    if e.course.id == id then Enrollment(e.course, progress, progress >= 100) else e
  }

  /** `updateCourseProgress`: the entries with that id get the progress, and
      are completed exactly when it reaches 100; the others are unchanged. */
  function UpdateCourseProgress(enrolled: seq<Enrollment>, id: int, progress: int): (r: seq<Enrollment>)
    ensures |r| == |enrolled|
    ensures forall i :: 0 <= i < |r| ==> r[i].course == enrolled[i].course
    ensures forall i :: 0 <= i < |r| && enrolled[i].course.id == id ==>
              r[i].progress == progress && (r[i].completed <==> progress >= 100)
    ensures forall i :: 0 <= i < |r| && enrolled[i].course.id != id ==> r[i] == enrolled[i]
  {
    seq(|enrolled|, i requires 0 <= i < |enrolled| => SetProgress(enrolled[i], id, progress))
  }

  /** `completeCourse`: the entries with that id are at 100 and completed. */
  function CompleteCourse(enrolled: seq<Enrollment>, id: int): (r: seq<Enrollment>)
    ensures |r| == |enrolled|
    ensures forall i :: 0 <= i < |r| ==> r[i].course == enrolled[i].course
    ensures forall i :: 0 <= i < |r| && enrolled[i].course.id == id ==> r[i].progress == 100 && r[i].completed
    ensures forall i :: 0 <= i < |r| && enrolled[i].course.id != id ==> r[i] == enrolled[i]
  {
    seq(|enrolled|, i requires 0 <= i < |enrolled| =>
      if enrolled[i].course.id == id then Enrollment(enrolled[i].course, 100, true) else enrolled[i])
  }

  /** Completing a course is setting its progress to 100. */
  lemma CompleteIsFullProgress(enrolled: seq<Enrollment>, id: int)
    ensures CompleteCourse(enrolled, id) == UpdateCourseProgress(enrolled, id, 100)
  {
  }

  function OtherThan(id: int): Enrollment -> bool {
    (e: Enrollment) => e.course.id != id
  }

  /** `unenrollCourse`: the entries with that id are gone; the others stay, in order. */
  function UnenrollCourse(enrolled: seq<Enrollment>, id: int): (r: seq<Enrollment>)
    ensures IsSubseq(r, enrolled)
    ensures !IsEnrolled(r, id)
    ensures forall e :: e in r <==> e in enrolled && e.course.id != id
    ensures forall e :: multiset(r)[e] == if e.course.id != id then multiset(enrolled)[e] else 0
  {
    var r := Filter(enrolled, OtherThan(id));
    FilterCounts(enrolled, OtherThan(id));
    assert !IsEnrolled(r, id) by {
      forall i | 0 <= i < |r| ensures r[i].course.id != id {
        assert r[i] in r;
      }
    }
    r
  }

  /** Progress updates and completion keep the ids, so they keep them
      distinct; removal keeps them distinct too. */
  lemma OperationsKeepIdsDistinct(enrolled: seq<Enrollment>, id: int, progress: int)
    requires DistinctBy(enrolled, IdOf)
    ensures DistinctBy(UpdateCourseProgress(enrolled, id, progress), IdOf)
    ensures DistinctBy(CompleteCourse(enrolled, id), IdOf)
    ensures DistinctBy(UnenrollCourse(enrolled, id), IdOf)
  {
    var r := UnenrollCourse(enrolled, id);
    SubseqDistinctBy(r, enrolled, IdOf);
  }

  function HasId(id: int): Enrollment -> bool {
    (e: Enrollment) => e.course.id == id
  }

  /** `getEnrolledCourse`: the first entry with that id, if any. */
  function GetEnrolledCourse(enrolled: seq<Enrollment>, id: int): (r: Option<Enrollment>)
    ensures r.Some? ==> r.value in enrolled && r.value.course.id == id
    ensures r.Some? ==> exists i :: 0 <= i < |enrolled| && enrolled[i] == r.value
                                    && forall j :: 0 <= j < i ==> enrolled[j].course.id != id
    ensures r.None? <==> !IsEnrolled(enrolled, id)
  {
    match FindIndex(enrolled, HasId(id))
    case Some(i) => Some(enrolled[i])
    case None => None
  }

  function NotAmong(ids: seq<int>): Course -> bool {
    (c: Course) => c.id !in ids
  }

  /** `getAvailableCourses`: the catalog, in order, without the enrolled courses. */
  function AvailableCourses(catalog: seq<Course>, enrolled: seq<Enrollment>): (r: seq<Course>)
    ensures IsSubseq(r, catalog)
    ensures forall c :: c in r <==> c in catalog && !IsEnrolled(enrolled, c.id)
    ensures forall c :: multiset(r)[c] == if IsEnrolled(enrolled, c.id) then 0 else multiset(catalog)[c]
  {
    var ids := Ids(enrolled);
    var r := Filter(catalog, NotAmong(ids));
    FilterCounts(catalog, NotAmong(ids));
    forall id: int ensures id in ids <==> IsEnrolled(enrolled, id) {
      if id in ids {
        var i :| 0 <= i < |ids| && ids[i] == id;
      }
    }
    r
  }

  /** An enrolled course is no longer offered; after unenrolling it is again
      (when it is in the catalog). */
  lemma EnrollHidesCourse(catalog: seq<Course>, enrolled: seq<Enrollment>, course: Course)
    ensures course !in AvailableCourses(catalog, EnrollCourse(enrolled, course))
    ensures course in catalog ==>
      course in AvailableCourses(catalog, UnenrollCourse(EnrollCourse(enrolled, course), course.id))
  {
    var e := EnrollCourse(enrolled, course);
    if !IsEnrolled(enrolled, course.id) {
      assert e[|enrolled|].course.id == course.id;
    }
  }
}

=== FILE: mentorship.dfy ===
/** Mentorship data: six mentoring platforms, per-role platform suggestions,
    and the lookups over them. */
module Mentorship {

  import opened Wrappers
  import opened Text
  import opened Seqs

  /** A mentoring platform; `kind` is the platform's "type" field. */
  datatype Platform = Platform(
    id: nat,
    name: string,
    description: string,
    url: string,
    kind: string,
    features: seq<string>,
    categories: seq<string>,
    rating: real,
    cost: string)

  /** A suggested platform for a role, with why and what for. */
  datatype MentorRec = MentorRec(platform: string, reason: string, focus: string)

  /** The suggestions for one role, in the order the roles are declared. */
  datatype RoleMentors = RoleMentors(role: string, mentors: seq<MentorRec>)

  const ADPList := Platform(1, "ADPList", "Global community of amazing mentors & learners",
    "https://adplist.org/", "platform",
    ["Free mentorship", "Tech focus", "Global reach"],
    ["Technology", "Design", "Product", "Career"], 4.8, "Free")

  const MentorCruise := Platform(2, "MentorCruise", "Hand-picked mentors for your career growth",
    "https://mentorcruise.com/", "platform",
    ["Paid mentorship", "Expert mentors", "Structured programs"],
    ["Technology", "Business", "Design", "Marketing"], 4.6, "Paid")

  const LinkedIn := Platform(3, "LinkedIn", "Professional networking and mentorship opportunities",
    "https://linkedin.com/", "network",
    ["Professional network", "Industry groups", "Career advice"],
    ["All industries"], 4.3, "Freemium")

  const Score := Platform(4, "SCORE", "Free business mentoring for entrepreneurs",
    "https://www.score.org/", "organization",
    ["Free mentorship", "Business focus", "Expert volunteers"],
    ["Business", "Entrepreneurship"], 4.5, "Free")

  const TenThousandCoffees := Platform(5, "Ten Thousand Coffees", "Professional development and mentorship platform",
    "https://www.tenthousandcoffees.com/", "platform",
    ["Corporate programs", "Skill development", "Networking"],
    ["Corporate", "Leadership", "Career Development"], 4.4, "Corporate")

  const CodingCoach := Platform(6, "Coding Coach", "Free platform connecting mentors and mentees in tech",
    "https://codingcoach.io/", "platform",
    ["Free mentorship", "Coding focus", "Open source"],
    ["Programming", "Technology"], 4.7, "Free")

  /** The six platforms, in their fixed order. */
  const Platforms: seq<Platform> := [ADPList, MentorCruise, LinkedIn, Score, TenThousandCoffees, CodingCoach]

  /** The per-role suggestions, in the order they are searched. */
  const Recommendations: seq<RoleMentors> := [
    RoleMentors("Software Developer", DeveloperMentors),
    RoleMentors("Data Scientist", DataScientistMentors),
    RoleMentors("UX/UI Designer", DesignerMentors),
    RoleMentors("Product Manager", ProductManagerMentors),
    RoleMentors("Marketing Manager", MarketingMentors),
    RoleMentors("Cybersecurity Analyst", SecurityMentors)
  ]

  const DeveloperMentors: seq<MentorRec> := [
    MentorRec("ADPList",
      "Large community of tech mentors offering free guidance",
      "Technical skills, career growth, code review"),
    MentorRec("Coding Coach",
      "Specialized platform for programming mentorship",
      "Programming languages, best practices, career transitions"),
    MentorRec("LinkedIn",
      "Connect with senior developers in your tech stack",
      "Industry insights, networking, career opportunities")]

  const DataScientistMentors: seq<MentorRec> := [
    MentorRec("ADPList",
      "Many data science mentors available for career guidance",
      "ML projects, career transitions, technical interviews"),
    MentorRec("LinkedIn",
      "Connect with data science professionals and teams",
      "Industry trends, project showcasing, job opportunities"),
    MentorRec("MentorCruise",
      "Expert data scientists offering structured mentorship",
      "Advanced techniques, career strategy, portfolio development")]

  const DesignerMentors: seq<MentorRec> := [
    MentorRec("ADPList",
      "Large design community with experienced mentors",
      "Portfolio review, design process, career guidance"),
    MentorRec("LinkedIn",
      "Connect with design professionals and design teams",
      "Industry insights, design trends, networking"),
    MentorRec("MentorCruise",
      "Senior designers offering portfolio and career guidance",
      "Design strategy, user research, professional development")]

  const ProductManagerMentors: seq<MentorRec> := [
    MentorRec("ADPList",
      "Many product managers offering mentorship and guidance",
      "Product strategy, career transitions, PM skills"),
    MentorRec("LinkedIn",
      "Connect with product leaders and PM communities",
      "Industry insights, product trends, job opportunities"),
    MentorRec("MentorCruise",
      "Senior PMs offering structured career guidance",
      "Product leadership, strategy, career advancement")]

  const MarketingMentors: seq<MentorRec> := [
    MentorRec("LinkedIn",
      "Largest professional network for marketing professionals",
      "Marketing trends, strategy, networking opportunities"),
    MentorRec("ADPList",
      "Marketing mentors offering career and strategy guidance",
      "Digital marketing, career growth, skill development"),
    MentorRec("SCORE",
      "Business mentorship for marketing and entrepreneurship",
      "Business strategy, marketing fundamentals, growth tactics")]

  const SecurityMentors: seq<MentorRec> := [
    MentorRec("LinkedIn",
      "Connect with cybersecurity professionals and groups",
      "Security trends, certifications, career opportunities"),
    MentorRec("ADPList",
      "Security professionals offering mentorship",
      "Career transitions, technical skills, industry insights"),
    MentorRec("MentorCruise",
      "Expert security professionals for structured guidance",
      "Advanced security topics, career strategy, certifications")]

  /** Suggestions for a role that matches nothing. */
  const GeneralMentors: seq<MentorRec> := [
    MentorRec("LinkedIn",
      "Professional networking and industry connections",
      "Career guidance, industry insights, networking"),
    MentorRec("ADPList",
      "Free mentorship from industry professionals",
      "Career development, skill building, professional growth")]

  function IsRole(title: string): RoleMentors -> bool {
    (rm: RoleMentors) => rm.role == title
  }

  function RoleRelatedTo(title: string): RoleMentors -> bool {
    (rm: RoleMentors) => RelatedIgnoringCase(title, rm.role)
  }

  /** Suggestions for a job title: the role named exactly, otherwise the first
      role that contains or is contained in the title (ignoring case),
      otherwise the general suggestions. */
  function MentorRecommendations(recs: seq<RoleMentors>, title: string): (r: seq<MentorRec>)
    ensures forall i :: 0 <= i < |recs| && recs[i].role == title
              && (forall j :: 0 <= j < i ==> recs[j].role != title)
              ==> r == recs[i].mentors
    ensures (forall j :: 0 <= j < |recs| ==> recs[j].role != title) ==>
              forall i :: 0 <= i < |recs| && RelatedIgnoringCase(title, recs[i].role)
                && (forall j :: 0 <= j < i ==> !RelatedIgnoringCase(title, recs[j].role))
                ==> r == recs[i].mentors
    ensures (forall j :: 0 <= j < |recs| ==> recs[j].role != title && !RelatedIgnoringCase(title, recs[j].role))
              ==> r == GeneralMentors
    ensures r == GeneralMentors || exists i :: 0 <= i < |recs| && r == recs[i].mentors
  {
    match FindIndex(recs, IsRole(title))
    case Some(i) => recs[i].mentors
    case None =>
      match FindIndex(recs, RoleRelatedTo(title))
      case Some(i) => recs[i].mentors
      case None => GeneralMentors
  }

  /** Whatever the title, at least two platforms are suggested. */
  lemma MentorRecommendationsNeverEmpty(title: string)
    ensures |MentorRecommendations(Recommendations, title)| >= 2
  {
    forall i | 0 <= i < |Recommendations| ensures |Recommendations[i].mentors| >= 2 {
      RoleSuggestionCount(i);
    }
  }

  /** When no role's list is empty, no title gets an empty list. */
  lemma SuggestionsNonEmpty(recs: seq<RoleMentors>, title: string)
    requires forall i :: 0 <= i < |recs| ==> recs[i].mentors != []
    ensures MentorRecommendations(recs, title) != []
  {
    assert |GeneralMentors| == 2;
  }

  lemma RoleSuggestionCount(i: nat)
    requires i < |Recommendations|
    ensures |Recommendations[i].mentors| == 3
  {
    if i == 0 {} else if i == 1 {} else if i == 2 {} else if i == 3 {} else if i == 4 {} else {}
  }

  /** The empty title is contained in every role, so it gets the first
      role's suggestions. */
  lemma EmptyTitleGetsFirstRole()
    ensures MentorRecommendations(Recommendations, "") == Recommendations[0].mentors
  {
    assert forall j :: 0 <= j < |Recommendations| ==> Recommendations[j].role != "";
    ContainsEmpty(LowerStr(Recommendations[0].role));
    assert RelatedIgnoringCase("", Recommendations[0].role);
  }

  /** The platform names the suggestions use. */
  const SuggestedNames: seq<string> := ["ADPList", "LinkedIn", "MentorCruise", "SCORE", "Coding Coach"]

  /** Every suggested platform is one of the six platforms. */
  lemma SuggestedPlatformsExist()
    ensures forall i, m :: 0 <= i < |Recommendations| && m in Recommendations[i].mentors ==>
              exists p :: p in Platforms && p.name == m.platform
    ensures forall m :: m in GeneralMentors ==> exists p :: p in Platforms && p.name == m.platform
  {
    SuggestedNamesExist();
    forall i | 0 <= i < |Recommendations|
      ensures forall m :: m in Recommendations[i].mentors ==> m.platform in SuggestedNames
    {
      RoleUsesSuggestedNames(i);
    }
  }

  lemma SuggestedNamesExist()
    ensures forall n :: n in SuggestedNames ==> exists p :: p in Platforms && p.name == n
  {
  }

  lemma RoleUsesSuggestedNames(i: nat)
    requires i < |Recommendations|
    ensures forall m :: m in Recommendations[i].mentors ==> m.platform in SuggestedNames
  {
    var ms := Recommendations[i].mentors;
    if i == 0 { assert ms == DeveloperMentors; }
    else if i == 1 { assert ms == DataScientistMentors; }
    else if i == 2 { assert ms == DesignerMentors; }
    else if i == 3 { assert ms == ProductManagerMentors; }
    else if i == 4 { assert ms == MarketingMentors; }
    else { assert ms == SecurityMentors; }
    forall j | 0 <= j < |ms| ensures ms[j].platform in SuggestedNames {
    }
  }

  /** `getAllMentorshipPlatforms()`: the six platforms, numbered 1 to 6 in order. */
  function AllMentorshipPlatforms(): (r: seq<Platform>)
    ensures |r| == 6
    ensures forall i :: 0 <= i < |r| ==> r[i].id == i + 1
  {
    Platforms
  }

  /** `platforms.find(p => p.name === name)`. */
  function FindPlatform(platforms: seq<Platform>, name: string): (r: Option<Platform>)
    ensures r.Some? ==> r.value in platforms && r.value.name == name
    ensures r.None? <==> forall p :: p in platforms ==> p.name != name
    ensures r.Some? ==> exists i :: 0 <= i < |platforms| && platforms[i] == r.value
                                    && forall j :: 0 <= j < i ==> platforms[j].name != name
  {
    if platforms == [] then None
    else if platforms[0].name == name then Some(platforms[0])
    else FindPlatform(platforms[1..], name)
  }

  function InCategory(categoryLower: string): Platform -> bool {
    (p: Platform) => exists c | c in p.categories :: Contains(LowerStr(c), categoryLower)
  }

  /** The platforms with a category containing the given one, ignoring case. */
  function PlatformsByCategory(platforms: seq<Platform>, category: string): (r: seq<Platform>)
    ensures IsSubseq(r, platforms)
    ensures forall p :: p in r <==>
              p in platforms && exists c | c in p.categories :: Contains(LowerStr(c), LowerStr(category))
    ensures forall p :: multiset(r)[p] ==
              if exists c | c in p.categories :: Contains(LowerStr(c), LowerStr(category))
              then multiset(platforms)[p] else 0
  {
    FilterCounts(platforms, InCategory(LowerStr(category)));
    Filter(platforms, InCategory(LowerStr(category)))
  }

  /** The empty category selects every platform that has a category at all. */
  lemma EmptyCategorySelectsAll(platforms: seq<Platform>)
    requires forall p :: p in platforms ==> p.categories != []
    ensures PlatformsByCategory(platforms, "") == platforms
  {
    forall p | p in platforms ensures InCategory("")(p) {
      ContainsEmpty(LowerStr(p.categories[0]));
    }
    FilterAll(platforms, InCategory(""));
  }
}

=== FILE: notifications.dfy ===
/** The notifications page: the list held in page state, its filter tabs
    with their counts, and the read / delete actions. */
module NotificationsPage {

  import opened Seqs

  datatype Notification = Notification(id: int, kind: string, title: string, message: string, read: bool)

  /** The filter tabs of the page, in display order. */
  const FilterIds: seq<string> := ["all", "unread", "job_match", "mentor_response", "course_recommendation"]

  /** A notification is listed under a filter: every one under "all", the
      unread ones under "unread", and otherwise those whose type is the
      filter's id. */
  predicate Visible(filter: string, n: Notification) {
    if filter == "all" then true
    else if filter == "unread" then !n.read
    else n.kind == filter
  }

  function VisibleUnder(filter: string): Notification -> bool {
    (n: Notification) => Visible(filter, n)
  }

  /** `filteredNotifications`: the notifications the chosen tab lists, in order. */
  function FilteredNotifications(ns: seq<Notification>, filter: string): (r: seq<Notification>)
    ensures IsSubseq(r, ns)
    ensures forall n :: n in r <==> n in ns && Visible(filter, n)
    ensures filter == "all" ==> r == ns
    ensures forall n :: multiset(r)[n] == if Visible(filter, n) then multiset(ns)[n] else 0
  {
    var r := Filter(ns, VisibleUnder(filter));
    FilterCounts(ns, VisibleUnder(filter));
    assert filter == "all" ==> r == ns by {
      if filter == "all" {
        FilterAll(ns, VisibleUnder(filter));
      }
    }
    r
  }

  /** A tab of the filter bar and the number it shows. */
  datatype FilterTab = FilterTab(id: string, count: nat)

  /** The count each tab shows is the length of the list that tab shows. */
  function FilterTabs(ns: seq<Notification>): (r: seq<FilterTab>)
    ensures |r| == |FilterIds|
    ensures forall i :: 0 <= i < |r| ==>
      r[i].id == FilterIds[i] && r[i].count == |FilteredNotifications(ns, FilterIds[i])|
  {
    seq(|FilterIds|, i requires 0 <= i < |FilterIds| =>
      FilterTab(FilterIds[i], |Filter(ns, VisibleUnder(FilterIds[i]))|))
  }

  /** The number of unread notifications. */
  function UnreadCount(ns: seq<Notification>): (r: nat)
    ensures r <= |ns|
    ensures r == 0 <==> forall n :: n in ns ==> n.read
  {
    var u := FilteredNotifications(ns, "unread");
    SubseqLength(u, ns);
    assert u == [] <==> forall n :: n in ns ==> n.read by {
      if u != [] {
        assert u[0] in u;
      }
    }
    |u|
  }

  /** The "all" tab counts every notification. */
  lemma AllTabCountsEverything(ns: seq<Notification>)
    ensures FilterTabs(ns)[0].count == |ns|
    ensures FilterTabs(ns)[1].count == UnreadCount(ns)
  {
    assert FilterIds[0] == "all";
  }

  function MarkRead(id: int, n: Notification): Notification {
    if n.id == id then n.(read := true) else n
  }

  /** `markAsRead`: the notifications with that id are read; the others are unchanged. */
  function MarkAsRead(ns: seq<Notification>, id: int): (r: seq<Notification>)
    ensures |r| == |ns|
    ensures forall i :: 0 <= i < |r| ==> r[i].(read := ns[i].read) == ns[i]
    ensures forall i :: 0 <= i < |r| && ns[i].id == id ==> r[i].read
    ensures forall i :: 0 <= i < |r| && ns[i].id != id ==> r[i] == ns[i]
  {
    seq(|ns|, i requires 0 <= i < |ns| => MarkRead(id, ns[i]))
  }

  /** `markAllAsRead`: every notification read, nothing else changed. */
  function MarkAllAsRead(ns: seq<Notification>): (r: seq<Notification>)
    ensures |r| == |ns|
    ensures forall i :: 0 <= i < |r| ==> r[i] == ns[i].(read := true)
  {
    seq(|ns|, i requires 0 <= i < |ns| => ns[i].(read := true))
  }

  /** After marking all read nothing is unread; marking again changes
      nothing; and it is marking each id in turn. */
  lemma MarkAllAsReadLaws(ns: seq<Notification>)
    ensures UnreadCount(MarkAllAsRead(ns)) == 0
    ensures MarkAllAsRead(MarkAllAsRead(ns)) == MarkAllAsRead(ns)
    ensures forall id :: MarkAsRead(MarkAllAsRead(ns), id) == MarkAllAsRead(ns)
  {
    var r := MarkAllAsRead(ns);
    forall n | n in r ensures n.read {
      var i :| 0 <= i < |r| && r[i] == n;
    }
  }

  /** Marking one notification read lowers the unread count by the number
      of unread notifications carrying that id. */
  lemma MarkAsReadLowersUnread(ns: seq<Notification>, id: int)
    ensures UnreadCount(MarkAsRead(ns, id)) <= UnreadCount(ns)
    ensures (exists i :: 0 <= i < |ns| && ns[i].id == id && !ns[i].read) ==>
              UnreadCount(MarkAsRead(ns, id)) < UnreadCount(ns)
  {
    MarkAsReadUnread(ns, id);
    UnreadAgrees(ns);
    UnreadAgrees(MarkAsRead(ns, id));
  }

  /** The unread count, computed one notification at a time. */
  function Unread(ns: seq<Notification>): nat {
    if ns == [] then 0 else (if ns[0].read then 0 else 1) + Unread(ns[1..])
  }

  lemma {:induction false} UnreadAgrees(ns: seq<Notification>)
    ensures Unread(ns) == |Filter(ns, VisibleUnder("unread"))|
  {
    if ns != [] {
      UnreadAgrees(ns[1..]);
      FilterConcat([ns[0]], ns[1..], VisibleUnder("unread"));
      assert [ns[0]] + ns[1..] == ns;
    }
  }

  lemma {:induction false} MarkAsReadUnread(ns: seq<Notification>, id: int)
    ensures Unread(MarkAsRead(ns, id)) <= Unread(ns)
    ensures (exists i :: 0 <= i < |ns| && ns[i].id == id && !ns[i].read) ==>
              Unread(MarkAsRead(ns, id)) < Unread(ns)
  {
    if ns != [] {
      MarkAsReadUnread(ns[1..], id);
      assert MarkAsRead(ns, id)[1..] == MarkAsRead(ns[1..], id);
      if exists i :: 0 <= i < |ns| && ns[i].id == id && !ns[i].read {
        var i :| 0 <= i < |ns| && ns[i].id == id && !ns[i].read;
        if i > 0 {
          assert ns[1..][i - 1] == ns[i];
        }
      }
    }
  }

  function NotId(id: int): Notification -> bool {
    (n: Notification) => n.id != id
  }

  /** `deleteNotification`: the notifications with that id are gone; the
      others stay, in order. */
  function DeleteNotification(ns: seq<Notification>, id: int): (r: seq<Notification>)
    ensures IsSubseq(r, ns)
    ensures forall n :: n in r <==> n in ns && n.id != id
    ensures forall n: Notification :: n.id != id ==> multiset(r)[n] == multiset(ns)[n]
  {
    FilterCounts(ns, NotId(id));
    Filter(ns, NotId(id))
  }

  /** Deleting and marking read touch different notifications' fates: the
      order of the two actions does not matter. */
  lemma DeleteThenMarkCommute(ns: seq<Notification>, a: int, b: int)
    ensures DeleteNotification(MarkAsRead(ns, a), b) == MarkAsRead(DeleteNotification(ns, b), a)
  {
    FilterMarkCommute(ns, a, b);
  }

  lemma {:induction false} FilterMarkCommute(ns: seq<Notification>, a: int, b: int)
    ensures Filter(MarkAsRead(ns, a), NotId(b)) == MarkAsRead(Filter(ns, NotId(b)), a)
  {
    if ns != [] {
      var d := Filter(ns[1..], NotId(b));
      FilterMarkCommute(ns[1..], a, b);
      MarkAsReadCons(ns[0], ns[1..], a);
      assert [ns[0]] + ns[1..] == ns;
      if ns[0].id != b {
        MarkAsReadCons(ns[0], d, a);
      }
    }
  }

  lemma MarkAsReadCons(n: Notification, ns: seq<Notification>, a: int)
    ensures MarkAsRead([n] + ns, a) == [MarkRead(a, n)] + MarkAsRead(ns, a)
  {
    assert MarkAsRead([n] + ns, a)[1..] == MarkAsRead(ns, a);
  }
}

=== FILE: seqs.dfy ===
/** List operations the source builds from `Array.prototype` methods:
    `filter`, `slice(0, n)`, `flatMap`, de-duplication through
    `index === self.findIndex(...)` or `new Set`, and the stable `sort`. */
module Seqs {

  import opened Wrappers

  function Min(a: int, b: int): int {
    if a <= b then a else b
  }

  function Max(a: int, b: int): int {
    if a <= b then b else a
  }

  /** `a` is an order-preserving sub-list of `b`. */
  ghost predicate IsSubseq<T>(a: seq<T>, b: seq<T>)
    decreases |b|
  {
    |a| == 0 || (|b| > 0 && ((a[0] == b[0] && IsSubseq(a[1..], b[1..])) || IsSubseq(a, b[1..])))
  }

  lemma {:induction false} SubseqRefl<T>(s: seq<T>)
    ensures IsSubseq(s, s)
  {
    if |s| > 0 {
      SubseqRefl(s[1..]);
    }
  }

  lemma {:induction false} SubseqLength<T>(a: seq<T>, b: seq<T>)
    requires IsSubseq(a, b)
    ensures |a| <= |b|
    decreases |b|
  {
    if |a| > 0 {
      if a[0] == b[0] && IsSubseq(a[1..], b[1..]) {
        SubseqLength(a[1..], b[1..]);
      } else {
        SubseqLength(a, b[1..]);
      }
    }
  }

  /** Every element of a sub-list is an element of the whole. */
  lemma {:induction false} SubseqMembers<T>(a: seq<T>, b: seq<T>)
    requires IsSubseq(a, b)
    ensures forall x :: x in a ==> x in b
    decreases |b|
  {
    if |a| > 0 {
      if a[0] == b[0] && IsSubseq(a[1..], b[1..]) {
        SubseqMembers(a[1..], b[1..]);
        forall x | x in a ensures x in b {
          if x != a[0] {
            assert x in a[1..];
          }
        }
      } else {
        SubseqMembers(a, b[1..]);
      }
    }
  }

  lemma {:induction false} SubseqTrans<T>(a: seq<T>, b: seq<T>, c: seq<T>)
    requires IsSubseq(a, b) && IsSubseq(b, c)
    ensures IsSubseq(a, c)
    decreases |c|
  {
    if |a| > 0 {
      SubseqLength(a, b);
      if b[0] == c[0] && IsSubseq(b[1..], c[1..]) {
        if a[0] == b[0] && IsSubseq(a[1..], b[1..]) {
          SubseqTrans(a[1..], b[1..], c[1..]);
        } else {
          SubseqTrans(a, b[1..], c[1..]);
        }
      } else {
        SubseqTrans(a, b, c[1..]);
      }
    }
  }

  /** The empty list is a sub-list of any list. */
  lemma SubseqEmpty<T>(s: seq<T>)
    ensures IsSubseq([], s)
  {
  }

  /** Sub-lists of two lists concatenate to a sub-list of the concatenation. */
  lemma {:induction false} SubseqConcat<T>(a1: seq<T>, b1: seq<T>, a2: seq<T>, b2: seq<T>)
    requires IsSubseq(a1, b1) && IsSubseq(a2, b2)
    ensures IsSubseq(a1 + a2, b1 + b2)
    decreases |b1|
  {
    if |b1| == 0 {
      assert a1 == [];
      assert a1 + a2 == a2;
      assert b1 + b2 == b2;
    } else if |a1| == 0 {
      assert (b1 + b2)[1..] == b1[1..] + b2;
      SubseqConcat(a1, b1[1..], a2, b2);
      assert a1 + a2 == a2;
      if |a2| > 0 {
        assert IsSubseq(a2, (b1 + b2)[1..]);
      }
    } else {
      assert (b1 + b2)[1..] == b1[1..] + b2;
      assert (a1 + a2)[1..] == a1[1..] + a2;
      if a1[0] == b1[0] && IsSubseq(a1[1..], b1[1..]) {
        SubseqConcat(a1[1..], b1[1..], a2, b2);
      } else {
        SubseqConcat(a1, b1[1..], a2, b2);
      }
    }
  }

  /** A prefix is a sub-list. */
  lemma {:induction false} SubseqPrefix<T>(s: seq<T>, n: nat)
    requires n <= |s|
    ensures IsSubseq(s[..n], s)
  {
    if n > 0 {
      assert s[..n][1..] == s[1..][..n - 1];
      SubseqPrefix(s[1..], n - 1);
    }
  }

  /** `s.filter(p)`. */
  function Filter<T(!new)>(s: seq<T>, p: T -> bool): (r: seq<T>)
    ensures IsSubseq(r, s)
    ensures forall x :: x in r <==> x in s && p(x)
    ensures |r| <= |s|
  {
    if s == [] then []
    else
      var rest := Filter(s[1..], p);
      if p(s[0]) then [s[0]] + rest else rest
  }

  /** A filter keeps every copy of an element it accepts and none of one it rejects. */
  lemma {:induction false} FilterCounts<T(!new)>(s: seq<T>, p: T -> bool)
    ensures forall x :: multiset(Filter(s, p))[x] == if p(x) then multiset(s)[x] else 0
  {
    if s != [] {
      FilterCounts(s[1..], p);
      assert s == [s[0]] + s[1..];
    }
  }

  lemma {:induction false} FilterConcat<T(!new)>(a: seq<T>, b: seq<T>, p: T -> bool)
    ensures Filter(a + b, p) == Filter(a, p) + Filter(b, p)
  {
    if a == [] {
      assert a + b == b;
    } else {
      assert (a + b)[0] == a[0];
      assert (a + b)[1..] == a[1..] + b;
      FilterConcat(a[1..], b, p);
    }
  }

  /** A filter that keeps every element is the identity. */
  lemma {:induction false} FilterAll<T(!new)>(s: seq<T>, p: T -> bool)
    requires forall x :: x in s ==> p(x)
    ensures Filter(s, p) == s
  {
    if s != [] {
      FilterAll(s[1..], p);
    }
  }

  /** A filter that keeps no element gives the empty list. */
  lemma {:induction false} FilterNone<T(!new)>(s: seq<T>, p: T -> bool)
    requires forall x :: x in s ==> !p(x)
    ensures Filter(s, p) == []
  {
    if s != [] {
      FilterNone(s[1..], p);
    }
  }

  /** No element occurs twice. */
  ghost predicate Distinct<T>(s: seq<T>) {
    forall i, j :: 0 <= i < j < |s| ==> s[i] != s[j]
  }

  /** `if (!s.includes(x)) s = [...s, x]`: add `x` at the end unless present. */
  function AppendAbsent<T(==,!new)>(s: seq<T>, x: T): (r: seq<T>)
    ensures |s| <= |r| <= |s| + 1 && r[..|s|] == s
    ensures forall y :: y in r <==> y in s || y == x
    ensures Distinct(s) ==> Distinct(r)
  {
    if x in s then s else s + [x]
  }

  /** Adding an element already added changes nothing. */
  lemma AppendAbsentIdempotent<T(!new)>(s: seq<T>, x: T)
    ensures AppendAbsent(AppendAbsent(s, x), x) == AppendAbsent(s, x)
  {
  }

  function Differs<T(==)>(x: T): T -> bool {
    y => y != x
  }

  /** `s.filter(y => y !== x)`: every occurrence of `x` removed. */
  function Without<T(==,!new)>(s: seq<T>, x: T): (r: seq<T>)
    ensures IsSubseq(r, s)
    ensures x !in r
    ensures forall y :: y != x ==> (y in r <==> y in s)
    ensures forall y :: y != x ==> multiset(r)[y] == multiset(s)[y]
    ensures x !in s ==> r == s
  {
    var r := Filter(s, Differs(x));
    FilterCounts(s, Differs(x));
    assert x !in s ==> r == s by {
      if x !in s {
        FilterAll(s, Differs(x));
      }
    }
    r
  }

  /** A sub-list of a list without repeats has none either. */
  lemma {:induction false} SubseqDistinct<T>(a: seq<T>, b: seq<T>)
    requires IsSubseq(a, b) && Distinct(b)
    ensures Distinct(a)
    decreases |b|
  {
    if |a| > 0 {
      if a[0] == b[0] && IsSubseq(a[1..], b[1..]) {
        SubseqDistinct(a[1..], b[1..]);
        SubseqMembers(a[1..], b[1..]);
        forall i, j | 0 <= i < j < |a| ensures a[i] != a[j] {
          if i == 0 {
            assert a[j] == a[1..][j - 1];
            assert a[j] in b[1..];
            var k :| 0 <= k < |b[1..]| && b[1..][k] == a[j];
            assert b[k + 1] == a[j];
          } else {
            assert a[i] == a[1..][i - 1] && a[j] == a[1..][j - 1];
          }
        }
      } else {
        assert Distinct(b[1..]) by {
          forall i, j | 0 <= i < j < |b[1..]| ensures b[1..][i] != b[1..][j] {
            assert b[i + 1] != b[j + 1];
          }
        }
        SubseqDistinct(a, b[1..]);
      }
    }
  }

  /** Removal keeps a list free of repeats. */
  lemma WithoutDistinct<T(!new)>(s: seq<T>, x: T)
    requires Distinct(s)
    ensures Distinct(Without(s, x))
  {
    SubseqDistinct(Without(s, x), s);
  }

  /** Removing after adding is the same as just removing. */
  lemma WithoutAppendAbsent<T(!new)>(s: seq<T>, x: T)
    ensures Without(AppendAbsent(s, x), x) == Without(s, x)
  {
    if x !in s {
      FilterConcat(s, [x], Differs(x));
      assert Filter([x], Differs(x)) == [];
    }
  }

  /** `s.slice(0, n)` for a non-negative `n`. */
  function Take<T>(s: seq<T>, n: nat): (r: seq<T>)
    ensures |r| == Min(n, |s|)
    ensures r == s[..|r|]
  {
    if n < |s| then s[..n] else s
  }

  lemma TakeSubseq<T>(s: seq<T>, n: nat)
    ensures IsSubseq(Take(s, n), s)
  {
    SubseqPrefix(s, |Take(s, n)|);
  }

  /** `ss.flat()` / the concatenation a `forEach(... push(...))` builds. */
  function Flatten<T>(ss: seq<seq<T>>): seq<T>
  {
    if ss == [] then [] else ss[0] + Flatten(ss[1..])
  }

  lemma {:induction false} FlattenConcat<T>(a: seq<seq<T>>, b: seq<seq<T>>)
    ensures Flatten(a + b) == Flatten(a) + Flatten(b)
  {
    if a == [] {
      assert a + b == b;
    } else {
      assert (a + b)[0] == a[0];
      assert (a + b)[1..] == a[1..] + b;
      FlattenConcat(a[1..], b);
    }
  }

  /** `s.findIndex(p)`, with None for -1. */
  function FindIndex<T>(s: seq<T>, p: T -> bool): (r: Option<nat>)
    ensures r.Some? ==> r.value < |s| && p(s[r.value]) && forall j :: 0 <= j < r.value ==> !p(s[j])
    ensures r.None? ==> forall j :: 0 <= j < |s| ==> !p(s[j])
  {
    if s == [] then None
    else if p(s[0]) then Some(0)
    else match FindIndex(s[1..], p)
      case None => None
      case Some(i) => Some(i + 1)
  }

  /** Some element of `s` has key `k`. */
  predicate HasKey<T, K(==)>(s: seq<T>, key: T -> K, k: K) {
    exists i | 0 <= i < |s| :: key(s[i]) == k
  }

  /** No two elements of `s` share a key. */
  ghost predicate DistinctBy<T, K>(s: seq<T>, key: T -> K) {
    forall i, j :: 0 <= i < j < |s| ==> key(s[i]) != key(s[j])
  }

  /** A sub-list of a list without repeated keys has none either. */
  lemma {:induction false} SubseqDistinctBy<T, K>(a: seq<T>, b: seq<T>, key: T -> K)
    requires IsSubseq(a, b) && DistinctBy(b, key)
    ensures DistinctBy(a, key)
    decreases |b|
  {
    if |a| > 0 {
      if a[0] == b[0] && IsSubseq(a[1..], b[1..]) {
        SubseqDistinctBy(a[1..], b[1..], key);
        SubseqMembers(a[1..], b[1..]);
        forall i, j | 0 <= i < j < |a| ensures key(a[i]) != key(a[j]) {
          assert a[j] == a[1..][j - 1];
          if i == 0 {
            assert a[j] in b[1..];
            var k :| 0 <= k < |b[1..]| && b[1..][k] == a[j];
            assert b[k + 1] == a[j];
          } else {
            assert a[i] == a[1..][i - 1];
          }
        }
      } else {
        assert DistinctBy(b[1..], key) by {
          forall i, j | 0 <= i < j < |b[1..]| ensures key(b[1..][i]) != key(b[1..][j]) {
            assert key(b[i + 1]) != key(b[j + 1]);
          }
        }
        SubseqDistinctBy(a, b[1..], key);
      }
    }
  }

  /** A list has no repeats exactly when no element occurs in it more than once. */
  lemma {:induction false} DistinctCounts<T>(s: seq<T>)
    ensures Distinct(s) <==> forall x :: multiset(s)[x] <= 1
  {
    if s != [] {
      var t := s[1..];
      assert s == [s[0]] + t;
      DistinctCounts(t);
      assert Distinct(s) <==> Distinct(t) && s[0] !in t by {
        if Distinct(s) {
          forall i, j | 0 <= i < j < |t| ensures t[i] != t[j] {
            assert t[i] == s[i + 1] && t[j] == s[j + 1];
          }
          forall k | 0 <= k < |t| ensures t[k] != s[0] {
            assert t[k] == s[k + 1];
          }
        }
        if Distinct(t) && s[0] !in t {
          forall i, j | 0 <= i < j < |s| ensures s[i] != s[j] {
            assert s[j] == t[j - 1];
            if i > 0 {
              assert s[i] == t[i - 1];
            }
          }
        }
      }
      if forall x :: multiset(s)[x] <= 1 {
        assert multiset(s)[s[0]] == multiset(t)[s[0]] + 1;
        forall x ensures multiset(t)[x] <= 1 {
          assert multiset(s)[x] >= multiset(t)[x];
        }
      }
    }
  }

  /** Reordering a list keeps its keys distinct. */
  lemma PermutationDistinctBy<T, K>(a: seq<T>, b: seq<T>, key: T -> K)
    requires multiset(a) == multiset(b) && DistinctBy(b, key)
    ensures DistinctBy(a, key)
  {
    DistinctCounts(b);
    DistinctCounts(a);
    forall i, j | 0 <= i < j < |a| ensures key(a[i]) != key(a[j]) {
      assert a[i] in multiset(b) && a[j] in multiset(b);
      var p :| 0 <= p < |b| && b[p] == a[i];
      var q :| 0 <= q < |b| && b[q] == a[j];
      assert p != q;
    }
  }

  /** `x` is at an index of `s` where its key appears for the first time:
      exactly the elements `filter((e, i, self) => i === self.findIndex(...))` keeps. */
  ghost predicate FirstWithKey<T, K>(s: seq<T>, key: T -> K, x: T) {
    exists i :: 0 <= i < |s| && s[i] == x && !HasKey(s[..i], key, key(x))
  }

  /** De-duplication by key keeping the first occurrence, written as the source
      writes it: the element at each index survives iff no earlier element has its key. */
  function KeepFirstBy<T, K(==,!new)>(s: seq<T>, key: T -> K): (r: seq<T>)
    ensures IsSubseq(r, s)
    ensures DistinctBy(r, key)
    ensures forall k :: HasKey(r, key, k) <==> HasKey(s, key, k)
    ensures forall x :: x in r ==> FirstWithKey(s, key, x)
    ensures InFirstOrder(r, s, key)
  {
    if s == [] then []
    else
      var init := s[..|s| - 1];
      var last := s[|s| - 1];
      var kept := KeepFirstBy(init, key);
      KeepFirstStep(init, last, key, kept);
      assert s == init + [last];
      kept + (if HasKey(init, key, key(last)) then [] else [last])
  }

  /** One step of `KeepFirstBy`: appending one element to the input. */
  lemma KeepFirstStep<T, K(!new)>(init: seq<T>, last: T, key: T -> K, kept: seq<T>)
    requires IsSubseq(kept, init)
    requires DistinctBy(kept, key)
    requires forall k :: HasKey(kept, key, k) <==> HasKey(init, key, k)
    requires forall x :: x in kept ==> FirstWithKey(init, key, x)
    requires InFirstOrder(kept, init, key)
    ensures var s := init + [last];
            var r := kept + (if HasKey(init, key, key(last)) then [] else [last]);
            && IsSubseq(r, s)
            && DistinctBy(r, key)
            && (forall k :: HasKey(r, key, k) <==> HasKey(s, key, k))
            && (forall x :: x in r ==> FirstWithKey(s, key, x))
            && InFirstOrder(r, s, key)
  {
    var s := init + [last];
    var add := if HasKey(init, key, key(last)) then [] else [last];
    var r := kept + add;
    if add == [] {
      SubseqConcat(kept, init, [], [last]);
      assert r == kept + [];
    } else {
      SubseqRefl([last]);
      SubseqConcat(kept, init, [last], [last]);
    }
    forall k ensures HasKey(r, key, k) <==> HasKey(s, key, k) {
      if HasKey(s, key, k) {
        var i :| 0 <= i < |s| && key(s[i]) == k;
        if i < |init| {
          assert key(init[i]) == k;
          assert HasKey(init, key, k);
          var j :| 0 <= j < |kept| && key(kept[j]) == k;
          assert key(r[j]) == k;
        } else if add == [] {
          var j :| 0 <= j < |kept| && key(kept[j]) == k;
          assert key(r[j]) == k;
        } else {
          assert key(r[|r| - 1]) == k;
        }
      }
      if HasKey(r, key, k) {
        var i :| 0 <= i < |r| && key(r[i]) == k;
        if i < |kept| {
          assert key(kept[i]) == k;
          assert HasKey(kept, key, k);
          var j :| 0 <= j < |init| && key(init[j]) == k;
          assert key(s[j]) == k;
        } else {
          assert key(s[|s| - 1]) == k;
        }
      }
    }
    forall i, j | 0 <= i < j < |r| ensures key(r[i]) != key(r[j]) {
      if j == |kept| {
        assert !HasKey(kept, key, key(last));
        assert r[i] == kept[i] && r[j] == last;
      }
    }
    forall x | x in r ensures FirstWithKey(s, key, x) {
      if x in kept {
        var i :| 0 <= i < |init| && init[i] == x && !HasKey(init[..i], key, key(x));
        assert s[i] == x && s[..i] == init[..i];
      } else {
        assert x == last;
        assert s[|init|] == x && s[..|init|] == init;
      }
    }
    KeepFirstStepOrder(init, last, key, kept);
  }

  /** The order half of `KeepFirstStep`. */
  lemma KeepFirstStepOrder<T, K(!new)>(init: seq<T>, last: T, key: T -> K, kept: seq<T>)
    requires IsSubseq(kept, init)
    requires InFirstOrder(kept, init, key)
    ensures var s := init + [last];
            InFirstOrder(kept + (if HasKey(init, key, key(last)) then [] else [last]), s, key)
  {
    var s := init + [last];
    var r := kept + (if HasKey(init, key, key(last)) then [] else [last]);
    SubseqMembers(kept, init);
    forall n, i, j | 0 <= n <= |s| && 0 <= i < j < |r| && HasKey(s[..n], key, key(r[j]))
      ensures HasKey(s[..n], key, key(r[i]))
    {
      if n == |s| {
        assert r[i] == kept[i] && kept[i] in init;
        var q :| 0 <= q < |init| && init[q] == kept[i];
        assert s[..n][q] == r[i];
      } else {
        assert s[..n] == init[..n];
        if j < |kept| {
          assert r[j] == kept[j] && r[i] == kept[i];
        } else {
          assert false;
        }
      }
    }
  }

  /** Re-applying the de-duplication changes nothing. */
  lemma KeepFirstDistinct<T, K(!new)>(s: seq<T>, key: T -> K)
    requires DistinctBy(s, key)
    ensures KeepFirstBy(s, key) == s
  {
    if s != [] {
      var init := s[..|s| - 1];
      KeepFirstDistinct(init, key);
      forall i | 0 <= i < |init|
        ensures key(init[i]) != key(s[|s| - 1])
      {
        assert init[i] == s[i];
      }
      assert !HasKey(init, key, key(s[|s| - 1]));
      assert init + [s[|s| - 1]] == s;
    }
  }

  /** Elements whose keys already occurred earlier add nothing:
      de-duplicating `a + b` gives the same as `a` when `b` only repeats keys of `a`. */
  lemma {:induction false} KeepFirstRepeats<T, K(!new)>(a: seq<T>, b: seq<T>, key: T -> K)
    requires forall x :: x in b ==> HasKey(a, key, key(x))
    ensures KeepFirstBy(a + b, key) == KeepFirstBy(a, key)
    decreases |b|
  {
    if b == [] {
      assert a + b == a;
    } else {
      var init := b[..|b| - 1];
      assert (a + b)[..|a + b| - 1] == a + init;
      KeepFirstRepeats(a, init, key);
      var i :| 0 <= i < |a| && key(a[i]) == key(b[|b| - 1]);
      assert key((a + init)[i]) == key(b[|b| - 1]);
    }
  }

  /** Appending elements never disturbs what the de-duplication of the
      front part kept: it stays a prefix of the result. */
  lemma {:induction false} KeepFirstPrefix<T, K(!new)>(a: seq<T>, b: seq<T>, key: T -> K)
    ensures var front := KeepFirstBy(a, key);
            |front| <= |KeepFirstBy(a + b, key)| && KeepFirstBy(a + b, key)[..|front|] == front
    decreases |b|
  {
    if b == [] {
      assert a + b == a;
    } else {
      var init := b[..|b| - 1];
      assert (a + b)[..|a + b| - 1] == a + init;
      KeepFirstPrefix(a, init, key);
    }
  }

  /** The keys of `r` come in the order in which they first occur in `s`:
      a prefix of `s` that holds the key of one element of `r` holds the
      keys of all earlier elements. */
  ghost predicate InFirstOrder<T, K>(r: seq<T>, s: seq<T>, key: T -> K) {
    forall n, i, j :: 0 <= n <= |s| && 0 <= i < j < |r| && HasKey(s[..n], key, key(r[j])) ==> HasKey(s[..n], key, key(r[i]))
  }

  /** Nothing is skipped ahead of a kept key: every key occurring in `s`
      before the first occurrence of a key of `r` is a key of `r` too. */
  ghost predicate EarlierKeysKept<T, K>(r: seq<T>, s: seq<T>, key: T -> K) {
    forall n, j :: 0 <= n <= |s| && 0 <= j < |r| && !HasKey(s[..n], key, key(r[j])) ==>
      forall k :: 0 <= k < n ==> HasKey(r, key, key(s[k]))
  }

  /** The de-duplication of a prefix of `s` is a prefix of the de-duplication
      of `s`, and it holds exactly the kept elements whose key occurs in that
      prefix of `s`. */
  lemma KeptPrefix<T, K(!new)>(s: seq<T>, key: T -> K, n: nat)
    requires n <= |s|
    ensures var r := KeepFirstBy(s, key);
            var front := KeepFirstBy(s[..n], key);
      && |front| <= |r| && r[..|front|] == front
      && forall j :: 0 <= j < |r| ==> (HasKey(s[..n], key, key(r[j])) <==> j < |front|)
  {
    var r := KeepFirstBy(s, key);
    var front := KeepFirstBy(s[..n], key);
    assert s[..n] + s[n..] == s;
    KeepFirstPrefix(s[..n], s[n..], key);
    forall j | 0 <= j < |r| ensures HasKey(s[..n], key, key(r[j])) <==> j < |front| {
      if j < |front| {
        assert key(front[j]) == key(r[j]);
        assert HasKey(front, key, key(r[j]));
      }
      if HasKey(s[..n], key, key(r[j])) {
        var q :| 0 <= q < |front| && key(front[q]) == key(r[j]);
        assert key(r[q]) == key(r[j]);
      }
    }
  }

  /** `dedup(s).slice(0, m)` keeps keys in first-occurrence order and skips
      no key that first occurs before a kept one. */
  /** A prefix no longer than the cut survives the cut. */
  lemma TakeKeepsPrefix<T>(s: seq<T>, p: seq<T>, n: nat)
    requires |p| <= n && |p| <= |s| && s[..|p|] == p
    ensures |p| <= |Take(s, n)| && Take(s, n)[..|p|] == p
  {
    var t := Take(s, n);
    assert t[..|p|] == s[..|p|];
  }

  /** Cutting the de-duplicated list to `m` drops a key only when `m` entries remain. */
  lemma TakeKeepFirstComplete<T, K(!new)>(s: seq<T>, key: T -> K, m: nat)
    ensures var r := Take(KeepFirstBy(s, key), m);
      forall x :: x in s ==> HasKey(r, key, key(x)) || |r| == m
  {
    var kept := KeepFirstBy(s, key);
    var r := Take(kept, m);
    forall x | x in s ensures HasKey(r, key, key(x)) || |r| == m {
      var i :| 0 <= i < |s| && s[i] == x;
      assert HasKey(s, key, key(x));
      if |kept| <= m {
        assert r == kept;
      }
    }
  }

  lemma TakeKeepFirst<T, K(!new)>(s: seq<T>, key: T -> K, m: nat)
    ensures InFirstOrder(Take(KeepFirstBy(s, key), m), s, key)
    ensures EarlierKeysKept(Take(KeepFirstBy(s, key), m), s, key)
  {
    var r := KeepFirstBy(s, key);
    var t := Take(r, m);
    forall n, i, j | 0 <= n <= |s| && 0 <= i < j < |t| && HasKey(s[..n], key, key(t[j]))
      ensures HasKey(s[..n], key, key(t[i]))
    {
      KeptPrefix(s, key, n);
      assert t[j] == r[j] && t[i] == r[i];
    }
    forall n, j | 0 <= n <= |s| && 0 <= j < |t| && !HasKey(s[..n], key, key(t[j]))
      ensures forall k :: 0 <= k < n ==> HasKey(t, key, key(s[k]))
    {
      KeptPrefix(s, key, n);
      var front := KeepFirstBy(s[..n], key);
      assert t[j] == r[j];
      forall k | 0 <= k < n ensures HasKey(t, key, key(s[k])) {
        assert key(s[..n][k]) == key(s[k]);
        assert HasKey(s[..n], key, key(s[k]));
        var q :| 0 <= q < |front| && key(front[q]) == key(s[k]);
        assert t[q] == r[q];
      }
    }
  }

  /** `s.filter(p).slice(0, m)` on a list without repeats skips nothing:
      a passing element before a kept one is kept. */
  lemma {:induction false} TakeFilterClosed<T(!new)>(s: seq<T>, p: T -> bool, m: nat)
    requires Distinct(s)
    ensures var r := Take(Filter(s, p), m);
      forall i, j :: 0 <= i < j < |s| && s[j] in r && p(s[i]) ==> s[i] in r
  {
    if s != [] {
      var rest := Filter(s[1..], p);
      var r := Take(Filter(s, p), m);
      assert Distinct(s[1..]) by {
        forall i, j | 0 <= i < j < |s[1..]| ensures s[1..][i] != s[1..][j] {
          assert s[1..][i] == s[i + 1] && s[1..][j] == s[j + 1];
        }
      }
      forall i, j | 0 <= i < j < |s| && s[j] in r && p(s[i]) ensures s[i] in r {
        if p(s[0]) && m > 0 {
          TakeFilterClosed(s[1..], p, m - 1);
          assert r == [s[0]] + Take(rest, m - 1);
          if i > 0 {
            assert s[j] != s[0];
            assert s[1..][j - 1] == s[j] && s[1..][i - 1] == s[i];
          }
        } else if p(s[0]) {
          assert false;
        } else {
          TakeFilterClosed(s[1..], p, m);
          assert r == Take(rest, m);
          assert s[1..][j - 1] == s[j] && s[1..][i - 1] == s[i];
        }
      }
    }
  }

  /** Elements of `s` with key value exactly `v`, in order. */
  function WithKey<T>(s: seq<T>, key: T -> real, v: real): seq<T>
  {
    if s == [] then []
    else (if key(s[0]) == v then [s[0]] else []) + WithKey(s[1..], key, v)
  }

  lemma {:induction false} WithKeyConcat<T>(a: seq<T>, b: seq<T>, key: T -> real, v: real)
    ensures WithKey(a + b, key, v) == WithKey(a, key, v) + WithKey(b, key, v)
  {
    if a == [] {
      assert a + b == b;
    } else {
      var head := if key(a[0]) == v then [a[0]] else [];
      assert (a + b)[0] == a[0];
      assert (a + b)[1..] == a[1..] + b;
      WithKeyConcat(a[1..], b, key, v);
      calc {
        WithKey(a + b, key, v);
        head + WithKey(a[1..] + b, key, v);
        head + (WithKey(a[1..], key, v) + WithKey(b, key, v));
        (head + WithKey(a[1..], key, v)) + WithKey(b, key, v);
      }
    }
  }

  lemma {:induction false} WithKeyAbove<T>(s: seq<T>, key: T -> real, v: real)
    requires forall i :: 0 <= i < |s| ==> key(s[i]) < v
    ensures WithKey(s, key, v) == []
  {
    if s != [] {
      WithKeyAbove(s[1..], key, v);
    }
  }

  /** Keys never increase from left to right. */
  ghost predicate SortedDesc<T>(s: seq<T>, key: T -> real) {
    forall i, j :: 0 <= i < j < |s| ==> key(s[i]) >= key(s[j])
  }

  /** Insert `x` after every element whose key is at least its own. */
  function InsertDesc<T>(x: T, s: seq<T>, key: T -> real): seq<T>
  {
    if s == [] then [x]
    else if key(s[0]) >= key(x) then [s[0]] + InsertDesc(x, s[1..], key)
    else [x] + s
  }

  lemma {:induction false} InsertDescMultiset<T>(x: T, s: seq<T>, key: T -> real)
    ensures multiset(InsertDesc(x, s, key)) == multiset(s) + multiset{x}
  {
    if s != [] && key(s[0]) >= key(x) {
      InsertDescMultiset(x, s[1..], key);
      assert s == [s[0]] + s[1..];
    }
  }

  lemma {:induction false} InsertDescSorted<T>(x: T, s: seq<T>, key: T -> real)
    requires SortedDesc(s, key)
    ensures SortedDesc(InsertDesc(x, s, key), key)
  {
    if s != [] && key(s[0]) >= key(x) {
      var rest := InsertDesc(x, s[1..], key);
      InsertDescSorted(x, s[1..], key);
      InsertDescMultiset(x, s[1..], key);
      forall j | 0 <= j < |rest| ensures key(s[0]) >= key(rest[j]) {
        assert rest[j] in multiset(rest);
        assert rest[j] in s[1..] || rest[j] == x;
      }
    }
  }

  lemma {:induction false} InsertDescWithKey<T>(x: T, s: seq<T>, key: T -> real, v: real)
    requires SortedDesc(s, key)
    ensures WithKey(InsertDesc(x, s, key), key, v) == WithKey(s, key, v) + (if key(x) == v then [x] else [])
  {
    var tail := if key(x) == v then [x] else [];
    if s == [] {
      assert WithKey([x], key, v) == tail + WithKey([], key, v);
    } else if key(s[0]) >= key(x) {
      var rest := InsertDesc(x, s[1..], key);
      assert SortedDesc(s[1..], key) by {
        forall i, j | 0 <= i < j < |s[1..]| ensures key(s[1..][i]) >= key(s[1..][j]) {
          assert s[1..][i] == s[i + 1] && s[1..][j] == s[j + 1];
        }
      }
      InsertDescWithKey(x, s[1..], key, v);
      var head := if key(s[0]) == v then [s[0]] else [];
      assert ([s[0]] + rest)[0] == s[0];
      assert ([s[0]] + rest)[1..] == rest;
      assert WithKey([s[0]] + rest, key, v) == head + WithKey(rest, key, v);
      assert WithKey(s, key, v) == head + WithKey(s[1..], key, v);
      assert head + (WithKey(s[1..], key, v) + tail) == (head + WithKey(s[1..], key, v)) + tail;
    } else {
      InsertFrontWithKey(x, s, key, v);
    }
  }

  /** The case of the insertion where `x` goes in front. */
  lemma InsertFrontWithKey<T>(x: T, s: seq<T>, key: T -> real, v: real)
    requires SortedDesc(s, key) && s != [] && key(s[0]) < key(x)
    ensures WithKey([x] + s, key, v) == WithKey(s, key, v) + (if key(x) == v then [x] else [])
  {
    assert ([x] + s)[0] == x;
    assert ([x] + s)[1..] == s;
    if key(x) == v {
      forall i | 0 <= i < |s| ensures key(s[i]) < v {
        assert key(s[0]) >= key(s[i]);
      }
      WithKeyAbove(s, key, v);
    }
  }

  /** The stable descending sort JavaScript's `sort((a, b) => key(b) - key(a))` performs:
      a permutation, ordered by key, that keeps equal-key elements in input order. */
  function SortDesc<T>(s: seq<T>, key: T -> real): (r: seq<T>)
    ensures multiset(r) == multiset(s)
    ensures |r| == |s|
    ensures SortedDesc(r, key)
    ensures forall v :: WithKey(r, key, v) == WithKey(s, key, v)
  {
    if s == [] then []
    else
      var init := s[..|s| - 1];
      var last := s[|s| - 1];
      var sortedInit := SortDesc(init, key);
      var r := InsertDesc(last, sortedInit, key);
      SortDescStep(init, last, key, sortedInit, r);
      assert s == init + [last];
      r
  }

  /** The step of the sort: inserting the last element into the sorted
      front sorts the whole list. */
  lemma SortDescStep<T>(init: seq<T>, last: T, key: T -> real, sortedInit: seq<T>, r: seq<T>)
    requires multiset(sortedInit) == multiset(init) && SortedDesc(sortedInit, key)
    requires forall v :: WithKey(sortedInit, key, v) == WithKey(init, key, v)
    requires r == InsertDesc(last, sortedInit, key)
    ensures multiset(r) == multiset(init + [last]) && |r| == |init| + 1 && SortedDesc(r, key)
    ensures forall v :: WithKey(r, key, v) == WithKey(init + [last], key, v)
  {
    InsertDescMultiset(last, sortedInit, key);
    InsertDescSorted(last, sortedInit, key);
    forall v ensures WithKey(r, key, v) == WithKey(init + [last], key, v) {
      InsertDescWithKey(last, sortedInit, key, v);
      WithKeyConcat(init, [last], key, v);
    }
    assert |r| == |multiset(r)|;
    assert |init + [last]| == |multiset(init + [last])|;
  }

  /** Truncating a descending list keeps the largest keys: an element of the
      input left out of the first `n` has no larger key than any kept one. */
  lemma TopOfSorted<T>(s: seq<T>, key: T -> real, n: nat)
    ensures var top := Take(SortDesc(s, key), n);
            forall x, y :: x in s && x !in top && y in top ==> key(y) >= key(x)
  {
    var sorted := SortDesc(s, key);
    var top := Take(sorted, n);
    forall x, y | x in s && x !in top && y in top ensures key(y) >= key(x) {
      assert multiset(sorted)[x] == multiset(s)[x] > 0;
      var i :| 0 <= i < |sorted| && sorted[i] == x;
      var j :| 0 <= j < |top| && top[j] == y;
      assert forall k :: 0 <= k < |top| ==> sorted[k] == top[k] != x;
      assert j < |top| <= i;
    }
  }
}

=== FILE: text.dfy ===
/** String helpers with the JavaScript semantics the career engine relies on:
    `toLowerCase` (restricted to ASCII), `includes`, `join`, `split` with a
    one-character separator, `trim`, and the RegExp classes `\d` and `\s`. */
module Text {

  import opened Wrappers
  import opened Seqs

  /** ASCII lower-casing of one character; every other character is unchanged. */
  function Lower(c: char): char {
    if 'A' <= c <= 'Z' then (c as int + 32) as char else c
  }

  /** `String.prototype.toLowerCase`, restricted to ASCII letters. */
  function LowerStr(s: string): (r: string)
    ensures |r| == |s|
    ensures forall i :: 0 <= i < |s| ==> r[i] == Lower(s[i])
  {
    seq(|s|, i requires 0 <= i < |s| => Lower(s[i]))
  }

  /** `strings.map(s => s.toLowerCase())`. */
  function LowerAll(strings: seq<string>): (r: seq<string>)
    ensures |r| == |strings|
    ensures forall i :: 0 <= i < |strings| ==> r[i] == LowerStr(strings[i])
  {
    seq(|strings|, i requires 0 <= i < |strings| => LowerStr(strings[i]))
  }

  /** Lower-casing distributes over concatenation. */
  lemma LowerStrConcat(a: string, b: string)
    ensures LowerStr(a + b) == LowerStr(a) + LowerStr(b)
  {
  }

  /** Lower-casing twice is lower-casing once. */
  lemma LowerStrIdempotent(s: string)
    ensures LowerStr(LowerStr(s)) == LowerStr(s)
  {
  }

  /** `sub` occurs in `s` starting at index `i`. */
  predicate OccursAt(s: string, sub: string, i: int) {
    0 <= i && i + |sub| <= |s| && s[i..i + |sub|] == sub
  }

  /** `s.includes(sub)`: plain substring containment, no word boundaries. */
  predicate Contains(s: string, sub: string) {
    exists i | 0 <= i <= |s| - |sub| :: OccursAt(s, sub, i)
  }

  /** Either string contains the other: the symmetric matching rule the
      engine uses between user skills and listing skills. */
  predicate Related(a: string, b: string) {
    Contains(a, b) || Contains(b, a)
  }

  /** `Related` after lower-casing both sides. */
  predicate RelatedIgnoringCase(a: string, b: string) {
    Related(LowerStr(a), LowerStr(b))
  }

  /** Some element of `words` occurs in `s`. */
  predicate ContainsAny(s: string, words: seq<string>) {
    exists w | w in words :: Contains(s, w)
  }

  /** `vocab.filter(w => text.includes(w))`: the words of a vocabulary that
      occur in a text, in vocabulary order. */
  function KeywordsIn(text: string, vocab: seq<string>): (r: seq<string>)
    ensures IsSubseq(r, vocab)
    ensures forall w :: w in r <==> w in vocab && Contains(text, w)
  {
    Filter(vocab, w => Contains(text, w))
  }

  /** A vocabulary word inside a reported word is reported too. */
  lemma KeywordsInClosed(text: string, vocab: seq<string>, a: string, b: string)
    requires a in KeywordsIn(text, vocab) && b in vocab && Contains(a, b)
    ensures b in KeywordsIn(text, vocab)
  {
    ContainsTransitive(text, a, b);
  }

  /** A text containing none of the words yields no keywords. */
  lemma KeywordsInNone(text: string, vocab: seq<string>)
    requires forall w :: w in vocab ==> !Contains(text, w)
    ensures KeywordsIn(text, vocab) == []
  {
    FilterNone(vocab, w => Contains(text, w));
  }

  /** The empty text contains no non-empty word. */
  lemma EmptyContainsNothing(text: string, w: string)
    requires |text| == 0 && |w| > 0
    ensures !Contains(text, w)
  {
  }

  lemma ContainsEmpty(s: string)
    ensures Contains(s, "")
  {
    assert OccursAt(s, "", 0);
  }

  lemma ContainsSelf(s: string)
    ensures Contains(s, s)
  {
    assert OccursAt(s, s, 0);
  }

  /** Every character of a contained string is a character of the container;
      the contrapositive is how absence of a word is shown. */
  lemma ContainsChar(s: string, sub: string, c: char)
    requires Contains(s, sub) && c in sub
    ensures c in s
  {
    var i :| 0 <= i <= |s| - |sub| && OccursAt(s, sub, i);
    var k :| 0 <= k < |sub| && sub[k] == c;
    assert s[i..i + |sub|][k] == s[i + k];
  }

  /** A word missing one of its own characters from `s` is not in `s`. */
  lemma NotContainsByChar(s: string, sub: string, c: char)
    requires c in sub && c !in s
    ensures !Contains(s, sub)
  {
    if Contains(s, sub) {
      ContainsChar(s, sub, c);
    }
  }

  /** None of `words` is in `s`, each shown by one of its characters
      (`witnesses[i]` for `words[i]`) that `s` lacks. */
  lemma NotContainsAnyByChars(s: string, words: seq<string>, witnesses: string)
    requires |witnesses| == |words|
    requires forall i :: 0 <= i < |words| ==> witnesses[i] in words[i] && witnesses[i] !in s
    ensures !ContainsAny(s, words)
  {
    forall w | w in words
      ensures !Contains(s, w)
    {
      var i :| 0 <= i < |words| && words[i] == w;
      NotContainsByChar(s, w, witnesses[i]);
    }
  }

  /** A one-letter string is contained exactly where its letter occurs. */
  lemma ContainsSingleton(s: string, c: char)
    ensures Contains(s, [c]) <==> c in s
  {
    if c in s {
      var i :| 0 <= i < |s| && s[i] == c;
      assert OccursAt(s, [c], i);
    }
    if Contains(s, [c]) {
      ContainsChar(s, [c], c);
    }
  }

  /** Containment is transitive. */
  lemma ContainsTransitive(a: string, b: string, c: string)
    requires Contains(a, b) && Contains(b, c)
    ensures Contains(a, c)
  {
    var i :| 0 <= i <= |a| - |b| && OccursAt(a, b, i);
    var j :| 0 <= j <= |b| - |c| && OccursAt(b, c, j);
    forall k | 0 <= k < |c|
      ensures a[i + j + k] == c[k]
    {
      assert b[j..j + |c|][k] == c[k];
      assert a[i..i + |b|][j + k] == b[j + k];
    }
    assert a[i + j..i + j + |c|] == c;
    assert OccursAt(a, c, i + j);
  }

  /** Containment survives text added on either side. */
  lemma ContainsInContext(pre: string, s: string, post: string, sub: string)
    requires Contains(s, sub)
    ensures Contains(pre + s + post, sub)
  {
    var i :| 0 <= i <= |s| - |sub| && OccursAt(s, sub, i);
    var t := pre + s + post;
    assert t[|pre| + i..|pre| + i + |sub|] == s[i..i + |sub|];
    assert OccursAt(t, sub, |pre| + i);
  }

  /** `parts.join(sep)`. */
  function Join(parts: seq<string>, sep: string): string
  {
    if |parts| == 0 then ""
    else if |parts| == 1 then parts[0]
    else parts[0] + sep + Join(parts[1..], sep)
  }

  /** Joining one more part appends the separator and that part. */
  lemma {:induction false} JoinSnoc(parts: seq<string>, p: string, sep: string)
    ensures Join(parts + [p], sep) == if parts == [] then p else Join(parts, sep) + sep + p
  {
    if |parts| <= 1 {
    } else {
      assert (parts + [p])[1..] == parts[1..] + [p];
      JoinSnoc(parts[1..], p, sep);
    }
  }

  /** The RegExp class `\d`. */
  predicate IsDigit(c: char) {
    '0' <= c <= '9'
  }

  /** The RegExp class `\s` (and the set `trim` removes): the ECMAScript
      WhiteSpace and LineTerminator code points. */
  predicate IsSpace(c: char) {
    c == '\t' || c == '\n' || c == '\U{000B}' || c == '\U{000C}' || c == '\r' || c == ' '
    || c == '\U{00A0}' || c == '\U{1680}' || ('\U{2000}' <= c <= '\U{200A}')
    || c == '\U{2028}' || c == '\U{2029}' || c == '\U{202F}' || c == '\U{205F}'
    || c == '\U{3000}' || c == '\U{FEFF}'
  }

  /** Value of one decimal digit (0 for any other character). */
  function DigitValue(c: char): nat {
    if IsDigit(c) then c as int - '0' as int else 0
  }

  /** Value of a string of decimal digits, as `parseInt` reads it. */
  function DecimalValue(s: string): nat
  {
    if s == [] then 0
    else DecimalValue(s[..|s| - 1]) * 10 + DigitValue(s[|s| - 1])
  }

  /** `s.replace(/[^0-9]/g, "")`: the digits of `s`, in order. */
  function DigitsOf(s: string): (r: string)
    ensures forall i :: 0 <= i < |r| ==> IsDigit(r[i])
    ensures |r| <= |s|
  {
    if s == [] then ""
    else (if IsDigit(s[0]) then [s[0]] else "") + DigitsOf(s[1..])
  }

  /** A string with no digit has no digits to keep. */
  lemma {:induction false} DigitsOfNoDigit(s: string)
    requires forall i :: 0 <= i < |s| ==> !IsDigit(s[i])
    ensures DigitsOf(s) == ""
  {
    if s != [] {
      DigitsOfNoDigit(s[1..]);
    }
  }

  /** `parseInt` applied to a digits-only string: NaN (None) when it is empty. */
  function ParseDigits(s: string): (r: Option<nat>)
    ensures r.None? <==> s == ""
  {
    if s == "" then None else Some(DecimalValue(s))
  }

  /** `s.split(sep)` for a one-character separator. */
  function Split(s: string, sep: char): (r: seq<string>)
    ensures |r| >= 1
    ensures forall k :: 0 <= k < |r| ==> sep !in r[k]
  {
    if s == [] then [""]
    else
      var rest := Split(s[1..], sep);
      if s[0] == sep then [""] + rest
      else [[s[0]] + rest[0]] + rest[1..]
  }

  /** Splitting and re-joining with the same separator gives the string back. */
  lemma {:induction false} SplitJoin(s: string, sep: char)
    ensures Join(Split(s, sep), [sep]) == s
  {
    if s != [] {
      var rest := Split(s[1..], sep);
      SplitJoin(s[1..], sep);
      if s[0] == sep {
        assert ([""] + rest)[1..] == rest;
      } else {
        var r := [[s[0]] + rest[0]] + rest[1..];
        if |rest| == 1 {
          assert r == [[s[0]] + rest[0]];
        } else {
          assert r[1..] == rest[1..];
          assert Join(rest, [sep]) == rest[0] + [sep] + Join(rest[1..], [sep]);
        }
      }
    }
  }

  /** Index of the first non-space character at or after `i`. */
  function SkipSpaces(s: string, i: nat): (j: nat)
    requires i <= |s|
    ensures i <= j <= |s|
    ensures forall m :: i <= m < j ==> IsSpace(s[m])
    ensures j == |s| || !IsSpace(s[j])
    decreases |s| - i
  {
    if i == |s| || !IsSpace(s[i]) then i else SkipSpaces(s, i + 1)
  }

  /** Index just past the last non-space character before `j`. */
  function BackSpaces(s: string, lo: nat, j: nat): (k: nat)
    requires lo <= j <= |s|
    ensures lo <= k <= j
    ensures forall m :: k <= m < j ==> IsSpace(s[m])
    ensures k == lo || !IsSpace(s[k - 1])
    decreases j
  {
    if j == lo || !IsSpace(s[j - 1]) then j else BackSpaces(s, lo, j - 1)
  }

  /** `s.trim()`: the slice between the first and last non-space characters. */
  function Trim(s: string): (r: string)
    ensures exists a, b :: 0 <= a <= b <= |s| && r == s[a..b]
              && (forall m :: 0 <= m < a ==> IsSpace(s[m]))
              && (forall m :: b <= m < |s| ==> IsSpace(s[m]))
    ensures r == [] || (!IsSpace(r[0]) && !IsSpace(r[|r| - 1]))
  {
    var a := SkipSpaces(s, 0);
    var b := BackSpaces(s, a, |s|);
    s[a..b]
  }
}

=== FILE: userstore.dfy ===
/** The client-side user store: the signed-in user's profile record and its
    edits. */
module UserStore {

  import opened Wrappers
  import opened Seqs

  datatype User = User(
    id: int,
    name: string,
    title: string,
    profilePicture: string,
    profileCompletion: int,
    skills: seq<string>,
    location: string,
    experience: string,
    education: string,
    blockchainVerified: bool,
    trustScore: int,
    culturalAdaptability: int,
    marketReadiness: int)

  /** The profile the store starts with. */
  const InitialUser := User(1, "Sarah Chen", "Frontend Developer", "/api/placeholder/60/60", 78,
    ["React", "TypeScript", "JavaScript", "CSS", "HTML"], "Lagos, Nigeria", "3 years",
    "Computer Science, University of Lagos", true, 85, 92, 78)

  /** The fields an update object supplies; None for a field it leaves out.
      Any field may be supplied, the id included. */
  datatype ProfileUpdate = ProfileUpdate(
    id: Option<int>,
    name: Option<string>,
    title: Option<string>,
    profilePicture: Option<string>,
    profileCompletion: Option<int>,
    skills: Option<seq<string>>,
    location: Option<string>,
    experience: Option<string>,
    education: Option<string>,
    blockchainVerified: Option<bool>,
    trustScore: Option<int>,
    culturalAdaptability: Option<int>,
    marketReadiness: Option<int>)

  const NoUpdate := ProfileUpdate(None, None, None, None, None, None, None, None, None, None, None, None, None)

  /** `updateProfile`: `{ ...user, ...updates }`. */
  function UpdateProfile(u: User, up: ProfileUpdate): (r: User)
    ensures r.id == up.id.GetOr(u.id)
    ensures r.name == up.name.GetOr(u.name) && r.title == up.title.GetOr(u.title)
    ensures r.profilePicture == up.profilePicture.GetOr(u.profilePicture)
    ensures r.profileCompletion == up.profileCompletion.GetOr(u.profileCompletion)
    ensures r.skills == up.skills.GetOr(u.skills) && r.location == up.location.GetOr(u.location)
    ensures r.experience == up.experience.GetOr(u.experience) && r.education == up.education.GetOr(u.education)
    ensures r.blockchainVerified == up.blockchainVerified.GetOr(u.blockchainVerified)
    ensures r.trustScore == up.trustScore.GetOr(u.trustScore)
    ensures r.culturalAdaptability == up.culturalAdaptability.GetOr(u.culturalAdaptability)
    ensures r.marketReadiness == up.marketReadiness.GetOr(u.marketReadiness)
  {
    User(up.id.GetOr(u.id), up.name.GetOr(u.name), up.title.GetOr(u.title), up.profilePicture.GetOr(u.profilePicture),
      up.profileCompletion.GetOr(u.profileCompletion), up.skills.GetOr(u.skills), up.location.GetOr(u.location),
      up.experience.GetOr(u.experience), up.education.GetOr(u.education),
      up.blockchainVerified.GetOr(u.blockchainVerified), up.trustScore.GetOr(u.trustScore),
      up.culturalAdaptability.GetOr(u.culturalAdaptability), up.marketReadiness.GetOr(u.marketReadiness))
  }

  /** An empty update changes nothing, and an update applied twice is
      applied once. */
  lemma UpdateProfileLaws(u: User, up: ProfileUpdate)
    ensures UpdateProfile(u, NoUpdate) == u
    ensures UpdateProfile(UpdateProfile(u, up), up) == UpdateProfile(u, up)
  {
  }

  /** `updateProfileCompletion`: only the completion changes. */
  function UpdateProfileCompletion(u: User, completion: int): (r: User)
    ensures r.profileCompletion == completion
    ensures r.(profileCompletion := u.profileCompletion) == u
  {
    u.(profileCompletion := completion)
  }

  /** Setting the completion is the update that supplies only the completion. */
  lemma CompletionIsAnUpdate(u: User, completion: int)
    ensures UpdateProfileCompletion(u, completion) == UpdateProfile(u, NoUpdate.(profileCompletion := Some(completion)))
  {
  }

  /** `addSkill`: the skill goes at the end, even when already listed. */
  function AddSkill(u: User, skill: string): (r: User)
    ensures |r.skills| == |u.skills| + 1 && r.skills[..|u.skills|] == u.skills && r.skills[|u.skills|] == skill
    ensures multiset(r.skills)[skill] == multiset(u.skills)[skill] + 1
    ensures r.(skills := u.skills) == u
  {
    u.(skills := u.skills + [skill])
  }

  /** `removeSkill`: every copy of the skill goes; the rest stay, in order. */
  function RemoveSkill(u: User, skill: string): (r: User)
    ensures skill !in r.skills
    ensures IsSubseq(r.skills, u.skills)
    ensures forall s :: s != skill ==> (s in r.skills <==> s in u.skills)
    ensures forall s :: s != skill ==> multiset(r.skills)[s] == multiset(u.skills)[s]
    ensures r.(skills := u.skills) == u
  {
    u.(skills := Without(u.skills, skill))
  }

  /** Removing a skill just added leaves what removing it alone leaves,
      however many copies were listed before. */
  lemma AddThenRemove(u: User, skill: string)
    ensures RemoveSkill(AddSkill(u, skill), skill) == RemoveSkill(u, skill)
  {
    FilterConcat(u.skills, [skill], Differs(skill));
    assert Filter([skill], Differs(skill)) == [];
  }

  /** `setUser`: the record is replaced as a whole. */
  function SetUser(u: User, userData: User): (r: User)
    ensures r == userData
  {
    userData
  }
}

=== FILE: wrappers.dfy ===
/** The optional value used wherever the source has `undefined`, `null`
    or `NaN` in place of a value. */
module Wrappers {

  datatype Option<T> = None | Some(value: T) {

    /** The value, or `default` when there is none (the `x || default` idiom). */
    function GetOr(default: T): T {
      match this
      case Some(v) => v
      case None => default
    }
  }
}
